=== FILE: README.md ===
# Personal finance tracker backend — a Dafny model

This project models the Django backend of a personal finance tracker.
Users record income and expense **transactions**, each optionally filed
under a **category**. Categories are either the user's own or shared
defaults. Users also keep **recurring transaction** templates and set
spending **budgets** per category and period. The model covers:

- the three record types with their choices, defaults, orderings and
  deletion rules (`TransactionModels`, `BudgetModels`);
- what the serializers accept and compute: the amount guard, read-only
  fields, a budget's spent, remaining and percentage-used figures, and its
  date check (`TransactionSerializers`, `BudgetSerializers`);
- the query sets and reports of the transaction and budget view sets:
  the filtered lists, the period summary with its category breakdown, the
  six-month trends, the ten most recent rows, the budget overview with its
  alerts, and the bulk creation of this month's budgets (`TransactionViews`,
  `BudgetViews`);
- the three analytics endpoints: rule-based insights, the spending
  forecast and the month-over-month comparison (`Analytics`);
- the `create_default_categories` management command (`DefaultCategories`).

Conventions used throughout:

- The database is a sequence of immutable records per table. A query-set
  filter is `Seqs.Filter`. An `order_by` is `Seqs.SortBy`, an insertion
  sort by the Meta ordering. A `values(...).annotate(Sum, Count)` is
  `Aggregates.GroupBy`, which is proved equal to the independent reference
  sums `SumWithKey` and `CountWithKey`.
- Money is an integer number of cents. A `DecimalField(max_digits=10,
  decimal_places=2)` holds exactly those values (`TransactionModels.DecimalToCents`).
  Ratios and percentages are exact `real`s.
- "Today" (`datetime.now().date()`) and the creation timestamp are
  parameters. Dates are proleptic Gregorian (`Dates`), with
  `timedelta` subtraction and `replace(day=1)` written out.
- The requesting user is a `nat` id. Errors that Python raises are a
  `Result` with a `PyError`, and validation errors are a `FieldError`
  naming the field.

## Model

| member | source | states |
|---|---|---|
| TransactionModels.KindChoices | backend/transactions/models.py:9-12 | a `type` string parses to a kind exactly when it is "expense" or "income", and names round-trip |
| TransactionModels.FrequencyChoices | backend/transactions/models.py:79-84 | a frequency string parses exactly when it is one of the four choices, and names round-trip |
| TransactionModels.DecimalToCents | backend/transactions/models.py:50 | a decimal is stored only when it has at most two decimal places and fits in ten digits; the cents stored equal the value times 100 |
| TransactionModels.CentsRoundTrip | backend/transactions/models.py:50 | every amount within ten digits survives conversion to a decimal and back unchanged |
| TransactionModels.FindCategory | backend/transactions/models.py:52-57 | a nullable category reference resolves to a stored category with that id, or to nothing when the id is null or no category has it |
| TransactionModels.DeleteCategory | backend/transactions/models.py:52-57 | deleting a category removes exactly that row and keeps every transaction, in place, with its category cleared where it pointed at the deleted one |
| TransactionModels.DeleteCategoryFromTemplates | backend/transactions/models.py:93 | deleting a category keeps every template in place; none points at the deleted category any more, templates on other categories are unchanged, and on the affected ones only the category field changes |
| BudgetModels.PeriodChoices | backend/budgets/models.py:9-13 | a period string parses exactly when it is weekly, monthly or yearly, and names round-trip |
| BudgetModels.AppendKeepsUniqueKeys | backend/budgets/models.py:38 | the (user, category, period, start date) constraint admits a new budget exactly when no stored budget has its key |
| BudgetModels.DeleteCategoryBudgets | backend/budgets/models.py:20-24 | deleting a category deletes exactly the budgets on that category and keeps all others |
| Seqs.SortBy | backend/transactions/models.py:65 | sorting by a total order yields a sorted permutation of the rows |
| Aggregates.GroupBy | backend/transactions/views.py:139-144 | grouping gives one group per distinct key; each group's total and count equal the reference sum and count of the rows with that key; the totals add up to the sum of all rows |
| Aggregates.GroupsMatchReference | backend/transactions/views.py:139-144 | every group produced has a positive count and the reference total and count for its key |
| Aggregates.SortKeepsGroups | backend/transactions/views.py:144 | ordering the groups by total keeps the same keys, each with the same total, and keeps them distinct |
| Aggregates.FirstOfDescendingIsLargest | backend/analytics/views.py:60-64 | the first group under `order_by('-total')` has the largest total of all groups |
| Aggregates.SumSplit | backend/transactions/views.py:129-136 | the rows a filter keeps and the rows it drops sum to the total of all rows |
| Rounding.Round2PercentBounds | backend/budgets/serializers.py:51-59 | a two-place rounded percentage is within half a hundredth of the exact one |
| Rounding.Round2ChangeBounds | backend/analytics/views.py:197-198 | a two-place rounded change percentage is within half a hundredth of the exact change |
| TransactionSerializers.CreateCategory | backend/transactions/serializers.py:9-21 | a created category belongs to the requester and is never a default, whatever the client sent; omitted icon and color take the model defaults |
| TransactionSerializers.CategoryReadOnlyFieldsIgnored | backend/transactions/serializers.py:12 | two payloads that agree on the writable fields create the same category, so id, is_default and created_at from the client have no effect |
| TransactionSerializers.ValidateAmountAsWritten | backend/transactions/serializers.py:43-49 | the guard as written rejects an amount exactly when it is present and negative |
| TransactionSerializers.CreateTransactionAsWritten | backend/transactions/serializers.py:43-56 | as written, creation fails on the amount field exactly when the amount is negative; otherwise the row belongs to the requester, carries the payload's fields and has an amount of at least zero |
| TransactionSerializers.ZeroAmountPassesAsWritten | backend/transactions/serializers.py:47 | an amount of zero passes the guard as written but not the corrected one |
| TransactionSerializers.ValidateAmount | backend/transactions/serializers.py:43-49 | the corrected guard rejects an amount, on the field "amount", exactly when it is present and not positive |
| TransactionSerializers.GuardsDifferOnlyAtZero | backend/transactions/serializers.py:47 | the two guards disagree exactly on the amount zero |
| TransactionSerializers.CreateTransaction | backend/transactions/serializers.py:43-56 | with the corrected guard, creation fails on the amount field exactly when the amount is not positive; otherwise the row belongs to the requester, carries the payload's fields and has a positive amount |
| TransactionSerializers.CreateDiffersOnlyAtZero | backend/transactions/serializers.py:47-56 | the as-written and corrected creations differ exactly on the amount zero, which as written stores a row with amount 0 |
| TransactionSerializers.TransactionReadOnlyFieldsIgnored | backend/transactions/serializers.py:41 | client-supplied id, created_at and updated_at do not change the created transaction |
| TransactionSerializers.SerializeTransaction | backend/transactions/serializers.py:29-32 | the category name, icon and color appear exactly when the transaction's category exists, always together, and are then the name, icon and color of a category with the transaction's category id |
| TransactionSerializers.DeletedCategoryLeavesNoName | backend/transactions/serializers.py:29-32 | after its category is deleted, a transaction serializes with no category and no category name, icon or color |
| TransactionSerializers.CreateRecurring | backend/transactions/serializers.py:59-79 | a created template belongs to the requester, carries the payload's fields and is active unless the client says otherwise |
| BudgetSerializers.SpentAmount | backend/budgets/serializers.py:30-42 | the spent amount is the reference sum over exactly the owner's expenses in the budget's category dated from its start to its end date, both included; 0 when there are none |
| BudgetSerializers.SpentAmountAppend | backend/budgets/serializers.py:30-42 | a new transaction raises a budget's spent amount by its amount when it is the owner's expense in the budget's category within the budget's dates, and leaves it unchanged otherwise |
| BudgetSerializers.SpentAmountNone | backend/budgets/serializers.py:30-42 | with no matching expense the spent amount is zero |
| BudgetSerializers.RemainingAmount | backend/budgets/serializers.py:44-49 | remaining plus spent is the budget amount, and remaining is negative exactly when spending exceeds the budget |
| BudgetSerializers.PercentageUsed | backend/budgets/serializers.py:51-59 | a budget whose amount is not positive shows 0 percent; otherwise the figure is spent over amount times 100 to the nearest hundredth (within half a hundredth), and non-negative for non-negative spending |
| BudgetSerializers.PercentageUsedAtLeast | backend/budgets/serializers.py:51-59 | the rounded percentage reaches a whole-number bound exactly when 20000 times the spent amount is at least (200 times the bound minus 1) times the budget amount |
| BudgetSerializers.OverspentShowsFullUse | backend/budgets/serializers.py:51-59 | spending at least the budget shows at least 100 percent |
| BudgetSerializers.ValidateDates | backend/budgets/serializers.py:61-70 | with both dates given, validation passes exactly when the start is strictly before the end, and otherwise fails on the field "end_date" |
| BudgetSerializers.CreateBudget | backend/budgets/serializers.py:72-77 | a created budget belongs to the requester and carries the payload's fields, including a supplied alert threshold; it is active by default and alerts at 80 percent by default |
| BudgetViews.BudgetQuery | backend/budgets/views.py:15-26 | the list holds exactly the requester's budgets that match the is_active and period parameters, latest start date first |
| BudgetViews.IsActiveParam | backend/budgets/views.py:18-20 | `is_active` selects active budgets exactly when it reads "true" in any letter case, and inactive ones for any other value |
| BudgetViews.Serialize | backend/budgets/serializers.py:12-59 | a serialized budget carries the budget, its category's name exactly when that category exists, its spent amount and percentage used, and a remaining amount that adds up with the spent amount to the budget's amount |
| BudgetViews.SerializeAll | backend/budgets/views.py:43-45 | each budget of the list is serialized in place, so the serialized list has the list's budgets in the list's order |
| BudgetViews.AlertFor | backend/budgets/views.py:47-59 | a danger alert exactly at 100 percent or more, a warning exactly between the alert threshold and 100 percent, nothing below both; the danger alert reports the size of the overage |
| BudgetViews.Alerts | backend/budgets/views.py:43-61 | the alerts are exactly those raised by the serialized budgets, at most one per budget; their order is fixed by `AlertsSingle` and `AlertsAppend` |
| BudgetViews.AlertsSingle | backend/budgets/views.py:43-61 | one budget contributes its own alert, if it raises one, and nothing otherwise |
| BudgetViews.AlertsAppend | backend/budgets/views.py:43-61 | the alerts of two runs of budgets are the alerts of the first followed by those of the second, so alerts come in budget order |
| BudgetViews.BudgetOverview | backend/budgets/views.py:32-67 | the overview serializes exactly the listed budgets that are active and whose dates contain today, latest start date first; the count is their number and the alerts are theirs |
| BudgetViews.OverspentBudgetRaisesDanger | backend/budgets/views.py:47-53 | a current budget whose spending reaches its amount produces a danger alert carrying the overspent amount |
| BudgetViews.UnderThresholdRaisesNothing | backend/budgets/views.py:47-59 | a budget below its threshold and below 100 percent produces no alert |
| BudgetViews.CreateMonthly | backend/budgets/views.py:70-101 | afterwards every requested category has a monthly budget starting this month; only keys that were absent are created; the new rows are appended and returned |
| BudgetViews.CreatedBudgetsCoverThisMonth | backend/budgets/views.py:71-93 | each created budget is the requester's active monthly budget from the first to the last day of this month with the requested amount and the default threshold |
| BudgetViews.CreateMonthlyNothingNew | backend/budgets/views.py:82-95 | when every requested key exists already, nothing is created |
| BudgetViews.CreateMonthlyIdempotent | backend/budgets/views.py:82-95 | posting the same request twice creates nothing the second time |
| BudgetViews.CreateMonthlyKeepsUniqueKeys | backend/budgets/views.py:82-95 | bulk creation never violates the budgets' unique key |
| Dates.PrevMonthWindowIsPrevMonth | backend/analytics/views.py:177-186 | the window from the previous month's first day to the day before this month's first day holds exactly the dates of the previous calendar month, January included |
| Dates.MonthEnd | backend/budgets/views.py:74-77 | the day before the next month's first day is a valid date: the last day of this month, December included |
| Dates.NinetyDayWindowSpansFiveMonths | backend/analytics/views.py:15-21 | a date in the trailing 90-day window lies in one of the five months ending with today's |
| Dates.MonthNumberDeterminesYearInWindow | backend/analytics/views.py:32-36 | within the trailing 90-day window, two dates with the same month number are in the same year |
| Dates.CurrentMonthInsideWindow | backend/analytics/views.py:15-21 | every date of the current month up to today is inside the trailing 90-day window |
| DefaultCategories.NewDefault | backend/transactions/management/commands/create_default_categories.py:35-43 | a created category is a shared default of the loop's kind with its seed's name, icon and color, and a fresh id |
| DefaultCategories.SeedLists | backend/transactions/management/commands/create_default_categories.py:31-67 | after the command every seed name exists as a default category of its kind; every created row is a shared default that was missing before, with the name, icon and color of a seed of the list of its kind; expense rows come before income rows; no more rows are created than seeds |
| DefaultCategories.SeedAll | backend/transactions/management/commands/create_default_categories.py:34-49 | one `get_or_create` loop leaves every seed present with the loop's kind and creates only shared defaults of that kind for seeds that were missing, each with its seed's name, icon and color |
| DefaultCategories.SeedListsIdempotent | backend/transactions/management/commands/create_default_categories.py:34-67 | running the command a second time creates nothing |
| DefaultCategories.SeedListsOnEmpty | backend/transactions/management/commands/create_default_categories.py:34-67 | on an empty table, seed lists of distinct names create one category per seed |
| DefaultCategories.SeedEmptyCreatesAll | backend/transactions/management/commands/create_default_categories.py:9-71 | on an empty table the command creates all fifteen default categories |
| DefaultCategories.SeedDefaults | backend/transactions/management/commands/create_default_categories.py:9-71 | the command creates at most fifteen categories |
| TransactionViews.CategoryQuery | backend/transactions/views.py:26-34 | a user sees exactly their own categories and the defaults, in name order |
| TransactionViews.CategoriesOfKind | backend/transactions/views.py:36-54 | the expense and income endpoints list exactly the visible categories of that kind, in name order |
| TransactionViews.CustomCategoryIsPrivate | backend/transactions/views.py:26-34 | a category a user created is visible to that user and to no other |
| TransactionViews.DefaultCategoryIsShared | backend/transactions/views.py:26-54 | a default category is visible to every user, in the full list and in its kind's list |
| TransactionViews.DestroyCategory | backend/transactions/views.py:14-34 | deleting is refused exactly when no category with that id is visible to the user; otherwise the category goes, its budgets are deleted with it, and the transactions and recurring templates that used it stay in place with the category cleared |
| TransactionViews.TransactionQuery | backend/transactions/views.py:65-88 | the list holds exactly the user's rows that match the type, category and full date range, newest first |
| TransactionViews.QueryIsPerUser | backend/transactions/views.py:70 | no row appears in the lists of two different users |
| TransactionViews.HalfRangeIgnored | backend/transactions/views.py:83-86 | a start date without an end date filters nothing |
| TransactionViews.UnknownTypeMatchesNothing | backend/transactions/views.py:73-75 | a type parameter that is not a choice yields an empty list |
| TransactionViews.SummaryRange | backend/transactions/views.py:116-124 | the summary covers the requested dates when both are given, and the month to date otherwise |
| TransactionViews.SummaryRows | backend/transactions/views.py:113-126 | the summary aggregates exactly the listed rows inside its range |
| TransactionViews.SavingsRate | backend/transactions/views.py:147-148 | the savings rate is 0 without income; otherwise it is income minus expenses over income times 100 to the nearest hundredth (within half a hundredth), between 0 and 100 when expenses do not exceed income, at most 0 when they do, and 100 without expenses |
| TransactionViews.IncomeExpenseSplit | backend/transactions/views.py:129-136 | income and expenses together make up every row of the range |
| TransactionViews.OfKindSum | backend/transactions/views.py:129-136 | the total of the rows of one kind is the reference sum of the rows keyed by kind |
| TransactionViews.Breakdown | backend/transactions/views.py:139-144 | one group per category label, largest total first, each total and count the reference sum and count for that label, the totals adding up to the expenses |
| TransactionViews.SummaryOf | backend/transactions/views.py:97-161 | net is income minus expenses; income plus expenses is the sum of the range's rows; the count is their number; the breakdown adds up to the expenses |
| TransactionViews.Upsert | backend/transactions/views.py:188-209 | one loop step opens the month's row if it is missing, sets that kind's total, keeps the other kind's total, recomputes net and leaves every other row alone |
| TransactionViews.FoldTrends | backend/transactions/views.py:187-209 | the loop yields one row per month with groups, each row holding that month's income and expense totals (0 when absent) and their difference |
| TransactionViews.FoldTrendsOrdered | backend/transactions/views.py:184-209 | groups in month order give rows in strictly ascending month order |
| TransactionViews.MonthlyGroups | backend/transactions/views.py:179-184 | month/type groups are distinct, in month order, cover exactly the months of the window, and hold the reference totals |
| TransactionViews.Trends | backend/transactions/views.py:163-213 | the endpoint's trends have one row per month with a listed row from the last 180 days, in ascending month order, with that month's income and expenses summed over those rows and net their difference |
| TransactionViews.TrendsOf | backend/transactions/views.py:179-213 | the trends have one row per month with data, ascending, with that month's income and expenses from the reference sums and net their difference |
| TransactionViews.TrendRows | backend/transactions/views.py:172-175 | the trends read exactly the listed rows dated from 180 days ago to today |
| TransactionViews.TrendsNonEmptyIffData | backend/transactions/views.py:172-213 | the trends are empty exactly when the window has no rows |
| TransactionViews.Recent | backend/transactions/views.py:215-225 | the recent list is the first ten rows of the list, or all of them when there are fewer |
| TransactionViews.RecentAreNewest | backend/transactions/views.py:223 | every recent row is at least as new as every listed row left out |
| TransactionViews.RecurringQuery | backend/transactions/views.py:236-240 | the recurring list holds exactly the user's templates, by next date |
| Analytics.InsightRows | backend/analytics/views.py:15-21 | the insights read exactly the user's rows dated from 90 days ago on |
| Analytics.MonthlyAverage | backend/analytics/views.py:32-36 | no average without expenses; otherwise the expense total divided by the number of month numbers present, zero exactly when the total is |
| Analytics.MonthCountIsDistinctMonthNumbers | backend/analytics/views.py:34 | the number of groups is the number of distinct month numbers among the expenses |
| Analytics.CurrentMonthInWindow | backend/analytics/views.py:38-42 | every expense of the user dated this month is inside the insights window |
| Analytics.PyMul | backend/analytics/views.py:44 | multiplication raises TypeError exactly when a Decimal meets a float, and otherwise multiplies the values |
| Analytics.AverageAsWritten | backend/analytics/views.py:32-36 | the average is a Decimal exactly when there are expenses with a nonzero total; the fallback `or 0` is an int |
| Analytics.SpendingInsightAsWritten | backend/analytics/views.py:44-57 | a Decimal average makes the spending comparison raise TypeError |
| Analytics.SpendingInsight | backend/analytics/views.py:44-57 | higher spending exactly when this month exceeds 1.2 times the average, lower spending exactly when it does not and is below 0.8 times it, with the difference reported |
| Analytics.SpendingAgreesWithoutAverage | backend/analytics/views.py:36-57 | with the int fallback average the as-written and corrected comparisons agree |
| Analytics.TopCategory | backend/analytics/views.py:60-64 | a top group exists exactly when there are expenses; its name is carried by some expense, its total is the reference sum of that name and no category name has a larger one |
| Analytics.BiggestCategoryInsight | backend/analytics/views.py:59-78 | the biggest-category insight appears exactly when there are expenses; it names a category some expense carries, with that name's reference total, no name having a larger one, and that total's share of all expenses |
| Analytics.Spending | backend/analytics/views.py:32-57 | on the window's expenses, higher spending exactly when this month's total exceeds 1.2 times the monthly average, lower spending exactly when it does not and is below 0.8 times it; no other insight kind |
| Analytics.SavingsInsight | backend/analytics/views.py:81-105 | with income, a good-savings insight exactly when the rate is at least 20 percent and a low-savings one exactly when it is below 10 percent; none without income |
| Analytics.SpendingAsWritten | backend/analytics/views.py:32-57 | the as-written spending step fails exactly when the average is present and nonzero, and otherwise agrees with the corrected one |
| Analytics.InsightsFrom | backend/analytics/views.py:29-105 | at most three insights; the spending insight, when there is one, comes first and is the only spending insight |
| Analytics.InsightsFromSpending | backend/analytics/views.py:44-57 | the list holds a higher- or lower-spending insight exactly when the spending rule produced one |
| Analytics.InsightsFromBiggest | backend/analytics/views.py:59-78 | the list has a biggest-category insight exactly when the window has an expense, right after the spending insight or first without one, and it names the top category of the window's expenses with its total and share |
| Analytics.InsightsFromSavings | backend/analytics/views.py:80-105 | the list holds a good-savings insight exactly when income is positive and expenses are at most 80 percent of it, a low-savings one exactly when expenses exceed 90 percent of it, and the savings insight is always last |
| Analytics.BiggestOf | backend/analytics/views.py:59-78 | the biggest-category step yields an insight exactly when the window has an expense, naming the top category of the window's expenses with its total and share |
| Analytics.SavingsOf | backend/analytics/views.py:80-105 | the savings step is good or low by the 20 and 10 percent thresholds on the window's per-kind reference totals |
| Analytics.InsightOrder | backend/analytics/views.py:29-105 | appending the spending, biggest-category and savings outcomes in that order puts each present one, unchanged, at its fixed position |
| Analytics.InsightsAsWritten | backend/analytics/views.py:13-110 | the endpoint as written reports "not enough data" exactly when the window is empty and raises exactly when the window's expenses have a nonzero average |
| Analytics.InsightsAsWrittenFailsOnOneExpense | backend/analytics/views.py:32-44 | one expense of 10.00 dated today makes the endpoint as written raise TypeError |
| Analytics.InsightsAsWrittenFailsWithExpenses | backend/analytics/views.py:32-44 | with positive amounts, any expense in the window makes the endpoint as written raise |
| Analytics.Insights | backend/analytics/views.py:13-110 | the corrected endpoint reports "not enough data" exactly when the window is empty, and otherwise at most three insights dated today with any spending insight first |
| Analytics.InsightsSpendingLevel | backend/analytics/views.py:32-57 | higher spending is reported exactly when this month's expenses exceed 1.2 times the window's monthly average, lower spending exactly when they do not but fall below 0.8 times it |
| Analytics.InsightsBiggest | backend/analytics/views.py:59-78 | the endpoint has a biggest-category insight exactly when the window has an expense, and it names the category whose expenses in the window sum highest, with that sum and its share of the window's expenses |
| Analytics.InsightsSavings | backend/analytics/views.py:80-105 | the endpoint's savings insight is good exactly from 20 percent of income saved, low exactly under 10 percent, measured on the window's per-kind totals, and always last |
| Analytics.InsightsAgreeWhereAsWrittenRuns | backend/analytics/views.py:13-110 | wherever the endpoint as written returns, it returns what the corrected one does |
| Analytics.PredictionRows | backend/analytics/views.py:119-124 | the forecast reads exactly the user's expenses dated from 180 days ago on |
| Analytics.MonthGroups | backend/analytics/views.py:125-129 | one group per calendar month with expenses, in strictly ascending month order, each with the reference total; the totals add up to all the expenses |
| Analytics.MonthGroupsCount | backend/analytics/views.py:125-131 | the number of monthly totals is the number of calendar months with expenses |
| Analytics.MonthlyTotals | backend/analytics/views.py:137 | the i-th amount is the reference total of the i-th month in ascending order, and the amounts add up to all the expenses |
| Analytics.GroupTotals | backend/analytics/views.py:137 | reading the totals off the groups keeps their order and their sum |
| Analytics.MonthlyTotalsPositive | backend/analytics/views.py:137 | positive amounts give positive monthly totals |
| Analytics.TrendOf | backend/analytics/views.py:153 | increasing exactly above 5 percent, decreasing exactly below -5 percent |
| Analytics.TrendThresholds | backend/analytics/views.py:140-147 | the trend exceeds 5 percent exactly when 20 times the recent mean exceeds 21 times the mean, is below -5 percent exactly when it is below 19 times, and the predicted value is the recent mean scaled by its ratio to the mean |
| Analytics.Average | backend/analytics/views.py:138 | the mean times the count is the sum; it is positive or zero exactly when the sum is |
| Analytics.ForecastFrom | backend/analytics/views.py:140-158 | two months give a low-confidence stable forecast of the mean with trend 0; three or more give the scaled trend forecast with the trend percentage rounded to one place; confidence is medium exactly from four months |
| Analytics.ForecastOf | backend/analytics/views.py:131-158 | no forecast exactly below two months; division by zero exactly when three or more months sum to zero; otherwise the data points are the month count, the historical average is the rounded mean, and from three months the trend and trend percentage come from the last three totals against the mean |
| Analytics.TwoMonthsAreStable | backend/analytics/views.py:143-147 | two months give a stable trend and predict their mean |
| Analytics.PositiveTotalsNeverDivideByZero | backend/analytics/views.py:138-142 | positive monthly totals never raise |
| Analytics.ForecastTrend | backend/analytics/views.py:137-158 | from three positive months the trend, confidence, prediction, historical average and trend percentage follow the thresholds on recent and overall means |
| Analytics.ForecastFromTrend | backend/analytics/views.py:140-154 | against a positive mean the trend is increasing above 21/20 of it, decreasing below 19/20, the prediction is the recent mean scaled by its ratio, and the trend percentage is within half a tenth of the exact one |
| Analytics.Prediction | backend/analytics/views.py:116-158 | no forecast exactly when fewer than two calendar months have expenses; the data points count those months; positive amounts never raise; the historical average is the rounded total over the month count; from three months the trend uses the last three monthly totals in month order |
| Analytics.Totals | backend/analytics/views.py:169-175 | income and expenses are the reference sums of the rows of each kind, they make up all the rows, and savings is their difference |
| Analytics.DirectionOf | backend/analytics/views.py:197-198 | up exactly when the previous total is positive and exceeded, down exactly when it is positive and not reached, same otherwise |
| Analytics.CurrentMonthRows | backend/analytics/views.py:167-175 | the current figures read exactly the user's rows dated from this month's first day on |
| Analytics.PreviousMonthRows | backend/analytics/views.py:177-190 | the previous figures read exactly the user's rows from the previous month's first day through the day before this month's first day |
| Analytics.PreviousMonthIsCalendarMonth | backend/analytics/views.py:177-190 | a row counts as previous month exactly when it is dated in the previous calendar month |
| Analytics.CurrentMonthIsFromThisMonthOn | backend/analytics/views.py:167-175 | a row counts as current month exactly when it is dated this month or later |
| Analytics.Compare | backend/analytics/views.py:164-217 | each month's income and expenses are the per-kind reference sums of its rows, savings their difference; a direction is up exactly when the previous total is positive and exceeded, down exactly when it is positive and not reached; the change is 0 without a positive previous total and otherwise the percentage change to the nearest hundredth |
| Analytics.ChangeOf | backend/analytics/views.py:197-198 | the change is 0 without a positive previous total and otherwise the percentage change to the nearest hundredth |

## Left out

- HTTP routing, authentication, permissions, status codes and the exact shape of the response dictionaries. Users, settings, admin, urls and the frontend are not part of this model.
- Update, partial update and retrieve of the model view sets. Only list, create and destroy are modelled. The amount guard is the same on every path.
- Parsing of query strings and dates. An unparsable date or id raises in Django and is not modelled; parameters arrive as typed values.
- Message strings, emoji icons in messages, `__str__` methods, `:.2f`/`:.1f` formatting and the command's stdout lines.
- Serializer field lengths (`max_length`) and other field-level validation, and the 7-character color field.
- TransactionSerializers.CreateTransaction: requires an amount, because the model field has no default. DRF rejects a create without one before `validate` runs; that field-level rejection is not modelled.
- TransactionSerializers.CreateTransactionAsWritten: the same requirement as `CreateTransaction`.
- BudgetViews.CreateMonthly: assumes every request entry has a `category_id` and an `amount` naming an existing category. The view raises `KeyError` on an entry missing either key, and the database raises `IntegrityError` on an unknown category id; in both cases the budgets created for earlier entries stay. These failures are not modelled.
- `get_or_create` raising `MultipleObjectsReturned` when duplicates already exist, and races between concurrent requests.
- The order of rows that tie on the Meta ordering. The database leaves it unspecified; the model's sort keeps one particular order.
- Rounding.Round2: rounds exact values half-up, whereas Python's `round` on floats rounds half to even on the binary value. The two differ only on ties.
- Rounding.Round1: same difference as `Round2`.
- Floats in `get_spent_amount`, the forecast and the comparison are exact reals. Decimal arithmetic is exact in cents.
- Future-dated rows. The insights and comparison windows have no upper bound, so a row dated after today counts. The model keeps that, but `Dates.MonthNumberDeterminesYearInWindow` only covers dates up to today. Beyond that, grouping by month number can merge months of different years.
- DefaultCategories.SeedDefaults: states only the bound of fifteen. What is created is stated by `SeedLists`, `SeedListsIdempotent` and `SeedEmptyCreatesAll`.
- BudgetSerializers.PercentageUsed: states the value as lying within half a hundredth of the exact percentage rather than as an equation. Which side a tie falls on is left to `Rounding.Round2`.
- TransactionViews.SavingsRate: same bound as `PercentageUsed`.
- Analytics.Compare: same bound as `PercentageUsed` for both change percentages.
- Analytics.InsightsFrom: its contract states the count and the spending insight. Which biggest-category and savings insights appear, and where, is stated by `InsightsFromSpending`, `InsightsFromBiggest` and `InsightsFromSavings`.
- Analytics.Insights: its contract states the empty case, the date, the count and the spending position. The content is stated by `InsightsSpendingLevel`, `InsightsBiggest` and `InsightsSavings`.
- The trends response formats a month as `YYYY-MM`. The model keeps the month index, `year * 12 + month - 1`, which orders the same way.
- Signals, indexes and database-level cascades beyond the deletion rules of the category foreign keys.

## Findings

| source | as written | input that shows it | evidently intended | confidence | as-written member | corrected member |
|---|---|---|---|---|---|---|
| backend/transactions/serializers.py:47 | `attrs.get('amount') and attrs['amount'] <= 0` rejects only a truthy amount, so a zero amount passes and `create` stores a row with amount 0 | amount 0.00 | reject every amount that is not positive, as the validator's docstring says | not executed | TransactionSerializers.ValidateAmountAsWritten, TransactionSerializers.ZeroAmountPassesAsWritten, TransactionSerializers.CreateTransactionAsWritten, TransactionSerializers.CreateDiffersOnlyAtZero | TransactionSerializers.ValidateAmount, TransactionSerializers.GuardsDifferOnlyAtZero, TransactionSerializers.CreateTransaction |
| backend/analytics/views.py:32-51 | the monthly average is the `Avg` of a `DecimalField` sum, a `Decimal`; `avg_monthly_expense * 1.2` multiplies it by a float and raises `TypeError` | one expense of 10.00 dated today | compare this month's spending with 1.2 and 0.8 times the average | not executed | Analytics.InsightsAsWritten, Analytics.InsightsAsWrittenFailsOnOneExpense | Analytics.Insights, Analytics.InsightsSpendingLevel, Analytics.InsightsAgreeWhereAsWrittenRuns |

=== FILE: aggregates.dfy ===
/**
 * The aggregate queries the views issue: `aggregate(Sum('amount'))` over a
 * filtered set, and `values(<key>).annotate(total=Sum('amount'),
 * count=Count('id'))`, a group-by that yields one row per distinct key.
 *
 * A group-by is modelled as a fold that adds each transaction to the group
 * of its key; its contract relates every group to an independent reference,
 * the sum over the transactions carrying that key.
 */
module Aggregates {
  import opened TransactionModels
  import Seqs

  /** `aggregate(total=Sum('amount'))['total'] or 0` */
  function SumAmounts(ts: seq<Transaction>): int {
    if |ts| == 0 then 0 else ts[0].amount + SumAmounts(ts[1..])
  }

  lemma {:induction false} SumAmountsAppend(a: seq<Transaction>, b: seq<Transaction>)
    ensures SumAmounts(a + b) == SumAmounts(a) + SumAmounts(b)
  {
    if |a| == 0 {
      assert a + b == b;
    } else {
      assert (a + b)[1..] == a[1..] + b;
      SumAmountsAppend(a[1..], b);
    }
  }

  /** With positive amounts a sum is positive exactly when something was summed. */
  lemma {:induction false} SumOfPositiveAmounts(ts: seq<Transaction>)
    requires forall t :: t in ts ==> t.amount > 0
    ensures SumAmounts(ts) >= 0
    ensures SumAmounts(ts) > 0 <==> |ts| > 0
  {
    if |ts| > 0 {
      SumOfPositiveAmounts(ts[1..]);
    }
  }

  /** Splitting a set of rows by a condition splits its sum. */
  lemma {:induction false} SumSplit(ts: seq<Transaction>, p: Transaction -> bool)
    ensures SumAmounts(Seqs.Filter(ts, p)) + SumAmounts(Seqs.Filter(ts, (t: Transaction) => !p(t))) == SumAmounts(ts)
  {
    if |ts| > 0 {
      SumSplit(ts[1..], p);
    }
  }

  /** Summing the rows a condition keeps is summing under the condition as a key, at `true`. */
  lemma {:induction false} FilterSum(ts: seq<Transaction>, p: Transaction -> bool)
    ensures SumAmounts(Seqs.Filter(ts, p)) == SumWithKey(ts, p, true)
  {
    if |ts| > 0 {
      FilterSum(ts[1..], p);
    }
  }

  // ---------------------------------------------------------------------------
  // Group-by

  /** One row of a grouped aggregate: the key, `Sum('amount')` and `Count('id')`. */
  datatype Group<K> = Group(key: K, total: int, count: nat)

  /** Reference: the sum over the transactions whose key is `k`. */
  function SumWithKey<K(==)>(ts: seq<Transaction>, key: Transaction -> K, k: K): int {
    if |ts| == 0 then 0
    else (if key(ts[0]) == k then ts[0].amount else 0) + SumWithKey(ts[1..], key, k)
  }

  /** Reference: the number of transactions whose key is `k`. */
  function CountWithKey<K(==)>(ts: seq<Transaction>, key: Transaction -> K, k: K): nat {
    if |ts| == 0 then 0
    else (if key(ts[0]) == k then 1 else 0) + CountWithKey(ts[1..], key, k)
  }

  function KeySet<K>(gs: seq<Group<K>>): set<K> {
    set g | g in gs :: g.key
  }

  predicate DistinctKeys<K(==)>(gs: seq<Group<K>>) {
    forall i, j :: 0 <= i < j < |gs| ==> gs[i].key != gs[j].key
  }

  function SumTotals<K>(gs: seq<Group<K>>): int {
    if |gs| == 0 then 0 else gs[0].total + SumTotals(gs[1..])
  }

  /** The total of the group with key `k`, 0 when there is none. */
  function TotalOf<K(==)>(gs: seq<Group<K>>, k: K): int {
    if |gs| == 0 then 0 else if gs[0].key == k then gs[0].total else TotalOf(gs[1..], k)
  }

  /** The count of the group with key `k`, 0 when there is none. */
  function CountOf<K(==)>(gs: seq<Group<K>>, k: K): nat {
    if |gs| == 0 then 0 else if gs[0].key == k then gs[0].count else CountOf(gs[1..], k)
  }

  lemma {:induction false} LookupMember<K>(gs: seq<Group<K>>, g: Group<K>)
    requires DistinctKeys(gs) && g in gs
    ensures TotalOf(gs, g.key) == g.total && CountOf(gs, g.key) == g.count
  {
    if gs[0] != g {
      assert gs[0].key != g.key by {
        var i :| 0 <= i < |gs| && gs[i] == g;
      }
      LookupMember(gs[1..], g);
    }
  }

  lemma {:induction false} LookupAbsent<K>(gs: seq<Group<K>>, k: K)
    requires k !in KeySet(gs)
    ensures TotalOf(gs, k) == 0 && CountOf(gs, k) == 0
  {
    if |gs| > 0 {
      assert gs[0] in gs;
      assert KeySet(gs[1..]) <= KeySet(gs) by {
        forall g | g in gs[1..] ensures g in gs { }
      }
      LookupAbsent(gs[1..], k);
    }
  }

  lemma KeySetCons<K>(gs: seq<Group<K>>)
    requires |gs| > 0
    ensures KeySet(gs) == {gs[0].key} + KeySet(gs[1..])
  {
    assert gs == [gs[0]] + gs[1..];
    forall g | g in gs ensures g == gs[0] || g in gs[1..] { }
  }

  lemma DistinctCons<K>(g: Group<K>, gs: seq<Group<K>>)
    requires DistinctKeys(gs) && g.key !in KeySet(gs)
    ensures DistinctKeys([g] + gs)
  {
    var s := [g] + gs;
    forall i, j | 0 <= i < j < |s| ensures s[i].key != s[j].key {
      if i == 0 {
        assert s[j] in gs;
      } else {
        assert s[i] == gs[i - 1] && s[j] == gs[j - 1];
      }
    }
  }

  /** The groups after the first keep distinct keys, none of them the first one's. */
  lemma DistinctTail<K>(gs: seq<Group<K>>)
    requires DistinctKeys(gs) && |gs| > 0
    ensures DistinctKeys(gs[1..])
    ensures gs[0].key !in KeySet(gs[1..])
  {
    forall i, j | 0 <= i < j < |gs[1..]| ensures gs[1..][i].key != gs[1..][j].key {
      assert gs[1..][i] == gs[i + 1] && gs[1..][j] == gs[j + 1];
    }
    forall g | g in gs[1..] ensures g.key != gs[0].key {
      var i :| 0 <= i < |gs[1..]| && gs[1..][i] == g;
      assert gs[i + 1] == g;
    }
  }

  /** Adds one transaction's amount to the group of key `k`, opening the group if needed. */
  function AddTo<K(==,!new)>(gs: seq<Group<K>>, k: K, amount: int): (r: seq<Group<K>>)
    requires DistinctKeys(gs)
    ensures DistinctKeys(r)
    ensures KeySet(r) == KeySet(gs) + {k}
    ensures SumTotals(r) == SumTotals(gs) + amount
    ensures forall j :: TotalOf(r, j) == TotalOf(gs, j) + (if j == k then amount else 0)
    ensures forall j :: CountOf(r, j) == CountOf(gs, j) + (if j == k then 1 else 0)
  {
    if |gs| == 0 then
      [Group(k, amount, 1)]
    else if gs[0].key == k then
      var r := [Group(k, gs[0].total + amount, gs[0].count + 1)] + gs[1..];
      KeySetCons(gs);
      KeySetCons(r);
      assert r[1..] == gs[1..];
      assert forall i :: 0 < i < |r| ==> r[i] == gs[i];
      r
    else
      var rest := AddTo(gs[1..], k, amount);
      KeySetCons(gs);
      DistinctCons(gs[0], rest);
      var r := [gs[0]] + rest;
      KeySetCons(r);
      assert r[1..] == rest;
      r
  }

  /**
   * `values(key).annotate(total=Sum('amount'), count=Count('id'))`: one group
   * per distinct key, each holding the sum and count of the transactions
   * with that key.
   */
  function GroupBy<K(==,!new)>(ts: seq<Transaction>, key: Transaction -> K): (r: seq<Group<K>>)
    ensures DistinctKeys(r)
    ensures KeySet(r) == set t | t in ts :: key(t)
    ensures SumTotals(r) == SumAmounts(ts)
    ensures forall j :: TotalOf(r, j) == SumWithKey(ts, key, j)
    ensures forall j :: CountOf(r, j) == CountWithKey(ts, key, j)
  {
    if |ts| == 0 then []
    else
      var rest := GroupBy(ts[1..], key);
      assert (set t | t in ts :: key(t)) == (set t | t in ts[1..] :: key(t)) + {key(ts[0])} by {
        assert ts == [ts[0]] + ts[1..];
      }
      AddTo(rest, key(ts[0]), ts[0].amount)
  }

  /** Every group of a group-by sums and counts exactly the transactions with its key. */
  lemma GroupsMatchReference<K(!new)>(ts: seq<Transaction>, key: Transaction -> K, g: Group<K>)
    requires g in GroupBy(ts, key)
    ensures g.total == SumWithKey(ts, key, g.key)
    ensures g.count == CountWithKey(ts, key, g.key)
    ensures g.count > 0
  {
    var gs := GroupBy(ts, key);
    LookupMember(gs, g);
    assert g.key in KeySet(gs);
    var t :| t in ts && key(t) == g.key;
    CountWithKeyPositive(ts, key, t);
  }

  lemma {:induction false} CountWithKeyPositive<K>(ts: seq<Transaction>, key: Transaction -> K, t: Transaction)
    requires t in ts
    ensures CountWithKey(ts, key, key(t)) > 0
  {
    if ts[0] != t {
      CountWithKeyPositive(ts[1..], key, t);
    }
  }

  /** Distinct keys: there are as many groups as distinct keys. */
  lemma {:induction false} DistinctKeysCount<K>(gs: seq<Group<K>>)
    requires DistinctKeys(gs)
    ensures |KeySet(gs)| == |gs|
  {
    if |gs| > 0 {
      KeySetCons(gs);
      DistinctTail(gs);
      DistinctKeysCount(gs[1..]);
    }
  }

  // ---------------------------------------------------------------------------
  // Ordering groups

  /** `order_by('-total')` */
  predicate ByTotalDesc<K>(a: Group<K>, b: Group<K>) {
    a.total >= b.total
  }

  lemma ByTotalDescTotal<K(!new)>()
    ensures Seqs.Total((a: Group<K>, b: Group<K>) => ByTotalDesc(a, b))
  {
  }

  /** In a list ordered by descending total, the first group has the largest total. */
  lemma {:induction false} FirstOfDescendingIsLargest<K>(gs: seq<Group<K>>)
    requires |gs| > 0
    requires Seqs.SortedBy(gs, (a: Group<K>, b: Group<K>) => ByTotalDesc(a, b))
    ensures forall g :: g in gs ==> g.total <= gs[0].total
  {
    if |gs| > 1 {
      FirstOfDescendingIsLargest(gs[1..]);
      forall g | g in gs ensures g.total <= gs[0].total {
        if g != gs[0] {
          assert g in gs[1..];
        }
      }
    }
  }

  lemma {:induction false} InsertKeepsDistinct<K(!new)>(x: Group<K>, s: seq<Group<K>>, le: (Group<K>, Group<K>) -> bool)
    requires Seqs.Total(le) && Seqs.SortedBy(s, le)
    requires DistinctKeys(s) && x.key !in KeySet(s)
    ensures DistinctKeys(Seqs.Insert(x, s, le))
  {
    if |s| == 0 || le(x, s[0]) {
      DistinctCons(x, s);
    } else {
      KeySetCons(s);
      DistinctTail(s);
      assert Seqs.SortedBy(s[1..], le);
      InsertKeepsDistinct(x, s[1..], le);
      var rest := Seqs.Insert(x, s[1..], le);
      forall g | g in rest ensures g.key != s[0].key {
        assert g in multiset(rest);
        assert s[0] in s;
      }
      DistinctCons(s[0], rest);
    }
  }

  lemma {:induction false} SumTotalsInsert<K(!new)>(x: Group<K>, s: seq<Group<K>>, le: (Group<K>, Group<K>) -> bool)
    requires Seqs.Total(le) && Seqs.SortedBy(s, le)
    ensures SumTotals(Seqs.Insert(x, s, le)) == x.total + SumTotals(s)
  {
    if |s| > 0 && !le(x, s[0]) {
      assert Seqs.SortedBy(s[1..], le);
      SumTotalsInsert(x, s[1..], le);
    }
  }

  /** Ordering groups keeps their grand total. */
  lemma {:induction false} SortKeepsSum<K(!new)>(gs: seq<Group<K>>, le: (Group<K>, Group<K>) -> bool)
    requires Seqs.Total(le)
    ensures SumTotals(Seqs.SortBy(gs, le)) == SumTotals(gs)
  {
    if |gs| > 0 {
      SortKeepsSum(gs[1..], le);
      SumTotalsInsert(gs[0], Seqs.SortBy(gs[1..], le), le);
    }
  }

  /**
   * Ordering a group-by result keeps one group per key and every group's
   * total.
   */
  lemma {:induction false} SortKeepsGroups<K(!new)>(gs: seq<Group<K>>, le: (Group<K>, Group<K>) -> bool)
    requires Seqs.Total(le) && DistinctKeys(gs)
    ensures DistinctKeys(Seqs.SortBy(gs, le))
    ensures KeySet(Seqs.SortBy(gs, le)) == KeySet(gs)
    ensures forall j :: TotalOf(Seqs.SortBy(gs, le), j) == TotalOf(gs, j)
  {
    var r := Seqs.SortBy(gs, le);
    if |gs| > 0 {
      KeySetCons(gs);
      DistinctTail(gs);
      SortKeepsGroups(gs[1..], le);
      InsertKeepsDistinct(gs[0], Seqs.SortBy(gs[1..], le), le);
    }
    assert KeySet(r) == KeySet(gs);
    forall j ensures TotalOf(r, j) == TotalOf(gs, j) {
      if j in KeySet(gs) {
        var g :| g in gs && g.key == j;
        LookupMember(gs, g);
        LookupMember(r, g);
      } else {
        LookupAbsent(gs, j);
        LookupAbsent(r, j);
      }
    }
  }
}

=== FILE: analytics.dfy ===
/**
 * The analytics endpoints: rule-based insights over the last 90 days, a
 * spending forecast from up to six months of monthly totals, and a
 * comparison of this month with the previous one.
 */
module Analytics {
  import opened Wrappers
  import opened Dates
  import opened TransactionModels
  import opened Aggregates
  import opened Rounding
  import opened TransactionViews
  import Seqs

  /** The Python exceptions these endpoints can end with. */
  datatype PyError = TypeError | ZeroDivisionError

  function OptList<T>(o: Option<T>): (r: seq<T>)
    ensures o.Some? ==> r == [o.value]
    ensures o.None? ==> r == []
  {
    if o.Some? then [o.value] else []
  }

  // ---------------------------------------------------------------------------
  // AnalyticsInsightsView

  /** The user's rows dated on or after today minus 90 days (no upper bound). */
  function InsightRows(ts: seq<Transaction>, user: nat, today: Date): (r: seq<Transaction>)
    requires Valid(today)
    ensures forall t :: t in r <==> t in ts && t.owner == user && AtOrBefore(SubDays(today, 90), t.date)
  {
    Seqs.Filter(ts, (t: Transaction) => t.owner == user && AtOrBefore(SubDays(today, 90), t.date))
  }

  datatype Insight =
    | HigherSpending(above: real)
    | LowerSpending(below: real)
    | BiggestCategory(name: Option<string>, percentage: real, total: int)
    | GoodSavingsRate(rate: real)
    | LowSavingsRate(rate: real)

  datatype InsightsResponse = NotEnoughData | InsightList(insights: seq<Insight>, generatedAt: Date)

  /** `values('date__month')`: the month number alone, without the year. */
  function MonthNumber(t: Transaction): int {
    t.date.month
  }

  lemma {:induction false} GroupByEmptyIffNoRows<K(!new)>(ts: seq<Transaction>, key: Transaction -> K)
    ensures |GroupBy(ts, key)| == 0 <==> |ts| == 0
  {
    var gs := GroupBy(ts, key);
    if |ts| > 0 {
      assert key(ts[0]) in KeySet(gs);
    } else {
      DistinctKeysCount(gs);
    }
  }

  /** The number of distinct month numbers among the expenses. */
  function MonthCount(expenses: seq<Transaction>): (n: nat)
    ensures n == 0 <==> |expenses| == 0
  {
    GroupByEmptyIffNoRows(expenses, MonthNumber);
    |GroupBy(expenses, MonthNumber)|
  }

  /** The month numbers among some rows; a group per month number in the insights average. */
  function MonthNumbers(rows: seq<Transaction>): set<int> {
    set t | t in rows :: MonthNumber(t)
  }

  lemma MonthCountIsDistinctMonthNumbers(expenses: seq<Transaction>)
    ensures MonthCount(expenses) == |MonthNumbers(expenses)|
  {
    var gs := GroupBy(expenses, MonthNumber);
    DistinctKeysCount(gs);
    assert KeySet(gs) == MonthNumbers(expenses) by {
      forall k ensures k in KeySet(gs) <==> k in MonthNumbers(expenses) {
        assert k in MonthNumbers(expenses) <==> exists t :: t in expenses && MonthNumber(t) == k;
      }
    }
  }

  /**
   * `Avg` over the per-month-number sums of the expenses: the exact mean,
   * or None when there are no expenses.
   */
  function MonthlyAverage(expenses: seq<Transaction>): (avg: Option<real>)
    ensures avg.None? <==> |expenses| == 0
    ensures avg.Some? ==> avg.value == SumAmounts(expenses) as real / MonthCount(expenses) as real
    ensures avg.Some? ==> (avg.value == 0.0 <==> SumAmounts(expenses) == 0)
  {
    var n := MonthCount(expenses);
    if n == 0 then None else Some(MeanOf(SumAmounts(expenses), n))
  }

  /** `total / count` on exact values. */
  function MeanOf(total: int, count: nat): (m: real)
    requires count > 0
    ensures m * count as real == total as real
    ensures m > 0.0 <==> total > 0
    ensures m == 0.0 <==> total == 0
  {
    total as real / count as real
  }

  /** This month's expenses: month and year equal to today's. */
  function CurrentMonthExpense(expenses: seq<Transaction>, today: Date): int {
    SumAmounts(Seqs.Filter(expenses, (t: Transaction) => t.date.month == today.month && t.date.year == today.year))
  }

  /**
   * Every dated-this-month expense of the user is inside the 90-day
   * window, so the current-month figure covers the whole month.
   */
  lemma CurrentMonthInWindow(ts: seq<Transaction>, user: nat, today: Date, t: Transaction)
    requires Valid(today) && Valid(t.date)
    requires t in ts && t.owner == user && t.date.month == today.month && t.date.year == today.year
    ensures t in InsightRows(ts, user, today)
  {
    CurrentMonthInsideWindow(today, t.date);
  }

  // --- the spending-level insight as written

  /** The numeric types the comparison mixes. */
  datatype PyNum = PyInt(i: int) | PyDecimal(d: real) | PyFloat(f: real)

  function PyValue(x: PyNum): real {
    match x
    case PyInt(i) => i as real
    case PyDecimal(d) => d
    case PyFloat(f) => f
  }

  /** Python's `*`: `Decimal` and `float` do not mix; the other pairs widen as Python does. */
  function PyMul(a: PyNum, b: PyNum): (r: Result<PyNum, PyError>)
    ensures r.Err? <==> (a.PyDecimal? && b.PyFloat?) || (a.PyFloat? && b.PyDecimal?)
    ensures r.Err? ==> r.error == TypeError
    ensures r.Ok? ==> PyValue(r.value) == PyValue(a) * PyValue(b)
  {
    match (a, b)
    case (PyDecimal(_), PyFloat(_)) => Err(TypeError)
    case (PyFloat(_), PyDecimal(_)) => Err(TypeError)
    case (PyInt(x), PyInt(y)) => Ok(PyInt(x * y))
    case (PyFloat(_), _) => Ok(PyFloat(PyValue(a) * PyValue(b)))
    case (_, PyFloat(_)) => Ok(PyFloat(PyValue(a) * PyValue(b)))
    case _ => Ok(PyDecimal(PyValue(a) * PyValue(b)))
  }

  /** `Avg(...)['avg'] or 0`: a missing or zero Decimal becomes the int 0. */
  function AverageAsWritten(avg: Option<real>): (r: PyNum)
    ensures r.PyDecimal? <==> avg.Some? && avg.value != 0.0
    ensures PyValue(r) == (if avg.Some? then avg.value else 0.0)
  {
    if avg.Some? && avg.value != 0.0 then PyDecimal(avg.value) else PyInt(0)
  }

  /** The spending-level branch as written: `avg_monthly_expense * 1.2`, then `* 0.8`. */
  function SpendingInsightAsWritten(current: int, avg: PyNum): (r: Result<Option<Insight>, PyError>)
    ensures avg.PyDecimal? ==> r == Err(TypeError)
  {
    match PyMul(avg, PyFloat(1.2))
    case Err(e) => Err(e)
    case Ok(high) =>
      if current as real > PyValue(high) then Ok(Some(HigherSpending(current as real - PyValue(avg))))
      else
        match PyMul(avg, PyFloat(0.8))
        case Err(e) => Err(e)
        case Ok(low) =>
          if current as real < PyValue(low) then Ok(Some(LowerSpending(PyValue(avg) - current as real)))
          else Ok(None)
  }

  // --- the spending-level insight as intended

  /**
   * The intended comparison, exact: more than 120 percent of the average is
   * higher spending, less than 80 percent is lower spending.
   */
  function SpendingInsight(current: int, avg: real): (r: Option<Insight>)
    ensures r.Some? && r.value.HigherSpending? <==> 5.0 * current as real > 6.0 * avg
    ensures r.Some? && r.value.LowerSpending? <==> 5.0 * current as real <= 6.0 * avg && 5.0 * current as real < 4.0 * avg
    ensures r.Some? ==> r.value.HigherSpending? || r.value.LowerSpending?
    ensures r.Some? && r.value.HigherSpending? ==> r.value.above == current as real - avg
    ensures r.Some? && r.value.LowerSpending? ==> r.value.below == avg - current as real
  {
    if current as real > avg * 1.2 then Some(HigherSpending(current as real - avg))
    else if current as real < avg * 0.8 then Some(LowerSpending(avg - current as real))
    else None
  }

  /** Where the average is zero the code as written runs and agrees with the intended comparison. */
  lemma SpendingAgreesWithoutAverage(current: int)
    ensures SpendingInsightAsWritten(current, PyInt(0)) == Ok(SpendingInsight(current, 0.0))
  {
  }

  // --- the other two insights

  /** `values('category__name')`: the category's name, None for an uncategorised row. */
  function CategoryName(cats: seq<Category>, t: Transaction): Option<string> {
    match FindCategory(cats, t.category)
    case Some(c) => Some(c.name)
    case None => None
  }

  /** The key `values('category__name')` groups by: the name of the row's category, None once it is deleted. */
  function NameKey(cats: seq<Category>): Transaction -> Option<string> {
    t => CategoryName(cats, t)
  }

  /**
   * `i` reports the top spending category of `expenses`: a name some expense
   * carries, whose total is the reference sum for that name and at least the
   * total of every other name, with that total's share of all expenses.
   */
  ghost predicate ReportsTopCategory(i: Insight, expenses: seq<Transaction>, cats: seq<Category>) {
    && i.BiggestCategory?
    && CountWithKey(expenses, NameKey(cats), i.name) > 0
    && i.total == SumWithKey(expenses, NameKey(cats), i.name)
    && (forall t :: t in expenses ==> SumWithKey(expenses, NameKey(cats), CategoryName(cats, t)) <= i.total)
    && i.percentage == PercentOf(i.total, SumAmounts(expenses))
  }

  /**
   * `order_by('-total').first()`: a name group with the largest total, or
   * None without expenses. Categories sharing a name share a group.
   */
  function TopCategory(expenses: seq<Transaction>, cats: seq<Category>): (r: Option<Group<Option<string>>>)
    ensures r.None? <==> |expenses| == 0
    ensures r.Some? ==> r.value.total == SumWithKey(expenses, NameKey(cats), r.value.key)
    ensures r.Some? ==> CountWithKey(expenses, NameKey(cats), r.value.key) > 0
    ensures r.Some? ==> forall t :: t in expenses ==> SumWithKey(expenses, NameKey(cats), CategoryName(cats, t)) <= r.value.total
  {
    var key := NameKey(cats);
    var le := (a: Group<Option<string>>, b: Group<Option<string>>) => ByTotalDesc(a, b);
    var groups := GroupBy(expenses, key);
    GroupByEmptyIffNoRows(expenses, key);
    ByTotalDescTotal<Option<string>>();
    var sorted := Seqs.SortBy(groups, le);
    SortKeepsGroups(groups, le);
    if |sorted| == 0 then None
    else
      FirstOfDescendingIsLargest(sorted);
      assert sorted[0] in groups;
      GroupsMatchReference(expenses, key, sorted[0]);
      assert forall t :: t in expenses ==> SumWithKey(expenses, key, key(t)) <= sorted[0].total by {
        forall t | t in expenses ensures SumWithKey(expenses, key, key(t)) <= sorted[0].total {
          assert key(t) in KeySet(sorted);
          var g :| g in sorted && g.key == key(t);
          GroupsMatchReference(expenses, key, g);
        }
      }
      Some(sorted[0])
  }

  function BiggestCategoryInsight(expenses: seq<Transaction>, cats: seq<Category>): (r: Option<Insight>)
    ensures r.Some? <==> |expenses| > 0
    ensures r.Some? ==> ReportsTopCategory(r.value, expenses, cats)
  {
    match TopCategory(expenses, cats)
    case Some(g) => Some(BiggestCategory(g.key, PercentOf(g.total, SumAmounts(expenses)), g.total))
    case None => None
  }

  /** The savings-rate branch: at least 20 percent saved is good, under 10 percent is low. */
  function SavingsInsight(income: int, expense: int): (r: Option<Insight>)
    ensures r.Some? && r.value.GoodSavingsRate? <==> income > 0 && 5 * expense <= 4 * income
    ensures r.Some? && r.value.LowSavingsRate? <==> income > 0 && 10 * expense > 9 * income
    ensures r.Some? ==> r.value.GoodSavingsRate? || r.value.LowSavingsRate?
    ensures r.Some? ==> r.value.rate == PercentOf(income - expense, income)
  {
    if income > 0 then
      var rate := PercentOf(income - expense, income);
      PercentAtLeast(income - expense, income, 20);
      PercentAtLeast(income - expense, income, 10);
      if rate >= 20.0 then Some(GoodSavingsRate(rate))
      else if rate < 10.0 then Some(LowSavingsRate(rate))
      else None
    else None
  }

  /**
   * The spending-level rule over the window's expenses as written: the
   * average reaches the comparison as a Decimal unless it is missing or zero.
   */
  function SpendingAsWritten(expenses: seq<Transaction>, today: Date): (r: Result<Option<Insight>, PyError>)
    ensures r.Err? <==> var avg := MonthlyAverage(expenses); avg.Some? && avg.value != 0.0
    ensures r.Err? ==> r.error == TypeError
    ensures r.Ok? ==> r.value == Spending(expenses, today)
  {
    var avg := AverageAsWritten(MonthlyAverage(expenses));
    SpendingAgreesWithoutAverage(CurrentMonthExpense(expenses, today));
    SpendingInsightAsWritten(CurrentMonthExpense(expenses, today), avg)
  }

  /**
   * The spending-level rule as intended, with a missing average read as
   * zero: this month's expenses above 120 percent of the monthly average are
   * higher spending, below 80 percent lower spending.
   */
  function Spending(expenses: seq<Transaction>, today: Date): (r: Option<Insight>)
    ensures r.Some? ==> r.value.HigherSpending? || r.value.LowerSpending?
    ensures var cur, avg := CurrentMonthExpense(expenses, today) as real, MonthlyAverage(expenses).GetOr(0.0);
      && (r.Some? && r.value.HigherSpending? <==> 5.0 * cur > 6.0 * avg)
      && (r.Some? && r.value.LowerSpending? <==> 5.0 * cur <= 6.0 * avg && 5.0 * cur < 4.0 * avg)
  {
    var avg := MonthlyAverage(expenses);
    SpendingInsight(CurrentMonthExpense(expenses, today), if avg.Some? then avg.value else 0.0)
  }

  predicate IsSpending(i: Insight) {
    i.HigherSpending? || i.LowerSpending?
  }

  predicate IsSavings(i: Insight) {
    i.GoodSavingsRate? || i.LowSavingsRate?
  }

  /**
   * The three insight rules in order, given the window's rows and the
   * spending-level outcome: the spending insight first, then the biggest
   * category when there are expenses, then the savings rate when it is at
   * least 20 or under 10 percent of income.
   */
  function InsightsFrom(rows: seq<Transaction>, cats: seq<Category>, spending: Option<Insight>): (r: seq<Insight>)
    requires spending.Some? ==> IsSpending(spending.value)
    ensures |r| <= 3
    ensures spending.Some? ==> |r| > 0 && r[0] == spending.value
    ensures forall k :: 0 <= k < |r| && IsSpending(r[k]) ==> k == 0 && spending == Some(r[k])
  {
    var r := OptList(spending) + OptList(BiggestOf(rows, cats)) + OptList(SavingsOf(rows));
    InsightOrder(spending, BiggestOf(rows, cats), SavingsOf(rows), r);
    r
  }

  /** The list holds a higher- or lower-spending insight exactly when the spending rule produced one. */
  lemma InsightsFromSpending(rows: seq<Transaction>, cats: seq<Category>, spending: Option<Insight>)
    requires spending.Some? ==> IsSpending(spending.value)
    ensures var r := InsightsFrom(rows, cats, spending);
      && ((exists k :: 0 <= k < |r| && r[k].HigherSpending?) <==> spending.Some? && spending.value.HigherSpending?)
      && ((exists k :: 0 <= k < |r| && r[k].LowerSpending?) <==> spending.Some? && spending.value.LowerSpending?)
  {
    var r := InsightsFrom(rows, cats, spending);
    if spending.Some? {
      assert r[0] == spending.value;
    }
  }

  /**
   * The biggest-category insight appears exactly when the window holds an
   * expense, right after the spending insight (or first without one).
   */
  lemma InsightsFromBiggest(rows: seq<Transaction>, cats: seq<Category>, spending: Option<Insight>)
    requires spending.Some? ==> IsSpending(spending.value)
    ensures var r := InsightsFrom(rows, cats, spending);
      && ((exists k :: 0 <= k < |r| && r[k].BiggestCategory?) <==> exists t :: t in rows && t.kind == Expense)
      && (forall k :: 0 <= k < |r| && r[k].BiggestCategory? ==> k == (if spending.Some? then 1 else 0))
      && (forall k :: 0 <= k < |r| && r[k].BiggestCategory? ==> ReportsTopCategory(r[k], OfKind(rows, Expense), cats))
  {
    var b, sv := BiggestOf(rows, cats), SavingsOf(rows);
    InsightOrder(spending, b, sv, InsightsFrom(rows, cats, spending));
  }

  /**
   * The savings-rate insight is good from 20 percent of income saved and low
   * under 10 percent, measured on the window's income and expense totals,
   * and it always comes last.
   */
  lemma InsightsFromSavings(rows: seq<Transaction>, cats: seq<Category>, spending: Option<Insight>)
    requires spending.Some? ==> IsSpending(spending.value)
    ensures var r := InsightsFrom(rows, cats, spending);
      var inc, exp := SumWithKey(rows, KindOf, Income), SumWithKey(rows, KindOf, Expense);
      && ((exists k :: 0 <= k < |r| && r[k].GoodSavingsRate?) <==> inc > 0 && 5 * exp <= 4 * inc)
      && ((exists k :: 0 <= k < |r| && r[k].LowSavingsRate?) <==> inc > 0 && 10 * exp > 9 * inc)
      && (forall k :: 0 <= k < |r| && IsSavings(r[k]) ==> k == |r| - 1)
  {
    var b, sv := BiggestOf(rows, cats), SavingsOf(rows);
    InsightOrder(spending, b, sv, InsightsFrom(rows, cats, spending));
  }

  /** The biggest-category insight of the window's expenses: present exactly when there are expenses. */
  function BiggestOf(rows: seq<Transaction>, cats: seq<Category>): (b: Option<Insight>)
    ensures b.Some? ==> b.value.BiggestCategory?
    ensures b.Some? ==> ReportsTopCategory(b.value, OfKind(rows, Expense), cats)
    ensures b.Some? <==> exists t :: t in rows && t.kind == Expense
  {
    var expenses := OfKind(rows, Expense);
    assert |expenses| > 0 <==> exists t :: t in rows && t.kind == Expense by {
      if |expenses| > 0 {
        assert expenses[0] in expenses;
      }
    }
    BiggestCategoryInsight(expenses, cats)
  }

  /** The savings-rate insight of the window: good from 20 percent of income saved, low under 10. */
  function SavingsOf(rows: seq<Transaction>): (sv: Option<Insight>)
    ensures sv.Some? ==> IsSavings(sv.value)
    ensures var inc, exp := SumWithKey(rows, KindOf, Income), SumWithKey(rows, KindOf, Expense);
      && (sv.Some? && sv.value.GoodSavingsRate? <==> inc > 0 && 5 * exp <= 4 * inc)
      && (sv.Some? && sv.value.LowSavingsRate? <==> inc > 0 && 10 * exp > 9 * inc)
  {
    OfKindSum(rows, Income);
    OfKindSum(rows, Expense);
    SavingsInsight(SumAmounts(OfKind(rows, Income)), SumAmounts(OfKind(rows, Expense)))
  }

  /** Where each kind of insight sits in the list built from the three optional insights. */
  lemma InsightOrder(spending: Option<Insight>, b: Option<Insight>, sv: Option<Insight>, r: seq<Insight>)
    requires spending.Some? ==> IsSpending(spending.value)
    requires b.Some? ==> b.value.BiggestCategory?
    requires sv.Some? ==> IsSavings(sv.value)
    requires r == OptList(spending) + OptList(b) + OptList(sv)
    ensures |r| <= 3
    ensures spending.Some? ==> |r| > 0 && r[0] == spending.value
    ensures forall k :: 0 <= k < |r| && IsSpending(r[k]) ==> k == 0 && spending == Some(r[k])
    ensures (exists k :: 0 <= k < |r| && r[k].BiggestCategory?) <==> b.Some?
    ensures forall k :: 0 <= k < |r| && r[k].BiggestCategory? ==> k == (if spending.Some? then 1 else 0) && b == Some(r[k])
    ensures (exists k :: 0 <= k < |r| && r[k].GoodSavingsRate?) <==> sv.Some? && sv.value.GoodSavingsRate?
    ensures (exists k :: 0 <= k < |r| && r[k].LowSavingsRate?) <==> sv.Some? && sv.value.LowSavingsRate?
    ensures forall k :: 0 <= k < |r| && IsSavings(r[k]) ==> k == |r| - 1
  {
    forall k | 0 <= k < |r|
      ensures k < |OptList(spending)| ==> r[k] == spending.value
      ensures |OptList(spending)| <= k < |OptList(spending)| + |OptList(b)| ==> r[k] == b.value
      ensures |OptList(spending)| + |OptList(b)| <= k ==> r[k] == sv.value && k == |r| - 1
    {
    }
    var ns, nb := |OptList(spending)|, |OptList(b)|;
    if b.Some? {
      assert r[ns].BiggestCategory?;
    }
    if sv.Some? {
      assert r[ns + nb] == sv.value;
    }
  }

  /** The endpoint as written, which ends with a TypeError whenever the average is a nonzero Decimal. */
  function InsightsAsWritten(ts: seq<Transaction>, cats: seq<Category>, user: nat, today: Date): (r: Result<InsightsResponse, PyError>)
    requires Valid(today)
    ensures r == Ok(NotEnoughData) <==> |InsightRows(ts, user, today)| == 0
    ensures r.Err? <==> var avg := MonthlyAverage(OfKind(InsightRows(ts, user, today), Expense));
                        avg.Some? && avg.value != 0.0
  {
    var rows := InsightRows(ts, user, today);
    if |rows| == 0 then Ok(NotEnoughData)
    else
      match SpendingAsWritten(OfKind(rows, Expense), today)
      case Err(e) => Err(e)
      case Ok(spending) => Ok(InsightList(InsightsFrom(rows, cats, spending), today))
  }

  /** A single expense of 10.00 dated today is enough to make the endpoint as written fail. */
  lemma InsightsAsWrittenFailsOnOneExpense(today: Date)
    requires Valid(today)
    ensures InsightsAsWritten([Transaction(1, 1, 1000, Expense, None, today, "", false, 0, 0)], [], 1, today) == Err(TypeError)
  {
    var t := Transaction(1, 1, 1000, Expense, None, today, "", false, 0, 0);
    InsightsAsWrittenFailsWithExpenses([t], [], 1, today);
  }

  /** With positive amounts, any expense in the window makes the endpoint as written fail. */
  lemma InsightsAsWrittenFailsWithExpenses(ts: seq<Transaction>, cats: seq<Category>, user: nat, today: Date)
    requires Valid(today)
    requires forall t :: t in ts ==> t.amount > 0
    requires exists t :: t in ts && t.owner == user && t.kind == Expense && AtOrBefore(SubDays(today, 90), t.date)
    ensures InsightsAsWritten(ts, cats, user, today) == Err(TypeError)
  {
    var rows := InsightRows(ts, user, today);
    var expenses := OfKind(rows, Expense);
    var t :| t in ts && t.owner == user && t.kind == Expense && AtOrBefore(SubDays(today, 90), t.date);
    assert t in expenses;
    assert |rows| > 0 by {
      assert t in rows;
    }
    SumOfPositiveAmounts(expenses);
    var avg := MonthlyAverage(expenses);
    assert avg.value != 0.0;
  }

  /** `AnalyticsInsightsView.get` with the spending comparison done exactly, as intended. */
  function Insights(ts: seq<Transaction>, cats: seq<Category>, user: nat, today: Date): (r: InsightsResponse)
    requires Valid(today)
    ensures r.NotEnoughData? <==> |InsightRows(ts, user, today)| == 0
    ensures r.InsightList? ==> r.generatedAt == today && |r.insights| <= 3
    ensures r.InsightList? ==> forall k :: 0 <= k < |r.insights| && IsSpending(r.insights[k]) ==> k == 0
  {
    var rows := InsightRows(ts, user, today);
    if |rows| == 0 then NotEnoughData
    else InsightList(InsightsFrom(rows, cats, Spending(OfKind(rows, Expense), today)), today)
  }

  /**
   * The endpoint reports higher spending when this month's expenses exceed
   * 120 percent of the monthly average over the window, lower spending when
   * they fall under 80 percent, and neither otherwise.
   */
  lemma InsightsSpendingLevel(ts: seq<Transaction>, cats: seq<Category>, user: nat, today: Date)
    requires Valid(today)
    ensures var r := Insights(ts, cats, user, today);
      var exps := OfKind(InsightRows(ts, user, today), Expense);
      var cur, avg := CurrentMonthExpense(exps, today) as real, MonthlyAverage(exps).GetOr(0.0);
      r.InsightList? ==>
        && ((exists k :: 0 <= k < |r.insights| && r.insights[k].HigherSpending?) <==> 5.0 * cur > 6.0 * avg)
        && ((exists k :: 0 <= k < |r.insights| && r.insights[k].LowerSpending?) <==> 5.0 * cur <= 6.0 * avg && 5.0 * cur < 4.0 * avg)
  {
    var rows := InsightRows(ts, user, today);
    if |rows| > 0 {
      InsightsFromSpending(rows, cats, Spending(OfKind(rows, Expense), today));
    }
  }

  /** The endpoint names a biggest spending category exactly when the window holds an expense. */
  lemma InsightsBiggest(ts: seq<Transaction>, cats: seq<Category>, user: nat, today: Date)
    requires Valid(today)
    ensures var r := Insights(ts, cats, user, today);
      r.InsightList? ==>
        && ((exists k :: 0 <= k < |r.insights| && r.insights[k].BiggestCategory?)
            <==> exists t :: t in InsightRows(ts, user, today) && t.kind == Expense)
        && (forall k :: 0 <= k < |r.insights| && r.insights[k].BiggestCategory? ==>
              ReportsTopCategory(r.insights[k], OfKind(InsightRows(ts, user, today), Expense), cats))
  {
    var rows := InsightRows(ts, user, today);
    if |rows| > 0 {
      InsightsFromBiggest(rows, cats, Spending(OfKind(rows, Expense), today));
    }
  }

  /** The savings-rate insight of the endpoint: good from 20 percent of income saved, low under 10, always last. */
  lemma InsightsSavings(ts: seq<Transaction>, cats: seq<Category>, user: nat, today: Date)
    requires Valid(today)
    ensures var r := Insights(ts, cats, user, today);
      var rows := InsightRows(ts, user, today);
      var inc, exp := SumWithKey(rows, KindOf, Income), SumWithKey(rows, KindOf, Expense);
      r.InsightList? ==>
        && ((exists k :: 0 <= k < |r.insights| && r.insights[k].GoodSavingsRate?) <==> inc > 0 && 5 * exp <= 4 * inc)
        && ((exists k :: 0 <= k < |r.insights| && r.insights[k].LowSavingsRate?) <==> inc > 0 && 10 * exp > 9 * inc)
        && (forall k :: 0 <= k < |r.insights| && IsSavings(r.insights[k]) ==> k == |r.insights| - 1)
  {
    var rows := InsightRows(ts, user, today);
    if |rows| > 0 {
      InsightsFromSavings(rows, cats, Spending(OfKind(rows, Expense), today));
    }
  }

  /** The corrected endpoint agrees with the code as written wherever the latter does not fail. */
  lemma InsightsAgreeWhereAsWrittenRuns(ts: seq<Transaction>, cats: seq<Category>, user: nat, today: Date)
    requires Valid(today)
    requires InsightsAsWritten(ts, cats, user, today).Ok?
    ensures InsightsAsWritten(ts, cats, user, today) == Ok(Insights(ts, cats, user, today))
  {
  }

  // ---------------------------------------------------------------------------
  // SpendingPredictionView

  /** The user's expenses dated on or after today minus 180 days. */
  function PredictionRows(ts: seq<Transaction>, user: nat, today: Date): (r: seq<Transaction>)
    requires Valid(today)
    ensures forall t :: t in r <==> t in ts && t.owner == user && t.kind == Expense && AtOrBefore(SubDays(today, 180), t.date)
  {
    Seqs.Filter(ts, (t: Transaction) => t.owner == user && t.kind == Expense && AtOrBefore(SubDays(today, 180), t.date))
  }

  function MonthOf(t: Transaction): int {
    MonthIndex(t.date)
  }

  predicate ByKeyAsc(a: Group<int>, b: Group<int>) {
    a.key <= b.key
  }

  /**
   * `TruncMonth` groups in month order: one group per calendar month that
   * has expenses, oldest first, together holding every expense.
   */
  function MonthGroups(rows: seq<Transaction>): (gs: seq<Group<int>>)
    ensures DistinctKeys(gs) && Seqs.SortedBy(gs, ByKeyAsc)
    ensures forall i, j :: 0 <= i < j < |gs| ==> gs[i].key < gs[j].key
    ensures KeySet(gs) == KeySet(GroupBy(rows, MonthOf))
    ensures forall g :: g in gs ==> g.total == SumWithKey(rows, MonthOf, g.key) && CountWithKey(rows, MonthOf, g.key) > 0
    ensures SumTotals(gs) == SumAmounts(rows)
  {
    var groups := GroupBy(rows, MonthOf);
    assert Seqs.Total(ByKeyAsc);
    var sorted := Seqs.SortBy(groups, ByKeyAsc);
    SortKeepsGroups(groups, ByKeyAsc);
    SortKeepsSum(groups, ByKeyAsc);
    SortedMonthsMatchReference(rows, sorted);
    AscendingDistinctKeys(sorted);
    sorted
  }

  lemma SortedMonthsMatchReference(rows: seq<Transaction>, sorted: seq<Group<int>>)
    requires forall g :: g in sorted ==> g in GroupBy(rows, MonthOf)
    ensures forall g :: g in sorted ==> g.total == SumWithKey(rows, MonthOf, g.key) && CountWithKey(rows, MonthOf, g.key) > 0
  {
    forall g | g in sorted
      ensures g.total == SumWithKey(rows, MonthOf, g.key) && CountWithKey(rows, MonthOf, g.key) > 0
    {
      GroupsMatchReference(rows, MonthOf, g);
    }
  }

  /** Groups with distinct keys in ascending order have strictly ascending keys. */
  lemma AscendingDistinctKeys(gs: seq<Group<int>>)
    requires DistinctKeys(gs) && Seqs.SortedBy(gs, ByKeyAsc)
    ensures forall i, j :: 0 <= i < j < |gs| ==> gs[i].key < gs[j].key
  {
    assert Seqs.Transitive(ByKeyAsc);
    forall i, j | 0 <= i < j < |gs| ensures gs[i].key < gs[j].key {
      Seqs.SortedPairs(gs, ByKeyAsc, i, j);
    }
  }

  /** The calendar months among some rows. */
  function MonthsIn(rows: seq<Transaction>): set<int> {
    set t | t in rows :: MonthOf(t)
  }

  /** One group per calendar month with expenses. */
  lemma MonthGroupsCount(rows: seq<Transaction>)
    ensures |MonthGroups(rows)| == |MonthsIn(rows)|
  {
    var gs := MonthGroups(rows);
    DistinctKeysCount(gs);
    assert KeySet(gs) == MonthsIn(rows) by {
      forall k ensures k in KeySet(gs) <==> k in MonthsIn(rows) {
        assert k in MonthsIn(rows) <==> exists t :: t in rows && MonthOf(t) == k;
      }
    }
  }

  /** The totals of some groups, in order. */
  function GroupTotals(gs: seq<Group<int>>): (r: seq<int>)
    ensures |r| == |gs|
    ensures forall i :: 0 <= i < |gs| ==> r[i] == gs[i].total
    ensures Sum(r) == SumTotals(gs)
  {
    if |gs| == 0 then []
    else
      var rest := GroupTotals(gs[1..]);
      assert ([gs[0].total] + rest)[1..] == rest;
      [gs[0].total] + rest
  }

  /**
   * The monthly totals, oldest month first: the i-th is the sum of the
   * expenses of the i-th month that has any, and together they add up to
   * all the expenses.
   */
  function MonthlyTotals(rows: seq<Transaction>): (amounts: seq<int>)
    ensures |amounts| == |MonthGroups(rows)|
    ensures forall i :: 0 <= i < |amounts| ==> amounts[i] == SumWithKey(rows, MonthOf, MonthGroups(rows)[i].key)
    ensures Sum(amounts) == SumAmounts(rows)
  {
    var gs := MonthGroups(rows);
    var amounts := GroupTotals(gs);
    PositionalTotals(rows, gs, amounts);
    amounts
  }

  lemma PositionalTotals(rows: seq<Transaction>, gs: seq<Group<int>>, amounts: seq<int>)
    requires |amounts| == |gs| && forall i :: 0 <= i < |gs| ==> amounts[i] == gs[i].total
    requires forall g :: g in gs ==> g.total == SumWithKey(rows, MonthOf, g.key)
    ensures forall i :: 0 <= i < |amounts| ==> amounts[i] == SumWithKey(rows, MonthOf, gs[i].key)
  {
    forall i | 0 <= i < |amounts| ensures amounts[i] == SumWithKey(rows, MonthOf, gs[i].key) {
      assert gs[i] in gs;
    }
  }

  /** Positive expenses give positive monthly totals. */
  lemma MonthlyTotalsPositive(rows: seq<Transaction>)
    requires forall t :: t in rows ==> t.amount > 0
    ensures forall a :: a in MonthlyTotals(rows) ==> a > 0
  {
    var amounts := MonthlyTotals(rows);
    forall a | a in amounts ensures a > 0 {
      var i :| 0 <= i < |amounts| && amounts[i] == a;
      var g := MonthGroups(rows)[i];
      assert g in MonthGroups(rows);
      PositiveSumWithKey(rows, MonthOf, g.key);
    }
  }

  lemma {:induction false} PositiveSumWithKey<K>(ts: seq<Transaction>, key: Transaction -> K, k: K)
    requires forall t :: t in ts ==> t.amount > 0
    requires CountWithKey(ts, key, k) > 0
    ensures SumWithKey(ts, key, k) > 0
  {
    assert ts[0] in ts;
    assert forall t :: t in ts[1..] ==> t in ts;
    if key(ts[0]) != k {
      PositiveSumWithKey(ts[1..], key, k);
    } else if CountWithKey(ts[1..], key, k) > 0 {
      PositiveSumWithKey(ts[1..], key, k);
    } else {
      NoCountNoSum(ts[1..], key, k);
    }
  }

  lemma {:induction false} NoCountNoSum<K>(ts: seq<Transaction>, key: Transaction -> K, k: K)
    requires CountWithKey(ts, key, k) == 0
    ensures SumWithKey(ts, key, k) == 0
  {
    if |ts| > 0 {
      NoCountNoSum(ts[1..], key, k);
    }
  }

  function Sum(xs: seq<int>): int {
    if |xs| == 0 then 0 else xs[0] + Sum(xs[1..])
  }

  lemma {:induction false} SumPositive(xs: seq<int>)
    requires |xs| > 0 && forall x :: x in xs ==> x > 0
    ensures Sum(xs) > 0
  {
    assert xs[0] in xs;
    if |xs| > 1 {
      assert forall x :: x in xs[1..] ==> x in xs;
      SumPositive(xs[1..]);
    } else {
      assert xs[1..] == [];
    }
  }

  datatype Confidence = Low | Medium
  datatype Direction = Increasing | Decreasing | Stable

  datatype Forecast = Forecast(
    predictedAmount: real,
    confidence: Confidence,
    trend: Direction,
    trendPercentage: real,
    historicalAverage: real,
    dataPoints: nat)

  /** `(recent / average - 1) * 100` */
  function TrendPercent(recent: real, avg: real): real
    requires avg != 0.0
  {
    (recent / avg - 1.0) * 100.0
  }

  /**
   * `r` is `(recent / avg - 1) * 100` to the nearest tenth: scaled by
   * `10 * avg`, it lies within `avg / 2` of `1000 * (recent - avg)`.
   */
  ghost predicate NearTrendPercent(r: real, recent: real, avg: real) {
    1000.0 * (recent - avg) - 0.5 * avg < r * 10.0 * avg <= 1000.0 * (recent - avg) + 0.5 * avg
  }

  /** `recent * (1 + trend / 100)`: the recent mean moved by the trend. */
  function Scaled(recent: real, trend: real): real {
    recent * (1.0 + trend / 100.0)
  }

  /** The recent mean scaled by its ratio to the overall mean. */
  function ByRatio(recent: real, avg: real): real
    requires avg != 0.0
  {
    recent * (recent / avg)
  }

  /** More than 5 percent either way is a trend; anything within is stable. */
  function TrendOf(trend: real): (d: Direction)
    ensures d == Increasing <==> trend > 5.0
    ensures d == Decreasing <==> trend < -5.0
  {
    if trend > 5.0 then Increasing else if trend < -5.0 then Decreasing else Stable
  }

  /**
   * Against a positive average, the trend exceeds +5 percent exactly when the
   * recent mean exceeds 105 percent of it, falls below -5 percent exactly
   * when the recent mean is under 95 percent of it, and the prediction
   * `recent * (1 + trend / 100)` is `recent * recent / average`.
   */
  lemma TrendThresholds(recent: real, avg: real)
    requires avg > 0.0
    ensures TrendPercent(recent, avg) > 5.0 <==> 20.0 * recent > 21.0 * avg
    ensures TrendPercent(recent, avg) < -5.0 <==> 20.0 * recent < 19.0 * avg
    ensures Scaled(recent, TrendPercent(recent, avg)) == ByRatio(recent, avg)
  {
    var q := recent / avg;
    assert q * avg == recent;
    var tp := TrendPercent(recent, avg);
    assert tp == (q - 1.0) * 100.0;
    assert tp > 5.0 <==> q > 1.05;
    assert tp < -5.0 <==> q < 0.95;
    ScaleByPositive(1.05, q, avg);
    assert q > 1.05 <==> recent > 1.05 * avg;
    ScaleByPositive(q, 0.95, avg);
    assert q < 0.95 <==> recent < 0.95 * avg;
    assert 1.0 + tp / 100.0 == q;
  }

  /** The mean of all monthly totals. */
  function Average(amounts: seq<int>): (m: real)
    requires |amounts| > 0
    ensures m * |amounts| as real == Sum(amounts) as real
    ensures m > 0.0 <==> Sum(amounts) > 0
    ensures m == 0.0 <==> Sum(amounts) == 0
  {
    MeanOf(Sum(amounts), |amounts|)
  }

  /** The mean of the last three monthly totals. */
  function RecentAverage(amounts: seq<int>): real
    requires |amounts| >= 3
  {
    (amounts[|amounts| - 3] + amounts[|amounts| - 2] + amounts[|amounts| - 1]) as real / 3.0
  }

  /** The forecast from the averages; the trend is 0 with only two months. */
  function ForecastFrom(recent: real, avg: real, n: nat): (f: Forecast)
    requires n >= 2 && (n >= 3 ==> avg != 0.0)
    ensures f.dataPoints == n
    ensures f.confidence == Medium <==> n >= 4
    ensures f.historicalAverage == Round2(avg)
    ensures n >= 3 ==> f.trend == TrendOf(TrendPercent(recent, avg))
    ensures n >= 3 ==> f.predictedAmount == Round2(Scaled(recent, TrendPercent(recent, avg)))
    ensures n >= 3 ==> f.trendPercentage == Round1(TrendPercent(recent, avg))
    ensures n == 2 ==> f == Forecast(Round2(recent), Low, Stable, 0.0, Round2(avg), 2)
  {
    var confidence := if n >= 4 then Medium else Low;
    if n >= 3 then
      var trend := TrendPercent(recent, avg);
      Forecast(Round2(Scaled(recent, trend)), confidence, TrendOf(trend), Round1(trend), Round2(avg), n)
    else
      Round1Zero();
      assert Scaled(recent, 0.0) == recent;
      Forecast(Round2(Scaled(recent, 0.0)), confidence, TrendOf(0.0), Round1(0.0), Round2(avg), n)
  }

  lemma Round1Zero()
    ensures Round1(0.0) == 0.0
  {
    assert (0.0 * 10.0 + 0.5).Floor == 0;
  }

  /**
   * The forecast from the monthly totals: None with fewer than two, a
   * ZeroDivisionError when three or more of them average to zero.
   */
  function ForecastOf(amounts: seq<int>): (r: Result<Option<Forecast>, PyError>)
    ensures r == Ok(None) <==> |amounts| < 2
    ensures r.Err? <==> |amounts| >= 3 && Sum(amounts) == 0
    ensures r.Err? ==> r.error == ZeroDivisionError
    ensures r.Ok? && r.value.Some? ==> r.value.value.dataPoints == |amounts|
    ensures r.Ok? && r.value.Some? ==> (r.value.value.confidence == Medium <==> |amounts| >= 4)
    ensures r.Ok? && r.value.Some? ==> r.value.value.historicalAverage == Round2(Sum(amounts) as real / |amounts| as real)
    ensures |amounts| == 2 ==> r.Ok? && r.value.Some? && r.value.value.trend == Stable && r.value.value.trendPercentage == 0.0
    ensures r.Ok? && |amounts| >= 3 ==>
      && Average(amounts) != 0.0 && r.value.Some?
      && r.value.value.trend == TrendOf(TrendPercent(RecentAverage(amounts), Average(amounts)))
      && r.value.value.trendPercentage == Round1(TrendPercent(RecentAverage(amounts), Average(amounts)))
  {
    Round1Zero();
    if |amounts| < 2 then Ok(None)
    else
      var avg := Average(amounts);
      if |amounts| >= 3 && avg == 0.0 then Err(ZeroDivisionError)
      else
        var recent := if |amounts| >= 3 then RecentAverage(amounts) else avg;
        Ok(Some(ForecastFrom(recent, avg, |amounts|)))
  }

  /** With exactly two months the trend is stable and the prediction is the average. */
  lemma TwoMonthsAreStable(a: int, b: int)
    ensures ForecastOf([a, b]).value.value.trend == Stable
    ensures ForecastOf([a, b]).value.value.predictedAmount == Round2((a + b) as real / 2.0)
  {
    assert [a, b][1..] == [b] && [b][1..] == [];
    assert Sum([b]) == b;
    assert Sum([a, b]) == a + b;
    assert Average([a, b]) * 2.0 == (a + b) as real;
  }

  /** With positive monthly totals the forecast never divides by zero. */
  lemma PositiveTotalsNeverDivideByZero(amounts: seq<int>)
    requires forall a :: a in amounts ==> a > 0
    ensures ForecastOf(amounts).Ok?
  {
    if |amounts| > 0 {
      SumPositive(amounts);
    }
  }

  /**
   * With three or more months and a positive total, the trend is
   * "increasing" exactly when the recent mean exceeds the overall mean by
   * more than 5 percent, "decreasing" exactly when it falls short by more
   * than 5 percent, and the prediction scales the recent mean by their ratio.
   */
  lemma ForecastTrend(amounts: seq<int>)
    requires |amounts| >= 3 && Sum(amounts) > 0
    ensures ForecastOf(amounts).Ok? && ForecastOf(amounts).value.Some?
    ensures var f := ForecastOf(amounts).value.value;
      && (f.confidence == Medium <==> |amounts| >= 4)
      && (f.trend == Increasing <==> 20.0 * RecentAverage(amounts) > 21.0 * Average(amounts))
      && (f.trend == Decreasing <==> 20.0 * RecentAverage(amounts) < 19.0 * Average(amounts))
      && f.predictedAmount == Round2(ByRatio(RecentAverage(amounts), Average(amounts)))
      && f.historicalAverage == Round2(Average(amounts))
      && NearTrendPercent(f.trendPercentage, RecentAverage(amounts), Average(amounts))
  {
    var recent, avg := RecentAverage(amounts), Average(amounts);
    ForecastOfMany(amounts);
    var f := ForecastFrom(recent, avg, |amounts|);
    assert ForecastOf(amounts).value.value == f;
    ForecastFromTrend(recent, avg, |amounts|);
  }

  lemma ForecastOfMany(amounts: seq<int>)
    requires |amounts| >= 3 && Sum(amounts) > 0
    ensures Average(amounts) > 0.0
    ensures ForecastOf(amounts) == Ok(Some(ForecastFrom(RecentAverage(amounts), Average(amounts), |amounts|)))
  {
  }

  lemma ForecastFromTrend(recent: real, avg: real, n: nat)
    requires n >= 3 && avg > 0.0
    ensures var f := ForecastFrom(recent, avg, n);
      && (f.trend == Increasing <==> 20.0 * recent > 21.0 * avg)
      && (f.trend == Decreasing <==> 20.0 * recent < 19.0 * avg)
      && f.predictedAmount == Round2(ByRatio(recent, avg))
      && NearTrendPercent(f.trendPercentage, recent, avg)
  {
    TrendThresholds(recent, avg);
    var tp := TrendPercent(recent, avg);
    assert (recent / avg) * avg == recent;
    assert tp * avg == 100.0 * (recent - avg);
    Round1Scaled(tp, avg, 100.0 * (recent - avg));
  }

  /**
   * `SpendingPredictionView.get`: over the months of the last 180 days that
   * have expenses, the historical average is their total over their number,
   * confidence is medium from four months on, and from three months on the
   * trend compares the mean of the last three monthly totals with it.
   */
  function Prediction(ts: seq<Transaction>, user: nat, today: Date): (r: Result<Option<Forecast>, PyError>)
    requires Valid(today)
    ensures r.Ok? && r.value.Some? ==> r.value.value.dataPoints == |MonthsIn(PredictionRows(ts, user, today))|
    ensures r == Ok(None) <==> |MonthsIn(PredictionRows(ts, user, today))| < 2
    ensures (forall t :: t in ts ==> t.amount > 0) ==> r.Ok?
    ensures var rows := PredictionRows(ts, user, today);
      r.Ok? && r.value.Some? ==>
        && (r.value.value.confidence == Medium <==> |MonthsIn(rows)| >= 4)
        && r.value.value.historicalAverage == Round2(SumAmounts(rows) as real / |MonthsIn(rows)| as real)
    ensures var rows := PredictionRows(ts, user, today);
      |MonthsIn(rows)| == 2 ==> r.Ok? && r.value.Some? && r.value.value.trend == Stable && r.value.value.trendPercentage == 0.0
    ensures var a := MonthlyTotals(PredictionRows(ts, user, today));
      r.Ok? && |a| >= 3 ==>
        && Average(a) != 0.0 && r.value.Some?
        && r.value.value.trend == TrendOf(TrendPercent(RecentAverage(a), Average(a)))
        && r.value.value.trendPercentage == Round1(TrendPercent(RecentAverage(a), Average(a)))
  {
    var rows := PredictionRows(ts, user, today);
    var amounts := MonthlyTotals(rows);
    MonthGroupsCount(rows);
    assert (forall t :: t in ts ==> t.amount > 0) ==> ForecastOf(amounts).Ok? by {
      if forall t :: t in ts ==> t.amount > 0 {
        MonthlyTotalsPositive(rows);
        PositiveTotalsNeverDivideByZero(amounts);
      }
    }
    ForecastOf(amounts)
  }

  // ---------------------------------------------------------------------------
  // SpendingComparisonView

  /** One period's figures; savings is income less expenses. */
  datatype PeriodTotals = PeriodTotals(income: int, expenses: int, savings: int)

  datatype Trendline = Up | Down | Same

  datatype Comparison = Comparison(
    current: PeriodTotals,
    previous: PeriodTotals,
    incomeChange: real,
    expenseChange: real,
    incomeDirection: Trendline,
    expenseDirection: Trendline)

  function Totals(rows: seq<Transaction>): (r: PeriodTotals)
    ensures r.savings == r.income - r.expenses
    ensures r.income + r.expenses == SumAmounts(rows)
    ensures r.income == SumWithKey(rows, KindOf, Income)
    ensures r.expenses == SumWithKey(rows, KindOf, Expense)
  {
    IncomeExpenseSplit(rows);
    OfKindSum(rows, Income);
    OfKindSum(rows, Expense);
    var i := SumAmounts(OfKind(rows, Income));
    var e := SumAmounts(OfKind(rows, Expense));
    PeriodTotals(i, e, i - e)
  }

  /** The direction of a change; no previous figure counts as no change. */
  function DirectionOf(current: int, previous: int): (d: Trendline)
    ensures d == Up <==> previous > 0 && current > previous
    ensures d == Down <==> previous > 0 && current < previous
    ensures d == Same <==> previous <= 0 || current == previous
  {
    var c := ChangePercent(current, previous);
    if c > 0.0 then Up else if c < 0.0 then Down else Same
  }

  /** This month so far: the user's rows dated on or after the first of the month (no upper bound). */
  function CurrentMonthRows(ts: seq<Transaction>, user: nat, today: Date): (r: seq<Transaction>)
    requires Valid(today)
    ensures forall t :: t in r <==> t in ts && t.owner == user && AtOrBefore(FirstOfMonth(today), t.date)
  {
    Seqs.Filter(ts, (t: Transaction) => t.owner == user && AtOrBefore(FirstOfMonth(today), t.date))
  }

  /** The previous month: from its first day to the day before this month's first. */
  function PreviousMonthRows(ts: seq<Transaction>, user: nat, today: Date): (r: seq<Transaction>)
    requires Valid(today)
    ensures forall t :: t in r <==> (t in ts && t.owner == user && AtOrBefore(PrevMonthStart(today), t.date) && AtOrBefore(t.date, PrevDay(FirstOfMonth(today))))
  {
    Seqs.Filter(ts, (t: Transaction) => t.owner == user
                   && AtOrBefore(PrevMonthStart(today), t.date) && AtOrBefore(t.date, PrevDay(FirstOfMonth(today))))
  }

  /** For valid dates the previous-month rows are exactly those of the calendar month before today's. */
  lemma PreviousMonthIsCalendarMonth(ts: seq<Transaction>, user: nat, today: Date, t: Transaction)
    requires Valid(today) && Valid(t.date) && t in ts && t.owner == user
    ensures t in PreviousMonthRows(ts, user, today) <==> MonthIndex(t.date) == MonthIndex(today) - 1
  {
    PrevMonthWindowIsPrevMonth(today, t.date);
  }

  /** For valid dates the current rows are those of today's month or any later month. */
  lemma CurrentMonthIsFromThisMonthOn(ts: seq<Transaction>, user: nat, today: Date, t: Transaction)
    requires Valid(today) && Valid(t.date) && t in ts && t.owner == user
    ensures t in CurrentMonthRows(ts, user, today) <==> MonthIndex(t.date) >= MonthIndex(today)
  {
    var f := FirstOfMonth(today);
    if AtOrBefore(f, t.date) {
      MonthIndexMonotone(f, t.date);
    } else {
      MonthIndexMonotone(t.date, f);
      assert Before(t.date, f);
      assert t.date.year != f.year || t.date.month != f.month;
    }
  }

  /**
   * `round((current - previous) / previous * 100, 2)`, or 0 without a
   * previous figure: within half a hundredth of the exact change.
   */
  function ChangeOf(current: int, previous: int): (r: real)
    ensures previous <= 0 ==> r == 0.0
    ensures previous > 0 ==> NearPercent(r, current - previous, previous)
  {
    Round2Exact(0);
    Round2ChangeBounds(current, previous);
    Round2(ChangePercent(current, previous))
  }

  /** `SpendingComparisonView.get` */
  function Compare(ts: seq<Transaction>, user: nat, today: Date): (r: Comparison)
    requires Valid(today)
    ensures r.current.savings == r.current.income - r.current.expenses
    ensures r.previous.savings == r.previous.income - r.previous.expenses
    ensures r.current.income + r.current.expenses == SumAmounts(CurrentMonthRows(ts, user, today))
    ensures r.previous.income + r.previous.expenses == SumAmounts(PreviousMonthRows(ts, user, today))
    ensures r.current.income == SumWithKey(CurrentMonthRows(ts, user, today), KindOf, Income)
    ensures r.current.expenses == SumWithKey(CurrentMonthRows(ts, user, today), KindOf, Expense)
    ensures r.previous.income == SumWithKey(PreviousMonthRows(ts, user, today), KindOf, Income)
    ensures r.previous.expenses == SumWithKey(PreviousMonthRows(ts, user, today), KindOf, Expense)
    ensures r.incomeDirection == Up <==> r.previous.income > 0 && r.current.income > r.previous.income
    ensures r.incomeDirection == Down <==> r.previous.income > 0 && r.current.income < r.previous.income
    ensures r.expenseDirection == Up <==> r.previous.expenses > 0 && r.current.expenses > r.previous.expenses
    ensures r.expenseDirection == Down <==> r.previous.expenses > 0 && r.current.expenses < r.previous.expenses
    ensures r.previous.income <= 0 ==> r.incomeChange == 0.0 && r.incomeDirection == Same
    ensures r.previous.expenses <= 0 ==> r.expenseChange == 0.0 && r.expenseDirection == Same
    ensures r.previous.income > 0 ==> NearPercent(r.incomeChange, r.current.income - r.previous.income, r.previous.income)
    ensures r.previous.expenses > 0 ==> NearPercent(r.expenseChange, r.current.expenses - r.previous.expenses, r.previous.expenses)
  {
    var cur := Totals(CurrentMonthRows(ts, user, today));
    var prev := Totals(PreviousMonthRows(ts, user, today));
    Comparison(cur, prev,
               ChangeOf(cur.income, prev.income),
               ChangeOf(cur.expenses, prev.expenses),
               DirectionOf(cur.income, prev.income),
               DirectionOf(cur.expenses, prev.expenses))
  }
}

=== FILE: budget_models.dfy ===
/**
 * The budgets app's record: a spending limit for one category over a date
 * range, unique per (user, category, period, start date), listed newest
 * start date first.
 */
module BudgetModels {
  import opened Wrappers
  import opened Dates
  import Seqs

  /** `PERIOD_CHOICES` */
  datatype Period = Weekly | Monthly | Yearly

  function PeriodName(p: Period): string {
    match p
    case Weekly => "weekly"
    case Monthly => "monthly"
    case Yearly => "yearly"
  }

  function ParsePeriod(s: string): (r: Option<Period>)
    ensures r.Some? ==> PeriodName(r.value) == s
  {
    if s == "weekly" then Some(Weekly)
    else if s == "monthly" then Some(Monthly)
    else if s == "yearly" then Some(Yearly)
    else None
  }

  lemma PeriodChoices(s: string, p: Period)
    ensures ParsePeriod(PeriodName(p)) == Some(p)
    ensures ParsePeriod(s) == Some(p) <==> s == PeriodName(p)
    ensures ParsePeriod(s).Some? <==> s in {"weekly", "monthly", "yearly"}
  {
  }

  /** `alert_threshold` when none is given. */
  const DefaultAlertThreshold: int := 80

  /** A budget; `amount` is in cents, like every other money field. */
  datatype Budget = Budget(
    id: nat,
    owner: nat,
    category: nat,
    amount: int,
    period: Period,
    startDate: Date,
    endDate: Date,
    isActive: bool,
    alertThreshold: int,
    createdAt: int,
    updatedAt: int)

  /** The columns of `unique_together`. */
  datatype BudgetKey = BudgetKey(owner: nat, category: nat, period: Period, startDate: Date)

  function KeyOf(b: Budget): BudgetKey {
    BudgetKey(b.owner, b.category, b.period, b.startDate)
  }

  /** The table constraint: no two rows share a key. */
  predicate UniqueKeys(bs: seq<Budget>) {
    forall i, j :: 0 <= i < j < |bs| ==> KeyOf(bs[i]) != KeyOf(bs[j])
  }

  /** A new row is accepted by the constraint exactly when no existing row has its key. */
  lemma {:induction false} AppendKeepsUniqueKeys(bs: seq<Budget>, b: Budget)
    requires UniqueKeys(bs)
    ensures UniqueKeys(bs + [b]) <==> forall x :: x in bs ==> KeyOf(x) != KeyOf(b)
  {
    var s := bs + [b];
    if forall x :: x in bs ==> KeyOf(x) != KeyOf(b) {
      forall i, j | 0 <= i < j < |s|
        ensures KeyOf(s[i]) != KeyOf(s[j])
      {
        if j == |bs| {
          assert s[i] in bs;
        }
      }
    } else {
      var x :| x in bs && KeyOf(x) == KeyOf(b);
      var i :| 0 <= i < |bs| && bs[i] == x;
      assert KeyOf(s[i]) == KeyOf(s[|bs|]);
    }
  }

  /** Deleting a category deletes its budgets (`on_delete=CASCADE`). */
  function DeleteCategoryBudgets(bs: seq<Budget>, category: nat): (r: seq<Budget>)
    ensures forall b :: b in r <==> b in bs && b.category != category
  {
    Seqs.Filter(bs, (b: Budget) => b.category != category)
  }

  /** `ordering = ['-start_date']` */
  predicate LatestStartFirst(a: Budget, b: Budget) {
    AtOrBefore(b.startDate, a.startDate)
  }

  lemma LatestStartFirstTotal()
    ensures Seqs.Total(LatestStartFirst)
  {
  }

  lemma LatestStartFirstTransitive()
    ensures Seqs.Transitive(LatestStartFirst)
  {
  }
}

=== FILE: budget_serializers.dfy ===
/**
 * The budget serializer's computed fields (spent, remaining, percentage
 * used), its date-range validation, and the values a created budget gets.
 */
module BudgetSerializers {
  import opened Wrappers
  import opened Dates
  import opened TransactionModels
  import opened BudgetModels
  import opened Aggregates
  import opened Rounding
  import Seqs

  /**
   * The transactions a budget counts: its owner's expenses in its category
   * dated within [start_date, end_date], both ends included.
   */
  predicate CountsAgainst(b: Budget, t: Transaction) {
    && t.owner == b.owner
    && t.category == Some(b.category)
    && t.kind == Expense
    && AtOrBefore(b.startDate, t.date)
    && AtOrBefore(t.date, b.endDate)
  }

  /** The budget's filter as a key: true exactly for the rows it counts. */
  function CountedBy(b: Budget): Transaction -> bool {
    t => CountsAgainst(b, t)
  }

  /** `get_spent_amount`: the sum over the counted rows, 0 when there are none. */
  function SpentAmount(b: Budget, ts: seq<Transaction>): (r: int)
    ensures r == SumWithKey(ts, CountedBy(b), true)
  {
    FilterSum(ts, CountedBy(b));
    SumAmounts(Seqs.Filter(ts, CountedBy(b)))
  }

  /**
   * Adding a transaction to the store changes a budget's spent amount by
   * that transaction's amount when the budget counts it, and not at all
   * otherwise: income, other categories, other users and dates outside the
   * budget's range never affect it.
   */
  lemma SpentAmountAppend(b: Budget, ts: seq<Transaction>, t: Transaction)
    ensures SpentAmount(b, ts + [t]) == SpentAmount(b, ts) + (if CountsAgainst(b, t) then t.amount else 0)
  {
    var p := CountedBy(b);
    Seqs.FilterAppend(ts, [t], p);
    SumAmountsAppend(Seqs.Filter(ts, p), Seqs.Filter([t], p));
    assert [t][1..] == [];
  }

  /** With no counted transaction, nothing has been spent. */
  lemma {:induction false} SpentAmountNone(b: Budget, ts: seq<Transaction>)
    requires forall t :: t in ts ==> !CountsAgainst(b, t)
    ensures SpentAmount(b, ts) == 0
  {
    Seqs.FilterNone(ts, CountedBy(b));
  }

  /** `get_remaining_amount`: may be negative once the budget is overspent. */
  function RemainingAmount(b: Budget, ts: seq<Transaction>): (r: int)
    ensures r + SpentAmount(b, ts) == b.amount
    ensures r < 0 <==> SpentAmount(b, ts) > b.amount
  {
    b.amount - SpentAmount(b, ts)
  }

  /** `get_percentage_used`: spent as a percentage of the amount, two places, 0 for a non-positive amount. */
  function PercentageUsed(b: Budget, ts: seq<Transaction>): (r: real)
    ensures b.amount <= 0 ==> r == 0.0
    ensures b.amount > 0 && SpentAmount(b, ts) >= 0 ==> r >= 0.0
    ensures b.amount > 0 ==> NearPercent(r, SpentAmount(b, ts), b.amount)
  {
    if b.amount > 0 then
      Round2PercentBounds(SpentAmount(b, ts), b.amount);
      Round2(PercentOf(SpentAmount(b, ts), b.amount))
    else 0.0
  }

  /**
   * For a positive amount, the rounded percentage reaches a whole-number
   * bound exactly when spent is at least `bound - 0.005` percent of the
   * amount: `20000 * spent >= (200 * bound - 1) * amount`.
   */
  lemma PercentageUsedAtLeast(b: Budget, ts: seq<Transaction>, bound: int)
    requires b.amount > 0
    ensures PercentageUsed(b, ts) >= bound as real
            <==> 20000 * SpentAmount(b, ts) >= (200 * bound - 1) * b.amount
  {
    Round2PercentAtLeast(SpentAmount(b, ts), b.amount, bound);
  }

  /** Spending the whole amount (or more) shows at least 100 percent used. */
  lemma OverspentShowsFullUse(b: Budget, ts: seq<Transaction>)
    requires b.amount > 0 && SpentAmount(b, ts) >= b.amount
    ensures PercentageUsed(b, ts) >= 100.0
  {
    PercentageUsedAtLeast(b, ts, 100);
  }

  /** `validate`: the end date must come after the start date when both are given. */
  function ValidateDates(start: Option<Date>, end: Option<Date>): (r: Result<(), FieldError>)
    ensures r.Err? ==> r.error == FieldError("end_date")
    ensures start.Some? && end.Some? ==> (r.Ok? <==> Before(start.value, end.value))
    ensures start.None? || end.None? ==> r.Ok?
  {
    if start.Some? && end.Some? && !Before(start.value, end.value) then Err(FieldError("end_date"))
    else Ok(())
  }

  /** The writable fields of a budget request; id and timestamps are read-only. */
  datatype BudgetInput = BudgetInput(
    category: nat,
    amount: int,
    period: Period,
    startDate: Date,
    endDate: Date,
    isActive: Option<bool>,
    alertThreshold: Option<int>)

  /** `create`: the budget belongs to the requester; omitted fields take the model defaults. */
  function CreateBudget(input: BudgetInput, requester: nat, id: nat, now: int): (b: Budget)
    ensures b.owner == requester && b.id == id
    ensures b.category == input.category && b.amount == input.amount && b.period == input.period
    ensures b.startDate == input.startDate && b.endDate == input.endDate
    ensures b.isActive == input.isActive.GetOr(true)
    ensures input.alertThreshold.None? ==> b.alertThreshold == 80
    ensures input.alertThreshold.Some? ==> b.alertThreshold == input.alertThreshold.value
    ensures b.createdAt == now && b.updatedAt == now
  {
    Budget(id, requester, input.category, input.amount, input.period, input.startDate, input.endDate,
           input.isActive.GetOr(true), input.alertThreshold.GetOr(DefaultAlertThreshold), now, now)
  }
}

=== FILE: budget_views.dfy ===
/**
 * The budget endpoints: the listing filters, the overview with its alerts,
 * and the bulk creation of this month's budgets.
 */
module BudgetViews {
  import opened Wrappers
  import opened Dates
  import opened TransactionModels
  import opened BudgetModels
  import opened BudgetSerializers
  import Seqs

  // ---------------------------------------------------------------------------
  // get_queryset

  /** ASCII lower-casing, as `str.lower()` does on ASCII text. */
  function Lower(s: string): (r: string)
    ensures |r| == |s|
    ensures forall i :: 0 <= i < |s| ==> r[i] == (if 'A' <= s[i] <= 'Z' then (s[i] as int + 32) as char else s[i])
  {
    if |s| == 0 then "" else
      var c := if 'A' <= s[0] <= 'Z' then (s[0] as int + 32) as char else s[0];
      [c] + Lower(s[1..])
  }

  /** The `is_active` and `period` query parameters; None when absent. */
  datatype BudgetParams = BudgetParams(isActive: Option<string>, period: Option<string>)

  /** The rows `get_queryset` keeps for `user`. */
  predicate Listed(b: Budget, user: nat, params: BudgetParams) {
    && b.owner == user
    && (params.isActive.Some? ==> b.isActive == (Lower(params.isActive.value) == "true"))
    && (params.period.Some? && params.period.value != "" ==> PeriodName(b.period) == params.period.value)
  }

  /** `get_queryset`: the user's budgets, filtered by the parameters, newest start date first. */
  function BudgetQuery(bs: seq<Budget>, user: nat, params: BudgetParams): (r: seq<Budget>)
    ensures forall b :: b in r <==> b in bs && Listed(b, user, params)
    ensures forall b :: b in r ==> b.owner == user
    ensures Seqs.SortedBy(r, LatestStartFirst)
  {
    LatestStartFirstTotal();
    Seqs.SortBy(Seqs.Filter(bs, (b: Budget) => Listed(b, user, params)), LatestStartFirst)
  }

  /** Any spelling of "true" selects active budgets; every other value selects inactive ones. */
  lemma IsActiveParam(bs: seq<Budget>, user: nat, v: string, b: Budget)
    requires b in bs && b.owner == user
    ensures b in BudgetQuery(bs, user, BudgetParams(Some(v), None)) <==> b.isActive == (Lower(v) == "true")
    ensures b in BudgetQuery(bs, user, BudgetParams(Some("TRUE"), None)) <==> b.isActive
    ensures b in BudgetQuery(bs, user, BudgetParams(Some("yes"), None)) <==> !b.isActive
  {
    assert Lower("TRUE") == "true";
    assert Lower("yes") == "yes";
  }

  // ---------------------------------------------------------------------------
  // overview

  /** One serialized budget with its computed fields. */
  datatype BudgetData = BudgetData(
    budget: Budget,
    categoryName: Option<string>,
    spent: int,
    remaining: int,
    percentageUsed: real)

  function Serialize(b: Budget, ts: seq<Transaction>, cats: seq<Category>): (d: BudgetData)
    ensures d.budget == b
    ensures d.spent + d.remaining == b.amount
    ensures d.spent == SpentAmount(b, ts) && d.percentageUsed == PercentageUsed(b, ts)
    ensures d.categoryName.Some? <==> exists c :: c in cats && c.id == b.category
    ensures d.categoryName.Some? ==> exists c :: c in cats && c.id == b.category && d.categoryName == Some(c.name)
  {
    var c := FindCategory(cats, Some(b.category));
    BudgetData(b, if c.Some? then Some(c.value.name) else None,
               SpentAmount(b, ts), RemainingAmount(b, ts), PercentageUsed(b, ts))
  }

  /** A budget alert: "danger" names the overage in cents, "warning" the percentage used. */
  datatype Alert =
    | Danger(budgetId: nat, category: Option<string>, overage: int)
    | Warning(budgetId: nat, category: Option<string>, percentageUsed: real)

  /** At most one alert per budget: danger from 100 percent, warning from the budget's threshold. */
  function AlertFor(d: BudgetData): (r: Option<Alert>)
    ensures r.Some? && r.value.Danger? <==> d.percentageUsed >= 100.0
    ensures r.Some? && r.value.Warning? <==> d.budget.alertThreshold as real <= d.percentageUsed < 100.0
    ensures r.None? <==> d.percentageUsed < 100.0 && d.percentageUsed < d.budget.alertThreshold as real
    ensures r.Some? ==> r.value.budgetId == d.budget.id && r.value.category == d.categoryName
    ensures r.Some? && r.value.Danger? ==> r.value.overage >= 0 && (r.value.overage == d.remaining || r.value.overage == -d.remaining)
  {
    if d.percentageUsed >= 100.0 then
      Some(Danger(d.budget.id, d.categoryName, if d.remaining < 0 then -d.remaining else d.remaining))
    else if d.percentageUsed >= d.budget.alertThreshold as real then
      Some(Warning(d.budget.id, d.categoryName, d.percentageUsed))
    else None
  }

  /** The alerts of a list of budgets, in the list's order. */
  function Alerts(ds: seq<BudgetData>): (r: seq<Alert>)
    ensures |r| <= |ds|
    ensures forall d :: d in ds && AlertFor(d).Some? ==> AlertFor(d).value in r
    ensures forall a :: a in r ==> exists d :: d in ds && AlertFor(d) == Some(a)
  {
    if |ds| == 0 then []
    else
      var rest := Alerts(ds[1..]);
      assert forall d :: d in ds ==> d == ds[0] || d in ds[1..];
      match AlertFor(ds[0])
      case Some(a) => [a] + rest
      case None => rest
  }

  datatype Overview = Overview(budgets: seq<BudgetData>, alerts: seq<Alert>, totalBudgets: nat)

  /** Active and covering `today`. */
  predicate Current(b: Budget, today: Date) {
    b.isActive && AtOrBefore(b.startDate, today) && AtOrBefore(today, b.endDate)
  }

  /** The overview's order: the listing's, latest start date first. */
  predicate DataLatestStartFirst(x: BudgetData, y: BudgetData) {
    LatestStartFirst(x.budget, y.budget)
  }

  /** `overview` */
  function BudgetOverview(bs: seq<Budget>, ts: seq<Transaction>, cats: seq<Category>, user: nat,
                          params: BudgetParams, today: Date): (r: Overview)
    ensures r.totalBudgets == |r.budgets|
    ensures forall b :: (exists d :: d in r.budgets && d.budget == b) <==> b in bs && Listed(b, user, params) && Current(b, today)
    ensures forall d :: d in r.budgets ==> d == Serialize(d.budget, ts, cats)
    ensures r.alerts == Alerts(r.budgets)
    ensures Seqs.SortedBy(r.budgets, DataLatestStartFirst)
  {
    var active := Seqs.Filter(BudgetQuery(bs, user, params), (b: Budget) => Current(b, today));
    LatestStartFirstTransitive();
    Seqs.FilterKeepsSorted(BudgetQuery(bs, user, params), (b: Budget) => Current(b, today), LatestStartFirst);
    var data := SerializeAll(active, ts, cats);
    assert forall b :: b in active <==> b in bs && Listed(b, user, params) && Current(b, today);
    Overview(data, Alerts(data), |data|)
  }

  /** The serializer applied to each budget of a list, in order. */
  function SerializeAll(bs: seq<Budget>, ts: seq<Transaction>, cats: seq<Category>): (ds: seq<BudgetData>)
    ensures |ds| == |bs|
    ensures forall i :: 0 <= i < |bs| ==> ds[i].budget == bs[i]
    ensures forall b :: (exists d :: d in ds && d.budget == b) <==> b in bs
    ensures forall d :: d in ds ==> d == Serialize(d.budget, ts, cats)
  {
    if |bs| == 0 then []
    else
      var rest := SerializeAll(bs[1..], ts, cats);
      assert forall b :: b in bs <==> b == bs[0] || b in bs[1..];
      [Serialize(bs[0], ts, cats)] + rest
  }

  /**
   * A budget the overview lists whose counted expenses reach its positive
   * amount raises a danger alert naming the overage `spent - amount`.
   */
  lemma OverspentBudgetRaisesDanger(bs: seq<Budget>, ts: seq<Transaction>, cats: seq<Category>, user: nat,
                                    params: BudgetParams, today: Date, b: Budget)
    requires b in bs && Listed(b, user, params) && Current(b, today)
    requires b.amount > 0 && SpentAmount(b, ts) >= b.amount
    ensures exists a :: a in BudgetOverview(bs, ts, cats, user, params, today).alerts
                         && a.Danger? && a.budgetId == b.id && a.overage == SpentAmount(b, ts) - b.amount
  {
    var r := BudgetOverview(bs, ts, cats, user, params, today);
    var d :| d in r.budgets && d.budget == b;
    OverspentShowsFullUse(b, ts);
    assert AlertFor(d).Some?;
    assert AlertFor(d).value in r.alerts;
  }

  /** A single budget raises its own alert, if any, and nothing else. */
  lemma AlertsSingle(d: BudgetData)
    ensures AlertFor(d).None? ==> Alerts([d]) == []
    ensures AlertFor(d).Some? ==> Alerts([d]) == [AlertFor(d).value]
  {
    assert [d][1..] == [];
  }

  /**
   * The alerts of two lists in a row are the alerts of the first followed
   * by those of the second: with `AlertsSingle`, the alerts come in the
   * order of the budgets that raise them.
   */
  lemma {:induction false} AlertsAppend(a: seq<BudgetData>, b: seq<BudgetData>)
    ensures Alerts(a + b) == Alerts(a) + Alerts(b)
  {
    if |a| == 0 {
      assert a + b == b;
    } else {
      assert (a + b)[0] == a[0];
      assert (a + b)[1..] == a[1..] + b;
      AlertsAppend(a[1..], b);
    }
  }

  /** A listed budget below its threshold raises no alert of its own. */
  lemma UnderThresholdRaisesNothing(d: BudgetData)
    requires d.percentageUsed < d.budget.alertThreshold as real && d.percentageUsed < 100.0
    ensures Alerts([d]) == []
  {
  }

  // ---------------------------------------------------------------------------
  // create_monthly_budgets

  /** One entry of the request's `categories` list. */
  datatype MonthlyRequest = MonthlyRequest(categoryId: nat, amount: int)

  function MaxId(bs: seq<Budget>): (m: nat)
    ensures forall b :: b in bs ==> b.id <= m
  {
    if |bs| == 0 then 0 else
      var rest := MaxId(bs[1..]);
      assert forall b :: b in bs ==> b == bs[0] || b in bs[1..];
      if bs[0].id > rest then bs[0].id else rest
  }

  /** The key `get_or_create` looks up for one request entry. */
  function MonthlyKey(user: nat, categoryId: nat, today: Date): BudgetKey
    requires Valid(today)
  {
    BudgetKey(user, categoryId, Period.Monthly, FirstOfMonth(today))
  }

  predicate HasKey(bs: seq<Budget>, k: BudgetKey) {
    exists b :: b in bs && KeyOf(b) == k
  }

  /** The budget `get_or_create` inserts when no row has its key. */
  function NewMonthly(bs: seq<Budget>, user: nat, req: MonthlyRequest, today: Date, now: int): (b: Budget)
    requires Valid(today)
    ensures KeyOf(b) == MonthlyKey(user, req.categoryId, today)
    ensures forall x :: x in bs ==> x.id < b.id
  {
    Budget(MaxId(bs) + 1, user, req.categoryId, req.amount, Period.Monthly,
           FirstOfMonth(today), MonthEnd(today), true, DefaultAlertThreshold, now, now)
  }

  /**
   * Processes the request entries in order; returns the store afterwards and
   * the budgets created. An entry whose key already exists, including one
   * created by an earlier entry of the same request, creates nothing.
   */
  function CreateMonthly(bs: seq<Budget>, user: nat, reqs: seq<MonthlyRequest>, today: Date, now: int): (r: (seq<Budget>, seq<Budget>))
    requires Valid(today)
    ensures r.0 == bs + r.1
    ensures |r.1| <= |reqs|
    ensures forall i :: 0 <= i < |reqs| ==> HasKey(r.0, MonthlyKey(user, reqs[i].categoryId, today))
    ensures forall b :: b in r.1 ==> !HasKey(bs, KeyOf(b))
    decreases |reqs|
  {
    if |reqs| == 0 then (bs, [])
    else
      var k := MonthlyKey(user, reqs[0].categoryId, today);
      var bs1 := if HasKey(bs, k) then bs else bs + [NewMonthly(bs, user, reqs[0], today, now)];
      var step := if HasKey(bs, k) then [] else [NewMonthly(bs, user, reqs[0], today, now)];
      assert HasKey(bs1, k) by {
        if !HasKey(bs, k) {
          assert bs1[|bs|] in bs1;
        }
      }
      var rest := CreateMonthly(bs1, user, reqs[1..], today, now);
      assert bs1 == bs + step;
      MonthlyStep(bs, user, reqs, today, step, rest.0, rest.1);
      (rest.0, step + rest.1)
  }

  /**
   * One step of `CreateMonthly`: the row created for the first entry, if
   * any, followed by what the rest of the request creates, has the contract
   * of the whole request.
   */
  lemma MonthlyStep(bs: seq<Budget>, user: nat, reqs: seq<MonthlyRequest>, today: Date,
                    step: seq<Budget>, all: seq<Budget>, rest: seq<Budget>)
    requires Valid(today) && |reqs| > 0 && |step| <= 1
    requires HasKey(bs + step, MonthlyKey(user, reqs[0].categoryId, today))
    requires forall b :: b in step ==> !HasKey(bs, KeyOf(b))
    requires all == (bs + step) + rest
    requires |rest| <= |reqs[1..]|
    requires forall i :: 0 <= i < |reqs[1..]| ==> HasKey(all, MonthlyKey(user, reqs[1..][i].categoryId, today))
    requires forall b :: b in rest ==> !HasKey(bs + step, KeyOf(b))
    ensures all == bs + (step + rest)
    ensures |step + rest| <= |reqs|
    ensures forall i :: 0 <= i < |reqs| ==> HasKey(all, MonthlyKey(user, reqs[i].categoryId, today))
    ensures forall b :: b in step + rest ==> !HasKey(bs, KeyOf(b))
  {
    var x :| x in bs + step && KeyOf(x) == MonthlyKey(user, reqs[0].categoryId, today);
    assert x in all;
    forall i | 0 < i < |reqs| ensures HasKey(all, MonthlyKey(user, reqs[i].categoryId, today)) {
      assert reqs[i] == reqs[1..][i - 1];
    }
    forall b | b in rest ensures !HasKey(bs, KeyOf(b)) {
      forall y | y in bs ensures KeyOf(y) != KeyOf(b) {
        assert y in bs + step;
      }
    }
  }

  /** Every budget created covers this whole month and is active, monthly and the requester's. */
  lemma {:induction false} CreatedBudgetsCoverThisMonth(bs: seq<Budget>, user: nat, reqs: seq<MonthlyRequest>, today: Date, now: int)
    requires Valid(today)
    ensures forall b :: b in CreateMonthly(bs, user, reqs, today, now).1 ==>
      && b.owner == user && b.period == Period.Monthly && b.isActive
      && b.startDate == Date(today.year, today.month, 1)
      && b.endDate == Date(today.year, today.month, DaysInMonth(today.year, today.month))
      && b.alertThreshold == DefaultAlertThreshold
      && (exists i :: 0 <= i < |reqs| && b.category == reqs[i].categoryId && b.amount == reqs[i].amount)
    decreases |reqs|
  {
    if |reqs| > 0 {
      var k := MonthlyKey(user, reqs[0].categoryId, today);
      var bs1 := if HasKey(bs, k) then bs else bs + [NewMonthly(bs, user, reqs[0], today, now)];
      CreatedBudgetsCoverThisMonth(bs1, user, reqs[1..], today, now);
      forall b | b in CreateMonthly(bs, user, reqs, today, now).1
        ensures exists i :: 0 <= i < |reqs| && b.category == reqs[i].categoryId && b.amount == reqs[i].amount
      {
        if b !in CreateMonthly(bs1, user, reqs[1..], today, now).1 {
          assert b.category == reqs[0].categoryId && b.amount == reqs[0].amount;
        } else {
          var j :| 0 <= j < |reqs[1..]| && b.category == reqs[1..][j].categoryId && b.amount == reqs[1..][j].amount;
          assert reqs[1..][j] == reqs[j + 1];
        }
      }
    }
  }

  /** A request whose keys all exist already creates nothing and leaves the store as it is. */
  lemma {:induction false} CreateMonthlyNothingNew(bs: seq<Budget>, user: nat, reqs: seq<MonthlyRequest>, today: Date, now: int)
    requires Valid(today)
    requires forall i :: 0 <= i < |reqs| ==> HasKey(bs, MonthlyKey(user, reqs[i].categoryId, today))
    ensures CreateMonthly(bs, user, reqs, today, now) == (bs, [])
    decreases |reqs|
  {
    if |reqs| > 0 {
      assert forall i :: 0 <= i < |reqs[1..]| ==> reqs[1..][i] == reqs[i + 1];
      CreateMonthlyNothingNew(bs, user, reqs[1..], today, now);
    }
  }

  /** Re-running the same request creates nothing: `get_or_create` makes the endpoint idempotent. */
  lemma CreateMonthlyIdempotent(bs: seq<Budget>, user: nat, reqs: seq<MonthlyRequest>, today: Date, now: int, later: int)
    requires Valid(today)
    ensures var (bs1, _) := CreateMonthly(bs, user, reqs, today, now);
            CreateMonthly(bs1, user, reqs, today, later) == (bs1, [])
  {
    var (bs1, _) := CreateMonthly(bs, user, reqs, today, now);
    CreateMonthlyNothingNew(bs1, user, reqs, today, later);
  }

  /** Creating monthly budgets never breaks the table's uniqueness constraint. */
  lemma {:induction false} CreateMonthlyKeepsUniqueKeys(bs: seq<Budget>, user: nat, reqs: seq<MonthlyRequest>, today: Date, now: int)
    requires Valid(today) && UniqueKeys(bs)
    ensures UniqueKeys(CreateMonthly(bs, user, reqs, today, now).0)
    decreases |reqs|
  {
    if |reqs| > 0 {
      var k := MonthlyKey(user, reqs[0].categoryId, today);
      if !HasKey(bs, k) {
        var b := NewMonthly(bs, user, reqs[0], today, now);
        AppendKeepsUniqueKeys(bs, b);
        CreateMonthlyKeepsUniqueKeys(bs + [b], user, reqs[1..], today, now);
      } else {
        CreateMonthlyKeepsUniqueKeys(bs, user, reqs[1..], today, now);
      }
    }
  }
}

=== FILE: dates.dfy ===
/**
 * The small part of Python's `datetime.date` that the backend relies on:
 * proleptic Gregorian calendar dates, their ordering, `replace(day=1)`,
 * subtraction of a `timedelta` of whole days, and the month windows the
 * views compute from "today".
 */
module Dates {

  datatype Date = Date(year: int, month: int, day: int)

  predicate IsLeapYear(y: int) {
    y % 4 == 0 && (y % 100 != 0 || y % 400 == 0)
  }

  function DaysInMonth(y: int, m: int): (n: int)
    requires 1 <= m <= 12
    ensures 28 <= n <= 31
    ensures n == 29 <==> m == 2 && IsLeapYear(y)
    ensures n == 28 <==> m == 2 && !IsLeapYear(y)
  {
    if m == 2 then (if IsLeapYear(y) then 29 else 28)
    else if m == 4 || m == 6 || m == 9 || m == 11 then 30
    else 31
  }

  /** A date that exists on the calendar. */
  predicate Valid(d: Date) {
    1 <= d.month <= 12 && 1 <= d.day <= DaysInMonth(d.year, d.month)
  }

  /** Strict calendar order: `a < b` on Python dates. */
  predicate Before(a: Date, b: Date) {
    a.year < b.year
    || (a.year == b.year && a.month < b.month)
    || (a.year == b.year && a.month == b.month && a.day < b.day)
  }

  /** `a <= b` on Python dates. */
  predicate AtOrBefore(a: Date, b: Date) {
    Before(a, b) || a == b
  }

  /** Consecutive numbering of calendar months (January of year 0 is 0). */
  function MonthIndex(d: Date): int {
    d.year * 12 + d.month - 1
  }

  /** `d.replace(day=1)` */
  function FirstOfMonth(d: Date): (r: Date)
    requires Valid(d)
    ensures Valid(r) && r.day == 1 && MonthIndex(r) == MonthIndex(d)
    ensures AtOrBefore(r, d)
  {
    d.(day := 1)
  }

  /** `d - timedelta(days=1)` */
  function PrevDay(d: Date): (r: Date)
    requires Valid(d)
    ensures Valid(r) && Before(r, d)
    ensures d.day > 1 ==> r == d.(day := d.day - 1)
    ensures d.day == 1 ==> MonthIndex(r) == MonthIndex(d) - 1 && r.day == DaysInMonth(r.year, r.month)
  {
    if d.day > 1 then d.(day := d.day - 1)
    else if d.month > 1 then Date(d.year, d.month - 1, DaysInMonth(d.year, d.month - 1))
    else Date(d.year - 1, 12, 31)
  }

  /** `d - timedelta(days=n)` */
  function SubDays(d: Date, n: nat): (r: Date)
    requires Valid(d)
    ensures Valid(r) && AtOrBefore(r, d)
    ensures n > 0 ==> Before(r, d)
    decreases n
  {
    if n == 0 then d else SubDays(PrevDay(d), n - 1)
  }

  /** The first day of the month before `d`'s month, with the January to December rollover. */
  function PrevMonthStart(d: Date): (r: Date)
    requires Valid(d)
    ensures Valid(r) && r.day == 1
    ensures MonthIndex(r) == MonthIndex(d) - 1
  {
    if d.month == 1 then Date(d.year - 1, 12, 1) else Date(d.year, d.month - 1, 1)
  }

  /** The first day of the month after `d`'s month, with the December to January rollover. */
  function NextMonthStart(d: Date): (r: Date)
    requires Valid(d)
    ensures Valid(r) && r.day == 1
    ensures MonthIndex(r) == MonthIndex(d) + 1
  {
    if d.month == 12 then Date(d.year + 1, 1, 1) else Date(d.year, d.month + 1, 1)
  }

  /**
   * The last day of `d`'s month, computed as the day before the next month's
   * first day: a valid date in the same month, on its final day, December
   * included.
   */
  function MonthEnd(d: Date): (r: Date)
    requires Valid(d)
    ensures Valid(r)
    ensures r == Date(d.year, d.month, DaysInMonth(d.year, d.month))
  {
    var e := PrevDay(NextMonthStart(d));
    MonthIndexInjective(e, d);
    e
  }

  // ---------------------------------------------------------------------------
  // Facts about the month windows

  /** Calendar order never goes back in month index. */
  lemma MonthIndexMonotone(a: Date, b: Date)
    requires Valid(a) && Valid(b) && AtOrBefore(a, b)
    ensures MonthIndex(a) <= MonthIndex(b)
  {
    if a.year < b.year {
      assert a.year * 12 + 12 <= b.year * 12;
    }
  }

  /** Two valid dates with the same month index lie in the same calendar month. */
  lemma MonthIndexInjective(a: Date, b: Date)
    requires Valid(a) && Valid(b) && MonthIndex(a) == MonthIndex(b)
    ensures a.year == b.year && a.month == b.month
  {
    assert (a.year - b.year) * 12 == b.month - a.month;
  }

  /**
   * The day before the first of the current month is the last day of the
   * month that `PrevMonthStart` opens.
   */
  lemma PrevMonthEndIsLastDay(d: Date)
    requires Valid(d)
    ensures PrevDay(FirstOfMonth(d)) == PrevMonthStart(d).(day := DaysInMonth(PrevMonthStart(d).year, PrevMonthStart(d).month))
  {
    var e := PrevDay(FirstOfMonth(d));
    MonthIndexInjective(e, PrevMonthStart(d));
  }

  /**
   * The previous-month window [PrevMonthStart(today), day before the first of
   * this month] holds exactly the dates of the previous calendar month.
   */
  lemma PrevMonthWindowIsPrevMonth(today: Date, d: Date)
    requires Valid(today) && Valid(d)
    ensures AtOrBefore(PrevMonthStart(today), d) && AtOrBefore(d, PrevDay(FirstOfMonth(today)))
            <==> MonthIndex(d) == MonthIndex(today) - 1
  {
    var s := PrevMonthStart(today);
    var e := PrevDay(FirstOfMonth(today));
    PrevMonthEndIsLastDay(today);
    if MonthIndex(d) == MonthIndex(today) - 1 {
      MonthIndexInjective(d, s);
    } else if AtOrBefore(s, d) && AtOrBefore(d, e) {
      MonthIndexMonotone(s, d);
      MonthIndexMonotone(d, e);
    }
  }

  /**
   * `28 * MonthIndex + day` loses at most one per day stepped back, because
   * stepping over a month boundary lands on a day of at least 28.
   */
  lemma {:induction false} SubDaysPotential(d: Date, n: nat)
    requires Valid(d)
    ensures 28 * MonthIndex(SubDays(d, n)) + SubDays(d, n).day >= 28 * MonthIndex(d) + d.day - n
    decreases n
  {
    if n > 0 {
      SubDaysPotential(PrevDay(d), n - 1);
    }
  }

  /**
   * Every date in the trailing 90-day window [today - 90 days, today] lies in
   * one of the five months ending with today's month.
   */
  lemma NinetyDayWindowSpansFiveMonths(today: Date, d: Date)
    requires Valid(today) && Valid(d)
    requires AtOrBefore(SubDays(today, 90), d) && AtOrBefore(d, today)
    ensures MonthIndex(today) - 4 <= MonthIndex(d) <= MonthIndex(today)
  {
    var s := SubDays(today, 90);
    SubDaysPotential(today, 90);
    MonthIndexMonotone(s, d);
    MonthIndexMonotone(d, today);
  }

  /**
   * Inside the trailing 90-day window the month number alone determines the
   * calendar month, so grouping by `date__month` there is grouping by
   * (year, month).
   */
  lemma MonthNumberDeterminesYearInWindow(today: Date, a: Date, b: Date)
    requires Valid(today) && Valid(a) && Valid(b)
    requires AtOrBefore(SubDays(today, 90), a) && AtOrBefore(a, today)
    requires AtOrBefore(SubDays(today, 90), b) && AtOrBefore(b, today)
    requires a.month == b.month
    ensures a.year == b.year
  {
    NinetyDayWindowSpansFiveMonths(today, a);
    NinetyDayWindowSpansFiveMonths(today, b);
    var k := a.year - b.year;
    assert MonthIndex(a) - MonthIndex(b) == k * 12;
    if k >= 1 {
      assert k * 12 >= 12;
    } else if k <= -1 {
      assert k * 12 <= -12;
    }
  }

  /** Stepping back at least `d.day` days leaves `d`'s month. */
  lemma {:induction false} SubDaysLeavesMonth(d: Date, n: nat)
    requires Valid(d) && n >= d.day
    ensures MonthIndex(SubDays(d, n)) < MonthIndex(d)
    decreases n
  {
    var p := PrevDay(d);
    if d.day == 1 {
      MonthIndexMonotone(SubDays(p, n - 1), p);
    } else {
      SubDaysLeavesMonth(p, n - 1);
    }
  }

  /** The current month started less than 90 days ago, so it lies inside the trailing window. */
  lemma CurrentMonthInsideWindow(today: Date, d: Date)
    requires Valid(today) && Valid(d)
    requires d.year == today.year && d.month == today.month
    ensures AtOrBefore(SubDays(today, 90), d)
  {
    var s := SubDays(today, 90);
    SubDaysLeavesMonth(today, 90);
    if !AtOrBefore(s, d) {
      MonthIndexMonotone(d, s);
    }
  }
}

=== FILE: default_categories.dfy ===
/**
 * The `create_default_categories` management command: seeds the shared
 * categories (no owner, marked default) without duplicating any that exist.
 */
module DefaultCategories {
  import opened Wrappers
  import opened TransactionModels

  /** One entry of the command's seed lists. */
  datatype Seed = Seed(name: string, icon: string, color: string)

  const ExpenseSeeds: seq<Seed> := [
    Seed("Food & Dining", "\U{1F354}", "#EF4444"),
    Seed("Transportation", "\U{1F697}", "#F59E0B"),
    Seed("Shopping", "\U{1F6CD}\U{FE0F}", "#EC4899"),
    Seed("Entertainment", "\U{1F3AC}", "#8B5CF6"),
    Seed("Bills & Utilities", "\U{1F4A1}", "#3B82F6"),
    Seed("Healthcare", "\U{1F3E5}", "#10B981"),
    Seed("Education", "\U{1F4DA}", "#6366F1"),
    Seed("Personal Care", "\U{1F487}", "#F472B6"),
    Seed("Travel", "\U{2708}\U{FE0F}", "#14B8A6"),
    Seed("Other Expenses", "\U{1F4DD}", "#6B7280")
  ]

  const IncomeSeeds: seq<Seed> := [
    Seed("Salary", "\U{1F4B0}", "#10B981"),
    Seed("Freelance", "\U{1F4BC}", "#3B82F6"),
    Seed("Investment", "\U{1F4C8}", "#8B5CF6"),
    Seed("Gift", "\U{1F381}", "#EC4899"),
    Seed("Other Income", "\U{1F4B5}", "#6B7280")
  ]

  /** The `get_or_create` lookup: same name and kind among the default categories. */
  predicate IsSeeded(cats: seq<Category>, name: string, kind: Kind) {
    exists c :: c in cats && c.name == name && c.kind == kind && c.isDefault
  }

  function NextCategoryId(cats: seq<Category>): (n: nat)
    ensures forall c :: c in cats ==> c.id < n
  {
    if |cats| == 0 then 1 else
      var rest := NextCategoryId(cats[1..]);
      assert forall c :: c in cats ==> c == cats[0] || c in cats[1..];
      if cats[0].id >= rest then cats[0].id + 1 else rest
  }

  /** `c` carries the seed's name, icon and color, as `get_or_create`'s defaults give them. */
  predicate FromSeed(c: Category, s: Seed) {
    c.name == s.name && c.icon == s.icon && c.color == s.color
  }

  /** The category `get_or_create` inserts for a seed not found. */
  function NewDefault(cats: seq<Category>, s: Seed, kind: Kind, now: int): (c: Category)
    ensures c.owner.None? && c.isDefault && c.kind == kind && c.name == s.name
    ensures c.icon == s.icon && c.color == s.color
    ensures forall x :: x in cats ==> x.id < c.id
  {
    Category(NextCategoryId(cats), None, s.name, kind, s.icon, s.color, true, now)
  }

  /**
   * One seed list of one kind, in order: the categories created, which the
   * command appends to the table. A seed already present creates nothing.
   */
  function SeedAll(cats: seq<Category>, seeds: seq<Seed>, kind: Kind, now: int): (created: seq<Category>)
    ensures |created| <= |seeds|
    ensures forall i :: 0 <= i < |seeds| ==> IsSeeded(cats + created, seeds[i].name, kind)
    ensures forall c :: c in created ==> c.owner.None? && c.isDefault && c.kind == kind
    ensures forall c :: c in created ==> !IsSeeded(cats, c.name, kind)
    ensures forall c :: c in created ==> exists i :: 0 <= i < |seeds| && FromSeed(c, seeds[i])
    decreases |seeds|
  {
    if |seeds| == 0 then []
    else
      var step := if IsSeeded(cats, seeds[0].name, kind) then [] else [NewDefault(cats, seeds[0], kind, now)];
      var rest := SeedAll(cats + step, seeds[1..], kind, now);
      assert IsSeeded(cats + step, seeds[0].name, kind) by {
        if step != [] {
          assert (cats + step)[|cats|] in cats + step;
        }
      }
      SeedStep(cats, step, seeds, rest, kind);
      step + rest
  }

  /**
   * One step of `SeedAll`: the row created for the first seed, if any,
   * followed by what the rest of the list creates, has the contract of the
   * whole list.
   */
  lemma SeedStep(cats: seq<Category>, step: seq<Category>, seeds: seq<Seed>, rest: seq<Category>, kind: Kind)
    requires |seeds| > 0 && |step| <= 1
    requires IsSeeded(cats + step, seeds[0].name, kind)
    requires forall c :: c in step ==> && FromSeed(c, seeds[0]) && !IsSeeded(cats, c.name, kind)
                                       && c.owner.None? && c.isDefault && c.kind == kind
    requires |rest| <= |seeds[1..]|
    requires forall i :: 0 <= i < |seeds[1..]| ==> IsSeeded((cats + step) + rest, seeds[1..][i].name, kind)
    requires forall c :: c in rest ==> c.owner.None? && c.isDefault && c.kind == kind
    requires forall c :: c in rest ==> !IsSeeded(cats + step, c.name, kind)
    requires forall c :: c in rest ==> exists i :: 0 <= i < |seeds[1..]| && FromSeed(c, seeds[1..][i])
    ensures |step + rest| <= |seeds|
    ensures forall i :: 0 <= i < |seeds| ==> IsSeeded(cats + (step + rest), seeds[i].name, kind)
    ensures forall c :: c in step + rest ==> c.owner.None? && c.isDefault && c.kind == kind
    ensures forall c :: c in step + rest ==> !IsSeeded(cats, c.name, kind)
    ensures forall c :: c in step + rest ==> exists i :: 0 <= i < |seeds| && FromSeed(c, seeds[i])
  {
    assert cats + (step + rest) == (cats + step) + rest;
    SeededGrows(cats + step, rest, seeds[0].name, kind);
    forall i | 0 < i < |seeds| ensures IsSeeded(cats + (step + rest), seeds[i].name, kind) {
      assert seeds[i] == seeds[1..][i - 1];
    }
    forall c | c in step + rest
      ensures !IsSeeded(cats, c.name, kind)
      ensures exists i :: 0 <= i < |seeds| && FromSeed(c, seeds[i])
    {
      if c in step {
        assert FromSeed(c, seeds[0]);
      } else {
        if IsSeeded(cats, c.name, kind) {
          SeededGrows(cats, step, c.name, kind);
        }
        var k :| 0 <= k < |seeds[1..]| && FromSeed(c, seeds[1..][k]);
        assert FromSeed(c, seeds[k + 1]);
      }
    }
  }

  lemma SeededGrows(cats: seq<Category>, more: seq<Category>, name: string, kind: Kind)
    requires IsSeeded(cats, name, kind)
    ensures IsSeeded(cats + more, name, kind)
  {
    var c :| c in cats && c.name == name && c.kind == kind && c.isDefault;
    assert c in cats + more;
  }

  /** `handle`: the expense list, then the income list; returns the categories created, `created_count` long. */
  function SeedLists(cats: seq<Category>, expense: seq<Seed>, income: seq<Seed>, now: int): (created: seq<Category>)
    ensures |created| <= |expense| + |income|
    ensures forall i :: 0 <= i < |expense| ==> IsSeeded(cats + created, expense[i].name, Expense)
    ensures forall i :: 0 <= i < |income| ==> IsSeeded(cats + created, income[i].name, Income)
    ensures forall c :: c in created ==> c.owner.None? && c.isDefault
    ensures forall c :: c in created ==> !IsSeeded(cats, c.name, c.kind)
    ensures forall c :: c in created && c.kind == Expense ==> exists i :: 0 <= i < |expense| && FromSeed(c, expense[i])
    ensures forall c :: c in created && c.kind == Income ==> exists i :: 0 <= i < |income| && FromSeed(c, income[i])
    ensures forall i, j :: 0 <= i < j < |created| && created[i].kind == Income ==> created[j].kind == Income
  {
    var c1 := SeedAll(cats, expense, Expense, now);
    var c2 := SeedAll(cats + c1, income, Income, now);
    ListsCombine(cats, c1, c2, expense, income);
    c1 + c2
  }

  /** The expense rows followed by the income rows have the contract of both lists together. */
  lemma ListsCombine(cats: seq<Category>, c1: seq<Category>, c2: seq<Category>, expense: seq<Seed>, income: seq<Seed>)
    requires |c1| <= |expense| && |c2| <= |income|
    requires forall i :: 0 <= i < |expense| ==> IsSeeded(cats + c1, expense[i].name, Expense)
    requires forall i :: 0 <= i < |income| ==> IsSeeded((cats + c1) + c2, income[i].name, Income)
    requires forall c :: c in c1 ==> c.owner.None? && c.isDefault && c.kind == Expense
    requires forall c :: c in c2 ==> c.owner.None? && c.isDefault && c.kind == Income
    requires forall c :: c in c1 ==> !IsSeeded(cats, c.name, Expense)
    requires forall c :: c in c2 ==> !IsSeeded(cats + c1, c.name, Income)
    requires forall c :: c in c1 ==> exists i :: 0 <= i < |expense| && FromSeed(c, expense[i])
    requires forall c :: c in c2 ==> exists i :: 0 <= i < |income| && FromSeed(c, income[i])
    ensures |c1 + c2| <= |expense| + |income|
    ensures forall i :: 0 <= i < |expense| ==> IsSeeded(cats + (c1 + c2), expense[i].name, Expense)
    ensures forall i :: 0 <= i < |income| ==> IsSeeded(cats + (c1 + c2), income[i].name, Income)
    ensures forall c :: c in c1 + c2 ==> c.owner.None? && c.isDefault
    ensures forall c :: c in c1 + c2 ==> !IsSeeded(cats, c.name, c.kind)
    ensures forall c :: c in c1 + c2 && c.kind == Expense ==> exists i :: 0 <= i < |expense| && FromSeed(c, expense[i])
    ensures forall c :: c in c1 + c2 && c.kind == Income ==> exists i :: 0 <= i < |income| && FromSeed(c, income[i])
    ensures forall i, j :: 0 <= i < j < |c1 + c2| && (c1 + c2)[i].kind == Income ==> (c1 + c2)[j].kind == Income
  {
    assert cats + (c1 + c2) == (cats + c1) + c2;
    forall c | c in c2 ensures !IsSeeded(cats, c.name, Income) {
      if IsSeeded(cats, c.name, Income) {
        SeededGrows(cats, c1, c.name, Income);
      }
    }
    assert forall k :: 0 <= k < |c1| ==> (c1 + c2)[k] in c1;
    assert forall k :: |c1| <= k < |c1 + c2| ==> (c1 + c2)[k] in c2;
    forall i | 0 <= i < |expense| ensures IsSeeded(cats + (c1 + c2), expense[i].name, Expense) {
      SeededGrows(cats + c1, c2, expense[i].name, Expense);
    }
  }

  /** The command over its fixed lists: at most fifteen new rows, all shared defaults. */
  function SeedDefaults(cats: seq<Category>, now: int): (created: seq<Category>)
    ensures |created| <= 15
  {
    SeedLists(cats, ExpenseSeeds, IncomeSeeds, now)
  }

  /** A seed list whose entries all exist already creates nothing. */
  lemma {:induction false} SeedAllNothingNew(cats: seq<Category>, seeds: seq<Seed>, kind: Kind, now: int)
    requires forall i :: 0 <= i < |seeds| ==> IsSeeded(cats, seeds[i].name, kind)
    ensures SeedAll(cats, seeds, kind, now) == []
    decreases |seeds|
  {
    if |seeds| > 0 {
      assert forall i :: 0 <= i < |seeds[1..]| ==> seeds[1..][i] == seeds[i + 1];
      assert cats + [] == cats;
      SeedAllNothingNew(cats, seeds[1..], kind, now);
    }
  }

  /** Running the command a second time creates nothing. */
  lemma SeedListsIdempotent(cats: seq<Category>, expense: seq<Seed>, income: seq<Seed>, now: int, later: int)
    ensures var created := SeedLists(cats, expense, income, now);
            SeedLists(cats + created, expense, income, later) == []
  {
    var store := cats + SeedLists(cats, expense, income, now);
    SeedAllNothingNew(store, expense, Expense, later);
    assert store + [] == store;
    SeedAllNothingNew(store, income, Income, later);
  }

  /** On an empty table, two lists of distinct names create one category per entry. */
  lemma SeedListsOnEmpty(expense: seq<Seed>, income: seq<Seed>, now: int)
    requires DistinctNames(expense) && DistinctNames(income)
    ensures |SeedLists([], expense, income, now)| == |expense| + |income|
  {
    SeedListCreatesAll([], expense, Expense, now);
    var c1 := SeedAll([], expense, Expense, now);
    forall s | s in income ensures !IsSeeded([] + c1, s.name, Income) {
      forall c | c in [] + c1 ensures c.kind == Expense {
        assert c in c1;
      }
    }
    SeedListCreatesAll([] + c1, income, Income, now);
  }

  lemma ExpenseNamesDistinct()
    ensures DistinctNames(ExpenseSeeds)
  {
  }

  lemma IncomeNamesDistinct()
    ensures DistinctNames(IncomeSeeds)
  {
  }

  /** On an empty table the command creates all fifteen categories. */
  lemma SeedEmptyCreatesAll(now: int)
    ensures |SeedDefaults([], now)| == 15
  {
    ExpenseNamesDistinct();
    IncomeNamesDistinct();
    SeedListsOnEmpty(ExpenseSeeds, IncomeSeeds, now);
  }

  /** The names of a seed list are pairwise distinct. */
  predicate DistinctNames(seeds: seq<Seed>) {
    forall i, j :: 0 <= i < j < |seeds| ==> seeds[i].name != seeds[j].name
  }

  /** With distinct names and none of them seeded yet, every entry creates a category. */
  lemma {:induction false} SeedListCreatesAll(cats: seq<Category>, seeds: seq<Seed>, kind: Kind, now: int)
    requires DistinctNames(seeds)
    requires forall s :: s in seeds ==> !IsSeeded(cats, s.name, kind)
    ensures |SeedAll(cats, seeds, kind, now)| == |seeds|
    decreases |seeds|
  {
    if |seeds| > 0 {
      var c := NewDefault(cats, seeds[0], kind, now);
      var cats1 := cats + [c];
      forall x | x in seeds[1..] ensures !IsSeeded(cats1, x.name, kind) {
        var k :| 0 <= k < |seeds[1..]| && seeds[1..][k] == x;
        assert seeds[k + 1] == x;
        assert x.name != c.name;
        forall y | y in cats1 ensures !(y.name == x.name && y.kind == kind && y.isDefault) {
          if y != c {
            assert y in cats;
          }
        }
      }
      SeedListCreatesAll(cats1, seeds[1..], kind, now);
    }
  }
}

=== FILE: rounding.dfy ===
/**
 * Decimal rounding and the guarded percentages the views compute.
 *
 * The backend rounds with Python's `round(x, places)`; the model rounds the
 * exact value half-up to a multiple of `1 / scale` (`scale` = 10 for one
 * decimal place, 100 for two).
 */
module Rounding {

  /** `round(x, 2)`: the nearest multiple of 0.01, halves rounded up. */
  function Round2(x: real): (r: real)
    ensures r * 100.0 == (r * 100.0).Floor as real
    ensures x * 100.0 - 0.5 < r * 100.0 <= x * 100.0 + 0.5
  {
    (x * 100.0 + 0.5).Floor as real / 100.0
  }

  /** `round(x, 1)`: the nearest multiple of 0.1, halves rounded up. */
  function Round1(x: real): (r: real)
    ensures r * 10.0 == (r * 10.0).Floor as real
    ensures x * 10.0 - 0.5 < r * 10.0 <= x * 10.0 + 0.5
  {
    (x * 10.0 + 0.5).Floor as real / 10.0
  }

  /**
   * One-place rounding of `x` where `x * a == y`, scaled by `10 * a`, lies
   * within `a / 2` of `10 * y`.
   */
  lemma Round1Scaled(x: real, a: real, y: real)
    requires a > 0.0 && x * a == y
    ensures 10.0 * y - 0.5 * a < Round1(x) * 10.0 * a <= 10.0 * y + 0.5 * a
  {
    var lo, hi, mid := x * 10.0 - 0.5, x * 10.0 + 0.5, Round1(x) * 10.0;
    ScaleBand(lo, mid, hi, a);
    Distribute(x, 10.0, -0.5, a);
    Distribute(x, 10.0, 0.5, a);
    assert lo * a == 10.0 * y - 0.5 * a && hi * a == 10.0 * y + 0.5 * a;
  }

  /** Rounding never reverses the order of two values. */
  lemma Round2Monotone(x: real, y: real)
    requires x <= y
    ensures Round2(x) <= Round2(y)
  {
    assert (x * 100.0 + 0.5).Floor <= (y * 100.0 + 0.5).Floor;
  }

  /** A value with at most two decimal places is left unchanged. */
  lemma Round2Exact(k: int)
    ensures Round2(k as real / 100.0) == k as real / 100.0
  {
    var x := k as real / 100.0;
    assert x * 100.0 + 0.5 == k as real + 0.5;
    assert (x * 100.0 + 0.5).Floor == k;
  }

  /** A two-place rounded value reaches `bound` exactly when the value is at least half a cent below it. */
  lemma Round2AtLeast(x: real, bound: int)
    ensures Round2(x) >= bound as real <==> x * 100.0 + 0.5 >= bound as real * 100.0
  {
    var n := (x * 100.0 + 0.5).Floor;
    assert Round2(x) == n as real / 100.0;
    assert Round2(x) >= bound as real <==> n >= bound * 100;
    assert n >= bound * 100 <==> x * 100.0 + 0.5 >= (bound * 100) as real;
  }

  /** Multiplying both sides by a positive factor keeps an inequality. */
  lemma ScaleByPositive(x: real, y: real, a: real)
    requires a > 0.0
    ensures x >= y <==> x * a >= y * a
  {
    if x >= y {
      assert (x - y) * a >= 0.0;
    } else {
      assert (y - x) * a > 0.0;
    }
  }

  /** Scaling a half-open band `lo < mid <= hi` by a positive factor keeps it. */
  lemma ScaleBand(lo: real, mid: real, hi: real, a: real)
    requires a > 0.0 && lo < mid <= hi
    ensures lo * a < mid * a <= hi * a
  {
    ScaleByPositive(lo, mid, a);
    ScaleByPositive(hi, mid, a);
  }

  /** `(x * c + d) * a == c * (x * a) + d * a` */
  lemma Distribute(x: real, c: real, d: real, a: real)
    ensures (x * c + d) * a == c * (x * a) + d * a
  {
  }

  /**
   * `part / whole * 100` guarded against division by zero: a zero (or
   * negative) denominator yields 0 instead of an error.
   */
  function PercentOf(part: int, whole: int): (r: real)
    ensures whole <= 0 ==> r == 0.0
    ensures whole > 0 ==> r * whole as real == part as real * 100.0
    ensures whole > 0 && 0 <= part ==> 0.0 <= r
    ensures whole > 0 && part < 0 ==> r < 0.0
    ensures whole > 0 && 0 <= part <= whole ==> r <= 100.0
    ensures whole > 0 && part == whole ==> r == 100.0
  {
    if whole > 0 then part as real / whole as real * 100.0 else 0.0
  }

  /** `(current - previous) / previous * 100`, or 0 when `previous` is not positive. */
  function ChangePercent(current: int, previous: int): (r: real)
    ensures previous <= 0 ==> r == 0.0
    ensures previous > 0 ==> (r > 0.0 <==> current > previous)
    ensures previous > 0 ==> (r < 0.0 <==> current < previous)
    ensures previous > 0 ==> r * previous as real == (current - previous) as real * 100.0
  {
    PercentOf(current - previous, previous)
  }

  /** A guarded percentage reaches a whole-number bound exactly when `100 * part >= bound * whole`. */
  lemma PercentAtLeast(part: int, whole: int, bound: int)
    requires whole > 0
    ensures PercentOf(part, whole) >= bound as real <==> part * 100 >= bound * whole
  {
    var r := PercentOf(part, whole);
    ScaleByPositive(r, bound as real, whole as real);
    assert (bound * whole) as real == bound as real * whole as real;
  }

  /** The product of two integers, taken as a real. */
  lemma RealProduct(a: int, b: int)
    ensures (a * b) as real == a as real * b as real
  {
  }

  /**
   * A percentage rounded to two places reaches a whole-number bound exactly
   * when `part` is at least `bound - 0.005` percent of `whole`:
   * `20000 * part >= (200 * bound - 1) * whole`.
   */
  lemma Round2PercentAtLeast(part: int, whole: int, bound: int)
    requires whole > 0
    ensures Round2(PercentOf(part, whole)) >= bound as real <==> 20000 * part >= (200 * bound - 1) * whole
  {
    var w := whole as real;
    var p := PercentOf(part, whole);
    Round2AtLeast(p, bound);
    var x := p * 100.0 + 0.5;
    var y := bound as real * 100.0;
    ScaleByPositive(x, y, w);
    Distribute(p, 100.0, 0.5, w);
    assert y * w == 100.0 * (bound as real * w);
    RealProduct(200 * bound - 1, whole);
    RealProduct(bound, whole);
    assert ((200 * bound - 1) * whole) as real == 200.0 * (bound as real * w) - w;
  }

  /**
   * `r` is `part / whole * 100` to the nearest hundredth: scaled by
   * `100 * whole`, it lies within `whole / 2` of `10000 * part`.
   */
  ghost predicate NearPercent(r: real, part: int, whole: int) {
    var w := whole as real;
    10000.0 * part as real - 0.5 * w < r * 100.0 * w <= 10000.0 * part as real + 0.5 * w
  }

  /**
   * Two-place rounding of `x` where `x * a == y`, scaled by `100 * a`, lies
   * within `a / 2` of `100 * y`.
   */
  lemma Round2Scaled(x: real, a: real, y: real)
    requires a > 0.0 && x * a == y
    ensures 100.0 * y - 0.5 * a < Round2(x) * 100.0 * a <= 100.0 * y + 0.5 * a
  {
    var lo, hi, mid := x * 100.0 - 0.5, x * 100.0 + 0.5, Round2(x) * 100.0;
    ScaleBand(lo, mid, hi, a);
    Distribute(x, 100.0, -0.5, a);
    Distribute(x, 100.0, 0.5, a);
  }

  /** A percentage rounded to two places is within half a hundredth of the exact ratio. */
  lemma Round2PercentBounds(part: int, whole: int)
    requires whole > 0
    ensures NearPercent(Round2(PercentOf(part, whole)), part, whole)
  {
    var y := part as real * 100.0;
    Round2Scaled(PercentOf(part, whole), whole as real, y);
    assert 100.0 * y == 10000.0 * part as real;
  }

  /** The rounded change percentage is within half a hundredth of the exact change. */
  lemma Round2ChangeBounds(current: int, previous: int)
    ensures previous > 0 ==> NearPercent(Round2(ChangePercent(current, previous)), current - previous, previous)
  {
    if previous > 0 {
      Round2PercentBounds(current - previous, previous);
    }
  }
}

=== FILE: seqs.dfy ===
/**
 * Query-set operations over an in-memory store: `filter(...)` keeps the
 * rows a condition accepts, `order_by(...)` sorts by a comparison, and a
 * slice `[:n]` keeps a prefix.
 */
module Seqs {

  /** `queryset.filter(p)`: the rows accepted by `p`, in their original order. */
  function Filter<T(!new)>(s: seq<T>, p: T -> bool): (r: seq<T>)
    ensures |r| <= |s|
    ensures forall x :: x in r <==> x in s && p(x)
    ensures forall i :: 0 <= i < |r| ==> p(r[i])
  {
    if |s| == 0 then []
    else if p(s[0]) then [s[0]] + Filter(s[1..], p)
    else Filter(s[1..], p)
  }

  /** Filtering distributes over concatenation, so it keeps the store's order. */
  lemma {:induction false} FilterAppend<T(!new)>(a: seq<T>, b: seq<T>, p: T -> bool)
    ensures Filter(a + b, p) == Filter(a, p) + Filter(b, p)
  {
    if |a| > 0 {
      assert (a + b)[1..] == a[1..] + b;
      FilterAppend(a[1..], b, p);
    } else {
      assert a + b == b;
    }
  }

  /** A filter that accepts nothing yields the empty set. */
  lemma {:induction false} FilterNone<T(!new)>(s: seq<T>, p: T -> bool)
    requires forall x :: x in s ==> !p(x)
    ensures Filter(s, p) == []
  {
    if |s| > 0 {
      assert s[0] in s;
      FilterNone(s[1..], p);
    }
  }

  /** Two filters applied one after the other keep the rows both accept. */
  lemma {:induction false} FilterFilter<T(!new)>(s: seq<T>, p: T -> bool, q: T -> bool)
    ensures Filter(Filter(s, p), q) == Filter(s, x => p(x) && q(x))
  {
    if |s| > 0 {
      FilterFilter(s[1..], p, q);
    }
  }

  /** `queryset[:n]` */
  function Take<T>(s: seq<T>, n: nat): (r: seq<T>)
    ensures |r| <= n && |r| <= |s|
    ensures |r| == n || |r| == |s|
    ensures r <= s
  {
    if |s| <= n then s else s[..n]
  }

  /** `le` compares every pair one way or the other. */
  ghost predicate Total<T(!new)>(le: (T, T) -> bool) {
    forall a, b :: le(a, b) || le(b, a)
  }

  /** Every element is `le` its successor. */
  predicate SortedBy<T>(s: seq<T>, le: (T, T) -> bool) {
    forall i :: 0 < i < |s| ==> le(s[i - 1], s[i])
  }

  /** `le` chains: `le(a, b)` and `le(b, c)` give `le(a, c)`. */
  ghost predicate Transitive<T(!new)>(le: (T, T) -> bool) {
    forall a, b, c :: le(a, b) && le(b, c) ==> le(a, c)
  }

  /** For a transitive order, sorted adjacent pairs give sorted pairs at any distance. */
  lemma {:induction false} SortedPairs<T(!new)>(s: seq<T>, le: (T, T) -> bool, i: int, j: int)
    requires Transitive(le) && SortedBy(s, le)
    requires 0 <= i < j < |s|
    ensures le(s[i], s[j])
    decreases j - i
  {
    if j > i + 1 {
      SortedPairs(s, le, i, j - 1);
    }
  }

  /** Filtering a sorted sequence leaves it sorted, for a transitive order. */
  lemma {:induction false} FilterKeepsSorted<T(!new)>(s: seq<T>, p: T -> bool, le: (T, T) -> bool)
    requires Transitive(le) && SortedBy(s, le)
    ensures SortedBy(Filter(s, p), le)
  {
    if |s| > 0 {
      var rest := Filter(s[1..], p);
      FilterKeepsSorted(s[1..], p, le);
      if p(s[0]) && |rest| > 0 {
        assert rest[0] in s[1..];
        var j :| 1 <= j < |s| && s[j] == rest[0];
        SortedPairs(s, le, 0, j);
      }
    }
  }

  function Insert<T(!new)>(x: T, s: seq<T>, le: (T, T) -> bool): (r: seq<T>)
    requires Total(le) && SortedBy(s, le)
    ensures SortedBy(r, le)
    ensures multiset(r) == multiset(s) + multiset{x}
    ensures |r| == |s| + 1
    ensures r[0] == x || (|s| > 0 && r[0] == s[0])
  {
    if |s| == 0 || le(x, s[0]) then [x] + s
    else
      var rest := Insert(x, s[1..], le);
      assert s == [s[0]] + s[1..];
      [s[0]] + rest
  }

  /** `queryset.order_by(...)`: the same rows, ordered by `le`. */
  function SortBy<T(!new)>(s: seq<T>, le: (T, T) -> bool): (r: seq<T>)
    requires Total(le)
    ensures SortedBy(r, le)
    ensures multiset(r) == multiset(s)
    ensures |r| == |s|
    ensures forall x :: x in r <==> x in s
  {
    if |s| == 0 then []
    else
      assert s == [s[0]] + s[1..];
      var r := Insert(s[0], SortBy(s[1..], le), le);
      assert forall x :: x in r <==> x in multiset(r);
      r
  }
}

=== FILE: transaction_models.dfy ===
/**
 * The records of the transactions app: categories, transactions and
 * recurring-transaction templates, their field domains, what deleting a
 * category does to the transactions that point at it, and the default
 * orderings of the tables.
 */
module TransactionModels {
  import opened Wrappers
  import opened Dates
  import Seqs

  // ---------------------------------------------------------------------------
  // Choice fields

  /** `CATEGORY_TYPES` / `TRANSACTION_TYPES` */
  datatype Kind = Expense | Income

  function KindName(k: Kind): string {
    match k
    case Expense => "expense"
    case Income => "income"
  }

  /** The value a `type` column may hold; anything else is not a choice. */
  function ParseKind(s: string): (r: Option<Kind>)
    ensures r.Some? ==> KindName(r.value) == s
  {
    if s == "expense" then Some(Expense)
    else if s == "income" then Some(Income)
    else None
  }

  /** The stored names and the choices correspond one to one. */
  lemma KindChoices(s: string, k: Kind)
    ensures ParseKind(KindName(k)) == Some(k)
    ensures ParseKind(s) == Some(k) <==> s == KindName(k)
    ensures ParseKind(s).Some? <==> s in {"expense", "income"}
  {
  }

  /** `FREQUENCY_CHOICES` of a recurring transaction. */
  datatype Frequency = Daily | Weekly | Monthly | Yearly

  function FrequencyName(f: Frequency): string {
    match f
    case Daily => "daily"
    case Weekly => "weekly"
    case Monthly => "monthly"
    case Yearly => "yearly"
  }

  function ParseFrequency(s: string): (r: Option<Frequency>)
    ensures r.Some? ==> FrequencyName(r.value) == s
  {
    if s == "daily" then Some(Daily)
    else if s == "weekly" then Some(Weekly)
    else if s == "monthly" then Some(Monthly)
    else if s == "yearly" then Some(Yearly)
    else None
  }

  lemma FrequencyChoices(s: string, f: Frequency)
    ensures ParseFrequency(FrequencyName(f)) == Some(f)
    ensures ParseFrequency(s) == Some(f) <==> s == FrequencyName(f)
    ensures ParseFrequency(s).Some? <==> s in {"daily", "weekly", "monthly", "yearly"}
  {
  }

  // ---------------------------------------------------------------------------
  // Money: DecimalField(max_digits=10, decimal_places=2), held as whole cents

  /** Ten digits in all, two after the point: magnitudes stay below 10^10 cents. */
  const AmountCentsLimit: int := 10_000_000_000

  function CentsToDecimal(c: int): real {
    c as real / 100.0
  }

  /**
   * The cents a decimal amount field stores, or None when the value has more
   * than two decimal places or more than ten digits.
   */
  function DecimalToCents(x: real): (r: Option<int>)
    ensures r.Some? ==> r.value as real == x * 100.0
    ensures r.Some? ==> -AmountCentsLimit < r.value < AmountCentsLimit
    ensures r.None? ==> (x * 100.0).Floor as real != x * 100.0
                        || (x * 100.0).Floor <= -AmountCentsLimit
                        || (x * 100.0).Floor >= AmountCentsLimit
  {
    var c := (x * 100.0).Floor;
    if c as real == x * 100.0 && -AmountCentsLimit < c < AmountCentsLimit then Some(c) else None
  }

  /** Every amount the field can hold survives the round trip through its decimal value. */
  lemma CentsRoundTrip(c: int)
    requires -AmountCentsLimit < c < AmountCentsLimit
    ensures DecimalToCents(CentsToDecimal(c)) == Some(c)
  {
    var x := CentsToDecimal(c);
    assert x * 100.0 == c as real;
    assert (c as real).Floor == c;
  }

  // ---------------------------------------------------------------------------
  // Records

  const DefaultColor: string := "#3B82F6"

  /** A category; `owner == None` marks a system-wide category shared by all users. */
  datatype Category = Category(
    id: nat,
    owner: Option<nat>,
    name: string,
    kind: Kind,
    icon: string,
    color: string,
    isDefault: bool,
    createdAt: int)

  /** A transaction; `category` becomes None when its category is deleted. */
  datatype Transaction = Transaction(
    id: nat,
    owner: nat,
    amount: int,
    kind: Kind,
    category: Option<nat>,
    date: Date,
    description: string,
    isRecurring: bool,
    createdAt: int,
    updatedAt: int)

  datatype RecurringTransaction = RecurringTransaction(
    id: nat,
    owner: nat,
    amount: int,
    kind: Kind,
    category: Option<nat>,
    description: string,
    frequency: Frequency,
    nextDate: Date,
    isActive: bool,
    createdAt: int)

  /** The category a transaction points at, if it still exists. */
  function FindCategory(cats: seq<Category>, id: Option<nat>): (r: Option<Category>)
    ensures r.Some? ==> r.value in cats && id == Some(r.value.id)
    ensures r.None? ==> id.None? || forall c :: c in cats ==> c.id != id.value
  {
    if id.None? || |cats| == 0 then None
    else if cats[0].id == id.value then Some(cats[0])
    else FindCategory(cats[1..], id)
  }

  // ---------------------------------------------------------------------------
  // on_delete=SET_NULL

  function Unlink(t: Transaction, id: nat): Transaction {
    if t.category == Some(id) then t.(category := None) else t
  }

  /**
   * Deleting category `id`: the category row goes, every transaction that
   * pointed at it stays with its category cleared.
   */
  function DeleteCategory(cats: seq<Category>, ts: seq<Transaction>, id: nat): (r: (seq<Category>, seq<Transaction>))
    ensures forall c :: c in r.0 <==> c in cats && c.id != id
    ensures |r.1| == |ts|
    ensures forall i :: 0 <= i < |ts| ==> r.1[i] == Unlink(ts[i], id)
    ensures forall t :: t in r.1 ==> t.category != Some(id)
  {
    (Seqs.Filter(cats, (c: Category) => c.id != id), seq(|ts|, i requires 0 <= i < |ts| => Unlink(ts[i], id)))
  }

  /** The same for recurring templates, whose category is also SET_NULL. */
  function DeleteCategoryFromTemplates(rs: seq<RecurringTransaction>, id: nat): (r: seq<RecurringTransaction>)
    ensures |r| == |rs|
    ensures forall x :: x in r ==> x.category != Some(id)
    ensures forall i :: 0 <= i < |rs| && rs[i].category != Some(id) ==> r[i] == rs[i]
    ensures forall i :: 0 <= i < |rs| ==> r[i] == rs[i].(category := r[i].category)
  {
    seq(|rs|, i requires 0 <= i < |rs| => if rs[i].category == Some(id) then rs[i].(category := None) else rs[i])
  }

  // ---------------------------------------------------------------------------
  // Default orderings

  /** `ordering = ['-date', '-created_at']`: newer dates first, then newer rows first. */
  predicate NewestFirst(a: Transaction, b: Transaction) {
    Before(b.date, a.date) || (a.date == b.date && a.createdAt >= b.createdAt)
  }

  lemma NewestFirstTotal()
    ensures Seqs.Total(NewestFirst)
  {
  }

  lemma NewestFirstTransitive()
    ensures Seqs.Transitive(NewestFirst)
  {
  }

  /** Code-point lexicographic order on names. */
  predicate NameAtMost(a: string, b: string)
    decreases |a|
  {
    |a| == 0 || (|b| > 0 && (a[0] < b[0] || (a[0] == b[0] && NameAtMost(a[1..], b[1..]))))
  }

  lemma {:induction false} NameAtMostTotal(a: string, b: string)
    ensures NameAtMost(a, b) || NameAtMost(b, a)
    decreases |a|
  {
    if |a| > 0 && |b| > 0 && a[0] == b[0] {
      NameAtMostTotal(a[1..], b[1..]);
    }
  }

  /** `Category.Meta.ordering = ['name']` */
  predicate ByName(a: Category, b: Category) {
    NameAtMost(a.name, b.name)
  }

  lemma ByNameTotal()
    ensures Seqs.Total(ByName)
  {
    forall a: Category, b: Category
      ensures ByName(a, b) || ByName(b, a)
    {
      NameAtMostTotal(a.name, b.name);
    }
  }

  /** `RecurringTransaction.Meta.ordering = ['next_date']` */
  predicate ByNextDate(a: RecurringTransaction, b: RecurringTransaction) {
    AtOrBefore(a.nextDate, b.nextDate)
  }

  lemma ByNextDateTotal()
    ensures Seqs.Total(ByNextDate)
  {
  }
}

=== FILE: transaction_serializers.dfy ===
/**
 * The transactions app's serializers: which fields a client may write,
 * the amount validation, and the owner every created row gets.
 */
module TransactionSerializers {
  import opened Wrappers
  import opened Dates
  import opened TransactionModels

  // ---------------------------------------------------------------------------
  // CategorySerializer

  /**
   * A category request body. `id`, `is_default` and `created_at` are
   * read-only: a client may send them, and they are ignored.
   */
  datatype CategoryPayload = CategoryPayload(
    id: Option<nat>,
    name: string,
    kind: Kind,
    icon: Option<string>,
    color: Option<string>,
    isDefault: Option<bool>,
    createdAt: Option<int>)

  /** The writable part of a category payload. */
  predicate SameWritable(a: CategoryPayload, b: CategoryPayload) {
    a.name == b.name && a.kind == b.kind && a.icon == b.icon && a.color == b.color
  }

  /**
   * `create`: the category belongs to the requester and is never a default
   * one, whatever the client sent; omitted fields take the model defaults.
   */
  function CreateCategory(p: CategoryPayload, user: nat, id: nat, now: int): (c: Category)
    ensures c.owner == Some(user) && !c.isDefault
    ensures c.id == id && c.createdAt == now
    ensures c.name == p.name && c.kind == p.kind
    ensures c.icon == (if p.icon.Some? then p.icon.value else "")
    ensures c.color == (if p.color.Some? then p.color.value else DefaultColor)
  {
    Category(id, Some(user), p.name, p.kind, p.icon.GetOr(""), p.color.GetOr(DefaultColor), false, now)
  }

  /** Two payloads that agree on the writable fields create the same category. */
  lemma CategoryReadOnlyFieldsIgnored(a: CategoryPayload, b: CategoryPayload, user: nat, id: nat, now: int)
    requires SameWritable(a, b)
    ensures CreateCategory(a, user, id, now) == CreateCategory(b, user, id, now)
  {
  }

  // ---------------------------------------------------------------------------
  // TransactionSerializer.validate

  /**
   * The guard as written: `attrs.get('amount') and attrs['amount'] <= 0`.
   * A zero Decimal is falsy, so the second conjunct is never reached for it.
   */
  function ValidateAmountAsWritten(amount: Option<int>): (r: Result<(), FieldError>)
    ensures r.Err? <==> amount.Some? && amount.value < 0
    ensures r.Err? ==> r.error == FieldError("amount")
  {
    var truthy := amount.Some? && amount.value != 0;
    if truthy && amount.value <= 0 then Err(FieldError("amount")) else Ok(())
  }

  /** A zero amount passes the guard as written although its message says "greater than 0". */
  lemma ZeroAmountPassesAsWritten()
    ensures ValidateAmountAsWritten(Some(0)).Ok?
    ensures ValidateAmount(Some(0)).Err?
  {
  }

  /** The guard as intended: a present amount must be positive. */
  function ValidateAmount(amount: Option<int>): (r: Result<(), FieldError>)
    ensures r.Err? <==> amount.Some? && amount.value <= 0
    ensures r.Err? ==> r.error == FieldError("amount")
  {
    if amount.Some? && amount.value <= 0 then Err(FieldError("amount")) else Ok(())
  }

  /** The two guards differ on exactly one input: an amount of zero. */
  lemma GuardsDifferOnlyAtZero(amount: Option<int>)
    ensures ValidateAmountAsWritten(amount) != ValidateAmount(amount) <==> amount == Some(0)
  {
  }

  // ---------------------------------------------------------------------------
  // TransactionSerializer.create

  /**
   * A transaction request body; `id`, `created_at` and `updated_at` are
   * read-only, and there is no `user` field at all. `amount` is None on a
   * partial update that leaves it out.
   */
  datatype TransactionPayload = TransactionPayload(
    id: Option<nat>,
    amount: Option<int>,
    kind: Kind,
    category: Option<nat>,
    date: Date,
    description: Option<string>,
    isRecurring: Option<bool>,
    createdAt: Option<int>,
    updatedAt: Option<int>)

  /** The row `create` stores: the requester's, with the model defaults for omitted fields. */
  function StoredTransaction(p: TransactionPayload, user: nat, id: nat, now: int): Transaction
    requires p.amount.Some?
  {
    Transaction(id, user, p.amount.value, p.kind, p.category, p.date,
                p.description.GetOr(""), p.isRecurring.GetOr(false), now, now)
  }

  /**
   * Validation as written followed by `create`: a negative amount is refused,
   * and a zero amount is stored.
   */
  function CreateTransactionAsWritten(p: TransactionPayload, user: nat, id: nat, now: int): (r: Result<Transaction, FieldError>)
    requires p.amount.Some?
    ensures r.Err? <==> p.amount.value < 0
    ensures r.Err? ==> r.error == FieldError("amount")
    ensures r.Ok? ==> var t := r.value;
      && t.owner == user && t.id == id && t.createdAt == now && t.updatedAt == now
      && t.amount == p.amount.value && t.amount >= 0
      && t.kind == p.kind && t.category == p.category && t.date == p.date
      && t.description == (if p.description.Some? then p.description.value else "")
      && t.isRecurring == (p.isRecurring.Some? && p.isRecurring.value)
  {
    match ValidateAmountAsWritten(p.amount)
    case Err(e) => Err(e)
    case Ok(_) => Ok(StoredTransaction(p, user, id, now))
  }

  /**
   * Validation as intended followed by `create`: only a positive amount is
   * stored.
   */
  function CreateTransaction(p: TransactionPayload, user: nat, id: nat, now: int): (r: Result<Transaction, FieldError>)
    requires p.amount.Some?
    ensures r.Err? <==> p.amount.value <= 0
    ensures r.Err? ==> r.error == FieldError("amount")
    ensures r.Ok? ==> var t := r.value;
      && t.owner == user && t.id == id && t.createdAt == now && t.updatedAt == now
      && t.amount == p.amount.value && t.amount > 0
      && t.kind == p.kind && t.category == p.category && t.date == p.date
      && t.description == (if p.description.Some? then p.description.value else "")
      && t.isRecurring == (p.isRecurring.Some? && p.isRecurring.value)
  {
    match ValidateAmount(p.amount)
    case Err(e) => Err(e)
    case Ok(_) => Ok(StoredTransaction(p, user, id, now))
  }

  /**
   * The two creations disagree exactly on a zero amount, where the code as
   * written stores a transaction of amount 0 and the intended guard refuses it;
   * on every other amount they give the same result.
   */
  lemma CreateDiffersOnlyAtZero(p: TransactionPayload, user: nat, id: nat, now: int)
    requires p.amount.Some?
    ensures CreateTransactionAsWritten(p, user, id, now) != CreateTransaction(p, user, id, now)
            <==> p.amount.value == 0
    ensures p.amount.value == 0 ==> CreateTransactionAsWritten(p, user, id, now).Ok?
                                    && CreateTransactionAsWritten(p, user, id, now).value.amount == 0
                                    && CreateTransaction(p, user, id, now).Err?
  {
  }

  /** Client-sent `id`, `created_at` and `updated_at` do not reach the stored row. */
  lemma TransactionReadOnlyFieldsIgnored(p: TransactionPayload, user: nat, id: nat, now: int,
                                         fakeId: Option<nat>, fakeCreated: Option<int>, fakeUpdated: Option<int>)
    requires p.amount.Some?
    ensures CreateTransaction(p.(id := fakeId, createdAt := fakeCreated, updatedAt := fakeUpdated), user, id, now)
            == CreateTransaction(p, user, id, now)
  {
  }

  /** The serialized form: the category's name, icon and color, or None once the category is gone. */
  datatype TransactionData = TransactionData(
    transaction: Transaction,
    categoryName: Option<string>,
    categoryIcon: Option<string>,
    categoryColor: Option<string>)

  function SerializeTransaction(t: Transaction, cats: seq<Category>): (d: TransactionData)
    ensures d.transaction == t
    ensures d.categoryName.Some? <==> t.category.Some? && exists c :: c in cats && c.id == t.category.value
    ensures d.categoryName.Some? <==> d.categoryIcon.Some? && d.categoryColor.Some?
    ensures d.categoryName.Some? ==>
              exists c :: c in cats && Some(c.id) == t.category
                          && d.categoryName == Some(c.name) && d.categoryIcon == Some(c.icon) && d.categoryColor == Some(c.color)
  {
    match FindCategory(cats, t.category)
    case Some(c) => TransactionData(t, Some(c.name), Some(c.icon), Some(c.color))
    case None => TransactionData(t, None, None, None)
  }

  /** After its category is deleted, a transaction that pointed at it serializes without category details. */
  lemma DeletedCategoryLeavesNoName(cats: seq<Category>, ts: seq<Transaction>, id: nat, i: nat)
    requires i < |ts| && ts[i].category == Some(id)
    ensures var (cats', ts') := DeleteCategory(cats, ts, id);
            SerializeTransaction(ts'[i], cats') == TransactionData(ts[i].(category := None), None, None, None)
  {
  }

  // ---------------------------------------------------------------------------
  // RecurringTransactionSerializer.create

  /** A recurring-template request body; `id` and `created_at` are read-only. */
  datatype RecurringPayload = RecurringPayload(
    id: Option<nat>,
    amount: int,
    kind: Kind,
    category: Option<nat>,
    description: Option<string>,
    frequency: Frequency,
    nextDate: Date,
    isActive: Option<bool>,
    createdAt: Option<int>)

  /** `create`: no amount check here; the template belongs to the requester and starts active by default. */
  function CreateRecurring(p: RecurringPayload, user: nat, id: nat, now: int): (r: RecurringTransaction)
    ensures r.owner == user && r.id == id && r.createdAt == now
    ensures r.amount == p.amount && r.kind == p.kind && r.category == p.category
    ensures r.frequency == p.frequency && r.nextDate == p.nextDate
    ensures r.isActive == (p.isActive.None? || p.isActive.value)
    ensures r.description == (if p.description.Some? then p.description.value else "")
  {
    RecurringTransaction(id, user, p.amount, p.kind, p.category, p.description.GetOr(""),
                         p.frequency, p.nextDate, p.isActive.GetOr(true), now)
  }
}

=== FILE: transaction_views.dfy ===
/**
 * The transactions app's endpoints: which categories a user sees, the
 * transaction list and its filters, and the summary, trends and recent
 * actions computed over it.
 */
module TransactionViews {
  import opened Wrappers
  import opened Dates
  import opened TransactionModels
  import opened TransactionSerializers
  import opened BudgetModels
  import opened Aggregates
  import opened Rounding
  import Seqs

  // ---------------------------------------------------------------------------
  // CategoryViewSet

  /** `Q(user=request.user) | Q(is_default=True)` */
  predicate Visible(c: Category, user: nat) {
    c.owner == Some(user) || c.isDefault
  }

  /** `get_queryset`, in the model's name order. */
  function CategoryQuery(cats: seq<Category>, user: nat): (r: seq<Category>)
    ensures forall c :: c in r <==> c in cats && Visible(c, user)
    ensures Seqs.SortedBy(r, ByName)
  {
    ByNameTotal();
    Seqs.SortBy(Seqs.Filter(cats, (c: Category) => Visible(c, user)), ByName)
  }

  /** `expense_categories` and `income_categories`: the visible categories of one kind. */
  function CategoriesOfKind(cats: seq<Category>, user: nat, kind: Kind): (r: seq<Category>)
    ensures forall c :: c in r <==> c in cats && Visible(c, user) && c.kind == kind
    ensures Seqs.SortedBy(r, ByName)
  {
    ByNameTotal();
    Seqs.SortBy(Seqs.Filter(cats, (c: Category) => Visible(c, user) && c.kind == kind), ByName)
  }

  /** A category a user creates is listed for that user and for no one else. */
  lemma CustomCategoryIsPrivate(cats: seq<Category>, p: CategoryPayload, owner: nat, id: nat, now: int, other: nat)
    requires CreateCategory(p, owner, id, now) in cats
    ensures CreateCategory(p, owner, id, now) in CategoryQuery(cats, owner)
    ensures other != owner ==> CreateCategory(p, owner, id, now) !in CategoryQuery(cats, other)
  {
  }

  /** A shared default category is listed for every user. */
  lemma DefaultCategoryIsShared(cats: seq<Category>, c: Category, user: nat)
    requires c in cats && c.isDefault
    ensures c in CategoryQuery(cats, user)
    ensures c in CategoriesOfKind(cats, user, c.kind)
  {
  }

  /** The rows left once a category is deleted, with the deletion's effects on the rows that pointed at it. */
  datatype Deletion = Deletion(
    categories: seq<Category>,
    transactions: seq<Transaction>,
    budgets: seq<Budget>,
    templates: seq<RecurringTransaction>)

  /**
   * `destroy` looks the category up in the same query set, so any user may
   * delete a shared default category. Its budgets go with it (CASCADE); its
   * transactions and recurring templates stay with their category cleared
   * (SET_NULL), and nothing else about them changes.
   */
  function DestroyCategory(cats: seq<Category>, ts: seq<Transaction>, bs: seq<Budget>, rs: seq<RecurringTransaction>,
                           user: nat, id: nat): (r: Option<Deletion>)
    ensures r.None? <==> forall c :: c in cats && c.id == id ==> !Visible(c, user)
    ensures r.Some? ==> forall c :: c in r.value.categories <==> c in cats && c.id != id
    ensures r.Some? ==> forall b :: b in r.value.budgets <==> b in bs && b.category != id
    ensures r.Some? ==> |r.value.transactions| == |ts| && |r.value.templates| == |rs|
    ensures r.Some? ==> forall i :: 0 <= i < |ts| ==>
      && r.value.transactions[i].category != Some(id)
      && (ts[i].category != Some(id) ==> r.value.transactions[i] == ts[i])
      && r.value.transactions[i] == ts[i].(category := r.value.transactions[i].category)
    ensures r.Some? ==> forall i :: 0 <= i < |rs| ==>
      && r.value.templates[i].category != Some(id)
      && (rs[i].category != Some(id) ==> r.value.templates[i] == rs[i])
      && r.value.templates[i] == rs[i].(category := r.value.templates[i].category)
  {
    if exists c :: c in cats && c.id == id && Visible(c, user) then
      var (left, unlinked) := DeleteCategory(cats, ts, id);
      var templates := DeleteCategoryFromTemplates(rs, id);
      Some(Deletion(left, unlinked, DeleteCategoryBudgets(bs, id), templates))
    else None
  }

  // ---------------------------------------------------------------------------
  // TransactionViewSet.get_queryset

  /**
   * The list's query parameters: `type` ("" when absent), `category`, and a
   * date range that applies only when both ends are given.
   */
  datatype TransactionParams = TransactionParams(
    kind: string,
    category: Option<nat>,
    startDate: Option<Date>,
    endDate: Option<Date>)

  const NoParams: TransactionParams := TransactionParams("", None, None, None)

  predicate InQuery(t: Transaction, user: nat, params: TransactionParams) {
    && t.owner == user
    && (params.kind != "" ==> KindName(t.kind) == params.kind)
    && (params.category.Some? ==> t.category == params.category)
    && (params.startDate.Some? && params.endDate.Some? ==>
          AtOrBefore(params.startDate.value, t.date) && AtOrBefore(t.date, params.endDate.value))
  }

  /** `get_queryset`: the user's rows the parameters accept, newest first. */
  function TransactionQuery(ts: seq<Transaction>, user: nat, params: TransactionParams): (r: seq<Transaction>)
    ensures forall t :: t in r <==> t in ts && InQuery(t, user, params)
    ensures Seqs.SortedBy(r, NewestFirst)
    ensures |r| <= |ts|
  {
    NewestFirstTotal();
    Seqs.SortBy(Seqs.Filter(ts, (t: Transaction) => InQuery(t, user, params)), NewestFirst)
  }

  /** Users never see each other's transactions, whatever the parameters. */
  lemma QueryIsPerUser(ts: seq<Transaction>, user: nat, other: nat, params: TransactionParams)
    requires user != other
    ensures forall t :: t in TransactionQuery(ts, user, params) ==> t !in TransactionQuery(ts, other, params)
  {
  }

  /** A range with only one end given is ignored. */
  lemma HalfRangeIgnored(ts: seq<Transaction>, user: nat, start: Date)
    ensures forall t :: t in TransactionQuery(ts, user, TransactionParams("", None, Some(start), None))
                        <==> t in TransactionQuery(ts, user, NoParams)
  {
  }

  /** A `type` value that names no choice matches nothing. */
  lemma UnknownTypeMatchesNothing(ts: seq<Transaction>, user: nat, kind: string)
    requires kind != "" && ParseKind(kind).None?
    ensures TransactionQuery(ts, user, TransactionParams(kind, None, None, None)) == []
  {
    forall t ensures !InQuery(t, user, TransactionParams(kind, None, None, None)) {
      KindChoices(kind, t.kind);
    }
  }

  // ---------------------------------------------------------------------------
  // summary

  /** The summary's range: the parameters when both are given, else the current month up to today. */
  function SummaryRange(params: TransactionParams, today: Date): (r: (Date, Date))
    ensures params.startDate.Some? && params.endDate.Some? ==> r == (params.startDate.value, params.endDate.value)
    ensures params.startDate.None? || params.endDate.None? ==> r == (Date(today.year, today.month, 1), today)
  {
    if params.startDate.Some? && params.endDate.Some? then (params.startDate.value, params.endDate.value)
    else (Date(today.year, today.month, 1), today)
  }

  /** The breakdown's key: the category's name, icon and color, all None for an uncategorised row. */
  datatype Label = Label(name: Option<string>, icon: Option<string>, color: Option<string>)

  function LabelOf(cats: seq<Category>, t: Transaction): Label {
    match FindCategory(cats, t.category)
    case Some(c) => Label(Some(c.name), Some(c.icon), Some(c.color))
    case None => Label(None, None, None)
  }

  datatype Summary = Summary(
    start: Date,
    end: Date,
    income: int,
    expenses: int,
    net: int,
    savingsRate: real,
    breakdown: seq<Group<Label>>,
    count: nat)

  predicate InRange(t: Transaction, start: Date, end: Date) {
    AtOrBefore(start, t.date) && AtOrBefore(t.date, end)
  }

  /** The rows the summary aggregates: the list's rows within the summary's range. */
  function SummaryRows(ts: seq<Transaction>, user: nat, params: TransactionParams, today: Date): (r: seq<Transaction>)
    ensures forall t :: t in r <==> t in ts && InQuery(t, user, params) && InRange(t, SummaryRange(params, today).0, SummaryRange(params, today).1)
  {
    var (start, end) := SummaryRange(params, today);
    Seqs.Filter(Seqs.Filter(ts, (t: Transaction) => InQuery(t, user, params)), (t: Transaction) => InRange(t, start, end))
  }

  function OfKind(ts: seq<Transaction>, k: Kind): (r: seq<Transaction>)
    ensures forall t :: t in r <==> t in ts && t.kind == k
  {
    Seqs.Filter(ts, (t: Transaction) => t.kind == k)
  }

  /** `savings_rate`: net savings as a percentage of income, two places; 0 without income. */
  function SavingsRate(income: int, expenses: int): (r: real)
    ensures income <= 0 ==> r == 0.0
    ensures income > 0 && 0 <= expenses <= income ==> 0.0 <= r <= 100.0
    ensures income > 0 && expenses > income ==> r <= 0.0
    ensures income > 0 && expenses == 0 ==> r == 100.0
    ensures income > 0 ==> NearPercent(r, income - expenses, income)
  {
    if income > 0 then
      var p := PercentOf(income - expenses, income);
      Round2PercentBounds(income - expenses, income);
      assert 0 <= expenses <= income ==> 0.0 <= Round2(p) <= 100.0 by {
        if 0 <= expenses <= income {
          Round2Monotone(0.0, p);
          Round2Monotone(p, 100.0);
          Round2Exact(0);
          Round2Exact(10000);
        }
      }
      assert expenses > income ==> Round2(p) <= 0.0 by {
        if expenses > income {
          Round2Monotone(p, 0.0);
          Round2Exact(0);
        }
      }
      assert expenses == 0 ==> Round2(p) == 100.0 by {
        if expenses == 0 {
          Round2Exact(10000);
        }
      }
      Round2(p)
    else 0.0
  }

  function KindOf(t: Transaction): Kind {
    t.kind
  }

  /** Summing the rows of one kind agrees with the reference sum keyed by kind. */
  lemma {:induction false} OfKindSum(rows: seq<Transaction>, k: Kind)
    ensures SumAmounts(OfKind(rows, k)) == SumWithKey(rows, KindOf, k)
  {
    if |rows| > 0 {
      OfKindSum(rows[1..], k);
    }
  }

  /** Every row is income or expense, so the two totals add up to the total of the rows. */
  lemma {:induction false} IncomeExpenseSplit(rows: seq<Transaction>)
    ensures SumAmounts(OfKind(rows, Income)) + SumAmounts(OfKind(rows, Expense)) == SumAmounts(rows)
  {
    if |rows| > 0 {
      IncomeExpenseSplit(rows[1..]);
    }
  }

  /**
   * `category_breakdown`: one group per category label, largest total first,
   * each holding the sum and count of the expenses with that label.
   */
  function Breakdown(expenses: seq<Transaction>, cats: seq<Category>): (r: seq<Group<Label>>)
    ensures Seqs.SortedBy(r, (a: Group<Label>, b: Group<Label>) => ByTotalDesc(a, b))
    ensures DistinctKeys(r)
    ensures SumTotals(r) == SumAmounts(expenses)
    ensures forall g :: g in r ==>
              g.total == SumWithKey(expenses, t => LabelOf(cats, t), g.key) && g.count == CountWithKey(expenses, t => LabelOf(cats, t), g.key)
    ensures forall t :: t in expenses ==> exists g :: g in r && g.key == LabelOf(cats, t)
  {
    var key := (t: Transaction) => LabelOf(cats, t);
    var le := (a: Group<Label>, b: Group<Label>) => ByTotalDesc(a, b);
    var groups := GroupBy(expenses, key);
    ByTotalDescTotal<Label>();
    var r := Seqs.SortBy(groups, le);
    SortKeepsGroups(groups, le);
    SortKeepsSum(groups, le);
    forall g | g in r ensures g.total == SumWithKey(expenses, key, g.key) && g.count == CountWithKey(expenses, key, g.key) {
      LookupMember(r, g);
      assert g.key in KeySet(groups);
      var h :| h in groups && h.key == g.key;
      LookupMember(groups, h);
    }
    assert forall t :: t in expenses ==> key(t) in KeySet(r);
    r
  }

  /** `summary` */
  function SummaryOf(ts: seq<Transaction>, cats: seq<Category>, user: nat, params: TransactionParams, today: Date): (r: Summary)
    ensures (r.start, r.end) == SummaryRange(params, today)
    ensures r.net == r.income - r.expenses
    ensures r.income + r.expenses == SumAmounts(SummaryRows(ts, user, params, today))
    ensures r.income == SumAmounts(OfKind(SummaryRows(ts, user, params, today), Income))
    ensures r.count == |SummaryRows(ts, user, params, today)|
    ensures r.savingsRate == SavingsRate(r.income, r.expenses)
    ensures SumTotals(r.breakdown) == r.expenses
    ensures r.breakdown == Breakdown(OfKind(SummaryRows(ts, user, params, today), Expense), cats)
  {
    var rows := SummaryRows(ts, user, params, today);
    var income := SumAmounts(OfKind(rows, Income));
    var expenses := SumAmounts(OfKind(rows, Expense));
    IncomeExpenseSplit(rows);
    var (start, end) := SummaryRange(params, today);
    Summary(start, end, income, expenses, income - expenses, SavingsRate(income, expenses),
            Breakdown(OfKind(rows, Expense), cats), |rows|)
  }

  // ---------------------------------------------------------------------------
  // trends

  /** One month of the trends response; `month` is the month's index, printed as `%Y-%m`. */
  datatype TrendRow = TrendRow(month: int, income: int, expenses: int, net: int)

  /** The key of `values('month', 'type')` with `month = TruncMonth('date')`. */
  function MonthKind(t: Transaction): (int, Kind) {
    (MonthIndex(t.date), t.kind)
  }

  /** `order_by('month')` */
  predicate ByMonth(a: Group<(int, Kind)>, b: Group<(int, Kind)>) {
    a.key.0 <= b.key.0
  }

  function FindMonth(rows: seq<TrendRow>, m: int): (i: int)
    ensures -1 <= i < |rows|
    ensures i >= 0 ==> rows[i].month == m
    ensures i < 0 ==> forall r :: r in rows ==> r.month != m
  {
    if |rows| == 0 then -1
    else if rows[|rows| - 1].month == m then |rows| - 1
    else
      var i := FindMonth(rows[..|rows| - 1], m);
      assert forall r :: r in rows ==> r in rows[..|rows| - 1] || r == rows[|rows| - 1];
      i
  }

  /** The row of month `m` before group `g` is applied: the existing one, or a new row of zeros. */
  function RowBefore(rows: seq<TrendRow>, m: int): TrendRow {
    var i := FindMonth(rows, m);
    if i >= 0 then rows[i] else TrendRow(m, 0, 0, 0)
  }

  /** One step of the loop: open the month's row if needed, set income or expenses, recompute net. */
  function Upsert(rows: seq<TrendRow>, g: Group<(int, Kind)>): (r: seq<TrendRow>)
    ensures var i := FindMonth(rows, g.key.0);
      && var j := if i >= 0 then i else |rows|;
      && |r| == (if i >= 0 then |rows| else |rows| + 1)
      && (forall k :: 0 <= k < |rows| && k != j ==> r[k] == rows[k])
      && r[j].month == g.key.0
      && r[j].income == (if g.key.1 == Income then g.total else RowBefore(rows, g.key.0).income)
      && r[j].expenses == (if g.key.1 == Income then RowBefore(rows, g.key.0).expenses else g.total)
      && r[j].net == r[j].income - r[j].expenses
  {
    var i := FindMonth(rows, g.key.0);
    var base := if i >= 0 then rows else rows + [TrendRow(g.key.0, 0, 0, 0)];
    var j := if i >= 0 then i else |rows|;
    var r := if g.key.1 == Income then base[j].(income := g.total) else base[j].(expenses := g.total);
    base[j := r.(net := r.income - r.expenses)]
  }

  predicate MonthsDistinct(rows: seq<TrendRow>) {
    forall i, j :: 0 <= i < j < |rows| ==> rows[i].month != rows[j].month
  }

  predicate MonthsAscending(rows: seq<TrendRow>) {
    forall i :: 0 < i < |rows| ==> rows[i - 1].month < rows[i].month
  }

  function Months(gs: seq<Group<(int, Kind)>>): set<int> {
    set g | g in gs :: g.key.0
  }

  /** A row of the response is a month that has groups, with that month's totals. */
  predicate RowMatches(gs: seq<Group<(int, Kind)>>, r: TrendRow) {
    && r.month in Months(gs)
    && r.income == TotalOf(gs, (r.month, Income))
    && r.expenses == TotalOf(gs, (r.month, Expense))
    && r.net == r.income - r.expenses
  }

  /**
   * The loop over the month/type groups: one row per month, income and
   * expenses taken from that month's groups (0 when a kind is missing), net
   * their difference. Groups in month order give rows in month order.
   */
  function FoldTrends(gs: seq<Group<(int, Kind)>>): (rows: seq<TrendRow>)
    requires DistinctKeys(gs)
    ensures MonthsDistinct(rows)
    ensures forall r :: r in rows <==> RowMatches(gs, r)
    decreases |gs|
  {
    if |gs| == 0 then []
    else
      var init := gs[..|gs| - 1];
      var g := gs[|gs| - 1];
      assert gs == init + [g];
      DistinctInit(gs);
      UpsertRows(init, FoldTrends(init), g);
      Upsert(FoldTrends(init), g)
  }

  /** Groups in month order give rows in month order, the last row being the last group's month. */
  lemma {:induction false} FoldTrendsOrdered(gs: seq<Group<(int, Kind)>>)
    requires DistinctKeys(gs) && Seqs.SortedBy(gs, ByMonth)
    ensures MonthsAscending(FoldTrends(gs))
    ensures |gs| > 0 ==> |FoldTrends(gs)| > 0 && FoldTrends(gs)[|FoldTrends(gs)| - 1].month == gs[|gs| - 1].key.0
    decreases |gs|
  {
    if |gs| > 0 {
      var init := gs[..|gs| - 1];
      var g := gs[|gs| - 1];
      assert gs == init + [g];
      DistinctInit(gs);
      assert Seqs.SortedBy(init, ByMonth);
      FoldTrendsOrdered(init);
      var prev := FoldTrends(init);
      assert forall r :: r in prev ==> r.month in Months(init) by {
        forall r | r in prev ensures r.month in Months(init) {
          assert RowMatches(init, r);
        }
      }
      UpsertOrder(init, prev, g);
    }
  }

  lemma DistinctInit<K>(gs: seq<Group<K>>)
    requires DistinctKeys(gs) && |gs| > 0
    ensures DistinctKeys(gs[..|gs| - 1])
    ensures gs[|gs| - 1].key !in KeySet(gs[..|gs| - 1])
  {
    var init := gs[..|gs| - 1];
    forall i, j | 0 <= i < j < |init| ensures init[i].key != init[j].key {
      assert init[i] == gs[i] && init[j] == gs[j];
    }
    forall x | x in init ensures x.key != gs[|gs| - 1].key {
      var i :| 0 <= i < |init| && init[i] == x;
      assert gs[i] == x;
    }
  }

  /** Looking a key up after appending a group with a new key. */
  lemma {:induction false} TotalOfSnoc<K>(gs: seq<Group<K>>, g: Group<K>, k: K)
    requires g.key !in KeySet(gs)
    ensures TotalOf(gs + [g], k) == if k == g.key then g.total else TotalOf(gs, k)
  {
    if |gs| == 0 {
      assert gs + [g] == [g];
    } else {
      assert (gs + [g])[1..] == gs[1..] + [g];
      KeySetCons(gs);
      TotalOfSnoc(gs[1..], g, k);
      if k == g.key {
        LookupAbsent(gs, k);
      }
    }
  }

  lemma MonthsSnoc(gs: seq<Group<(int, Kind)>>, g: Group<(int, Kind)>)
    ensures Months(gs + [g]) == Months(gs) + {g.key.0}
  {
    assert forall x :: x in gs + [g] <==> x in gs || x == g;
  }

  /** A month without groups has no total of either kind. */
  lemma MonthAbsent(gs: seq<Group<(int, Kind)>>, m: int, k: Kind)
    requires m !in Months(gs)
    ensures TotalOf(gs, (m, k)) == 0
  {
    assert (m, k) !in KeySet(gs);
    LookupAbsent(gs, (m, k));
  }

  /** A month that has groups already has its row. */
  lemma MonthWithGroupsHasRow(init: seq<Group<(int, Kind)>>, prev: seq<TrendRow>, m: int)
    requires forall r :: r in prev <==> RowMatches(init, r)
    requires m in Months(init)
    ensures FindMonth(prev, m) >= 0
  {
    var row := TrendRow(m, TotalOf(init, (m, Income)), TotalOf(init, (m, Expense)),
                        TotalOf(init, (m, Income)) - TotalOf(init, (m, Expense)));
    assert RowMatches(init, row);
    assert row in prev;
  }

  /** Applying one more group keeps the rows in step with the groups seen so far. */
  lemma UpsertRows(init: seq<Group<(int, Kind)>>, prev: seq<TrendRow>, g: Group<(int, Kind)>)
    requires DistinctKeys(init) && g.key !in KeySet(init)
    requires MonthsDistinct(prev)
    requires forall r :: r in prev <==> RowMatches(init, r)
    ensures MonthsDistinct(Upsert(prev, g))
    ensures forall r :: r in Upsert(prev, g) <==> RowMatches(init + [g], r)
  {
    var gs := init + [g];
    var m := g.key.0;
    var rows := Upsert(prev, g);
    var i := FindMonth(prev, m);
    var j := if i >= 0 then i else |prev|;
    MonthsSnoc(init, g);
    forall x: int, k: Kind ensures TotalOf(gs, (x, k)) == if (x, k) == g.key then g.total else TotalOf(init, (x, k)) {
      TotalOfSnoc(init, g, (x, k));
    }
    assert i < 0 ==> m !in Months(init) by {
      if m in Months(init) {
        MonthWithGroupsHasRow(init, prev, m);
      }
    }
    if i < 0 {
      MonthAbsent(init, m, Income);
      MonthAbsent(init, m, Expense);
    }
    if i >= 0 {
      assert prev[i] in prev;
    }
    assert TotalOf(gs, (m, Income)) == if g.key.1 == Income then g.total else TotalOf(init, (m, Income));
    assert TotalOf(gs, (m, Expense)) == if g.key.1 == Expense then g.total else TotalOf(init, (m, Expense));
    assert RowMatches(gs, rows[j]);
    forall a, b | 0 <= a < b < |rows| ensures rows[a].month != rows[b].month {
      if a != j && b != j {
        assert rows[a] == prev[a] && rows[b] == prev[b];
      } else if a == j {
        assert rows[b] == prev[b];
        assert prev[b] in prev;
      } else {
        assert rows[a] == prev[a];
        assert prev[a] in prev;
      }
    }
    forall r ensures r in rows <==> RowMatches(gs, r) {
      if r in rows {
        var a :| 0 <= a < |rows| && rows[a] == r;
        if a != j {
          assert r == prev[a];
          assert r in prev;
          if i >= 0 {
            assert r.month != m;
          }
        }
      }
      if RowMatches(gs, r) {
        if r.month == m {
          assert r == rows[j];
        } else {
          assert RowMatches(init, r);
          assert r in prev;
          var a :| 0 <= a < |prev| && prev[a] == r;
          assert a != j;
          assert rows[a] == r;
        }
      }
    }
  }

  lemma ByMonthTransitive()
    ensures Seqs.Transitive(ByMonth)
  {
  }

  /** With the groups in month order, the rows stay in month order and end with the latest group's month. */
  lemma UpsertOrder(init: seq<Group<(int, Kind)>>, prev: seq<TrendRow>, g: Group<(int, Kind)>)
    requires MonthsDistinct(prev) && MonthsAscending(prev)
    requires forall r :: r in prev ==> r.month in Months(init)
    requires |init| > 0 ==> |prev| > 0 && prev[|prev| - 1].month == init[|init| - 1].key.0
    requires Seqs.SortedBy(init + [g], ByMonth)
    ensures MonthsAscending(Upsert(prev, g))
    ensures |Upsert(prev, g)| > 0 && Upsert(prev, g)[|Upsert(prev, g)| - 1].month == g.key.0
  {
    var m := g.key.0;
    var rows := Upsert(prev, g);
    var i := FindMonth(prev, m);
    UpsertKeepsMonths(prev, g);
    if i >= 0 {
      assert i == |prev| - 1 by {
        LastMonthIsLatest(init, prev, g, i);
      }
      assert |rows| == |prev|;
    } else if |prev| > 0 {
      var gs := init + [g];
      assert gs[|init| - 1] == init[|init| - 1] && gs[|init|] == g;
      assert ByMonth(gs[|init| - 1], gs[|init|]);
      assert prev[|prev| - 1] in prev;
      assert prev[|prev| - 1].month < m;
      assert |rows| == |prev| + 1 && rows[|prev|].month == m;
    }
  }

  /** Upsert leaves the month of every existing row as it was. */
  lemma UpsertKeepsMonths(prev: seq<TrendRow>, g: Group<(int, Kind)>)
    ensures |Upsert(prev, g)| >= |prev|
    ensures forall k :: 0 <= k < |prev| ==> Upsert(prev, g)[k].month == prev[k].month
    ensures FindMonth(prev, g.key.0) < 0 ==> |Upsert(prev, g)| == |prev| + 1 && Upsert(prev, g)[|prev|].month == g.key.0
    ensures FindMonth(prev, g.key.0) >= 0 ==> |Upsert(prev, g)| == |prev|
  {
  }

  /** With the groups in month order, a month already present is the month of the last row. */
  lemma LastMonthIsLatest(init: seq<Group<(int, Kind)>>, prev: seq<TrendRow>, g: Group<(int, Kind)>, i: int)
    requires MonthsDistinct(prev)
    requires forall r :: r in prev ==> r.month in Months(init)
    requires |init| > 0 ==> |prev| > 0 && prev[|prev| - 1].month == init[|init| - 1].key.0
    requires Seqs.SortedBy(init + [g], ByMonth)
    requires 0 <= i < |prev| && prev[i].month == g.key.0
    ensures i == |prev| - 1
  {
    var m := g.key.0;
    var gs := init + [g];
    assert prev[i] in prev;
    var x :| x in init && x.key.0 == m;
    var a :| 0 <= a < |init| && init[a] == x;
    ByMonthTransitive();
    assert gs[a] == x && gs[|init|] == g;
    if a < |init| - 1 {
      Seqs.SortedPairs(gs, ByMonth, a, |init| - 1);
    }
    assert gs[|init| - 1] == init[|init| - 1];
    assert ByMonth(gs[|init| - 1], gs[|init|]);
    assert prev[i].month == prev[|prev| - 1].month;
  }

  lemma ByMonthTotal()
    ensures Seqs.Total(ByMonth)
  {
  }

  /** The rows `trends` reads: the list's rows dated within the 180 days up to today. */
  predicate InTrendWindow(t: Transaction, today: Date)
    requires Valid(today)
  {
    AtOrBefore(SubDays(today, 180), t.date) && AtOrBefore(t.date, today)
  }

  function TrendRows(ts: seq<Transaction>, user: nat, params: TransactionParams, today: Date): (r: seq<Transaction>)
    requires Valid(today)
    ensures forall t :: t in r <==> t in ts && InQuery(t, user, params) && InTrendWindow(t, today)
  {
    Seqs.Filter(ts, (t: Transaction) => InQuery(t, user, params) && InTrendWindow(t, today))
  }

  /** `values('month', 'type').annotate(total=Sum('amount')).order_by('month')` */
  function MonthlyGroups(window: seq<Transaction>): (gs: seq<Group<(int, Kind)>>)
    ensures DistinctKeys(gs) && Seqs.SortedBy(gs, ByMonth)
    ensures Months(gs) == set t | t in window :: MonthIndex(t.date)
    ensures forall k :: TotalOf(gs, k) == SumWithKey(window, MonthKind, k)
  {
    var groups := GroupBy(window, MonthKind);
    ByMonthTotal();
    var sorted := Seqs.SortBy(groups, ByMonth);
    SortKeepsGroups(groups, ByMonth);
    assert forall g :: g in sorted <==> g in groups;
    forall m | m in Months(sorted) ensures exists t :: t in window && MonthIndex(t.date) == m {
      var g :| g in sorted && g.key.0 == m;
      assert g.key in KeySet(groups);
    }
    forall t | t in window ensures MonthIndex(t.date) in Months(sorted) {
      assert MonthKind(t) in KeySet(groups);
      var g :| g in groups && g.key == MonthKind(t);
    }
    sorted
  }

  /**
   * The fold over the month/type groups of `window`: one row per month that
   * has transactions, in month order, with that month's income and expense
   * sums and their difference.
   */
  function TrendsOf(window: seq<Transaction>): (rows: seq<TrendRow>)
    ensures MonthsAscending(rows)
    ensures forall r :: r in rows ==>
              && r.income == SumWithKey(window, MonthKind, (r.month, Income))
              && r.expenses == SumWithKey(window, MonthKind, (r.month, Expense))
              && r.net == r.income - r.expenses
    ensures forall t :: t in window ==> exists r :: r in rows && r.month == MonthIndex(t.date)
    ensures forall r :: r in rows ==> exists t :: t in window && MonthIndex(t.date) == r.month
  {
    var gs := MonthlyGroups(window);
    var rows := FoldTrends(gs);
    FoldTrendsOrdered(gs);
    TrendRowsMatchWindow(window, gs, rows);
    rows
  }

  lemma TrendRowsMatchWindow(window: seq<Transaction>, gs: seq<Group<(int, Kind)>>, rows: seq<TrendRow>)
    requires Months(gs) == set t | t in window :: MonthIndex(t.date)
    requires forall k :: TotalOf(gs, k) == SumWithKey(window, MonthKind, k)
    requires forall r :: r in rows <==> RowMatches(gs, r)
    ensures forall r :: r in rows ==>
              && r.income == SumWithKey(window, MonthKind, (r.month, Income))
              && r.expenses == SumWithKey(window, MonthKind, (r.month, Expense))
              && r.net == r.income - r.expenses
    ensures forall t :: t in window ==> exists r :: r in rows && r.month == MonthIndex(t.date)
    ensures forall r :: r in rows ==> exists t :: t in window && MonthIndex(t.date) == r.month
  {
    forall r | r in rows
      ensures r.income == SumWithKey(window, MonthKind, (r.month, Income))
      ensures r.expenses == SumWithKey(window, MonthKind, (r.month, Expense))
      ensures r.net == r.income - r.expenses
      ensures exists t :: t in window && MonthIndex(t.date) == r.month
    {
      assert RowMatches(gs, r);
      assert r.month in Months(gs);
    }
    forall t | t in window ensures exists r :: r in rows && r.month == MonthIndex(t.date) {
      var m := MonthIndex(t.date);
      assert m in Months(gs);
      var r := TrendRow(m, TotalOf(gs, (m, Income)), TotalOf(gs, (m, Expense)),
                        TotalOf(gs, (m, Income)) - TotalOf(gs, (m, Expense)));
      assert RowMatches(gs, r);
    }
  }

  /** `trends` */
  function Trends(ts: seq<Transaction>, user: nat, params: TransactionParams, today: Date): (rows: seq<TrendRow>)
    requires Valid(today)
    ensures MonthsAscending(rows)
    ensures forall r :: r in rows ==>
              && r.income == SumWithKey(TrendRows(ts, user, params, today), MonthKind, (r.month, Income))
              && r.expenses == SumWithKey(TrendRows(ts, user, params, today), MonthKind, (r.month, Expense))
              && r.net == r.income - r.expenses
    ensures forall t :: t in ts && InQuery(t, user, params) && InTrendWindow(t, today) ==>
              exists r :: r in rows && r.month == MonthIndex(t.date)
    ensures forall r :: r in rows ==> exists t :: t in ts && InQuery(t, user, params) && InTrendWindow(t, today)
                                                 && MonthIndex(t.date) == r.month
  {
    TrendsOf(TrendRows(ts, user, params, today))
  }

  /** The trends of a window are empty exactly when the window is. */
  lemma TrendsOfEmptyIffNoRows(window: seq<Transaction>)
    ensures |TrendsOf(window)| == 0 <==> |window| == 0
  {
    var rows := TrendsOf(window);
    if |window| > 0 {
      assert window[0] in window;
    }
    if |rows| > 0 {
      assert rows[0] in rows;
    }
  }

  /** The trends response is empty exactly when the window has no transactions. */
  lemma TrendsNonEmptyIffData(ts: seq<Transaction>, user: nat, params: TransactionParams, today: Date)
    requires Valid(today)
    ensures |Trends(ts, user, params, today)| == 0 <==> |TrendRows(ts, user, params, today)| == 0
  {
    TrendsOfEmptyIffNoRows(TrendRows(ts, user, params, today));
  }

  // ---------------------------------------------------------------------------
  // recent

  /** `recent`: the first ten rows of the list, which is newest first. */
  function Recent(ts: seq<Transaction>, user: nat, params: TransactionParams): (r: seq<Transaction>)
    ensures |r| == if |TransactionQuery(ts, user, params)| < 10 then |TransactionQuery(ts, user, params)| else 10
    ensures r <= TransactionQuery(ts, user, params)
    ensures forall t :: t in r ==> t in ts && InQuery(t, user, params)
  {
    Seqs.Take(TransactionQuery(ts, user, params), 10)
  }

  /** No listed transaction left out of `recent` is newer than one it shows. */
  lemma RecentAreNewest(ts: seq<Transaction>, user: nat, params: TransactionParams, i: nat, j: nat)
    requires i < |Recent(ts, user, params)| <= j < |TransactionQuery(ts, user, params)|
    ensures NewestFirst(Recent(ts, user, params)[i], TransactionQuery(ts, user, params)[j])
  {
    var q := TransactionQuery(ts, user, params);
    NewestFirstTransitive();
    Seqs.SortedPairs(q, NewestFirst, i, j);
  }

  // ---------------------------------------------------------------------------
  // RecurringTransactionViewSet

  /** `get_queryset`: the user's templates, soonest next date first. */
  function RecurringQuery(rs: seq<RecurringTransaction>, user: nat): (r: seq<RecurringTransaction>)
    ensures forall x :: x in r <==> x in rs && x.owner == user
    ensures Seqs.SortedBy(r, ByNextDate)
  {
    ByNextDateTotal();
    Seqs.SortBy(Seqs.Filter(rs, (x: RecurringTransaction) => x.owner == user), ByNextDate)
  }
}

=== FILE: wrappers.dfy ===
/** Failure-carrying datatypes shared by the whole model. */
module Wrappers {

  /** A value that may be absent: a nullable column, an omitted field or query parameter. */
  datatype Option<+T> = None | Some(value: T) {
    function GetOr(default: T): T {
      match this
      case Some(v) => v
      case None => default
    }
  }

  /** Either a computed value or the error the request would have ended with. */
  datatype Result<+T, +E> = Ok(value: T) | Err(error: E)

  /** A serializer's `ValidationError`, keyed by the offending field. */
  datatype FieldError = FieldError(field: string)
}
